=== FILE: README.md ===
# Sakamichi blog frontend — a verified model of its pure core

The site is a single-page app that lists, renders and translates the blogs
of 乃木坂46, 樱坂46 and 日向坂46. This project models the parts of it that
are decisions rather than effects, as pure Dafny functions over strings,
sequences and integers. The modules are:

- **StructuredRenderer, MarkdownProcessor and BlogRenderer.** They model the
  blog-body rendering pipeline:
  - frontmatter stripping;
  - the line interpreter for `[NEWLINE:n]` and `[IMAGE:n]` tokens;
  - image-URL extraction;
  - the converter from legacy Markdown to the token form;
  - format detection;
  - the three-step inline Markdown rewrite.
- **Utils, ImageDownload, Seo, App and MemberPage.** They model the text
  extractors and summarisers:
  - image harvesting with two de-duplication rules;
  - SEO title, canonical URL and description;
  - list previews and excerpts;
  - de-duplication of blogs;
  - the choice of API base URL;
  - page arithmetic.
- **GroupConfig, MemberImages, BlogDetailSidebar, MemberDetail and Config.**
  They model lookups and normalisation:
  - group keys and names, including the 櫻→樱 rewrite;
  - member avatars found through whitespace variants;
  - group keys read from hashes and display names;
  - the calendar and back button of the member detail page;
  - the Cloudinary URL wrapper.
- **Pagination, Router, MemberPage and BilingualControl.** They model the
  small state machines:
  - pagination state and its button window;
  - the hash router and its view state;
  - month navigation with year carry;
  - the bilingual display mode and its menus.

Shared modules hold the support code:

- `Wrappers` holds `Option`.
- `Text` holds JS-style string operations: the whitespace set of `\s` and
  `trim`, `split`, `join`, `includes`, ASCII `toLowerCase`, and decimal
  conversion.
- `Patterns` holds one hand-written scanner per regular expression the core
  uses, with generic `replace(/…/g)`, `matchAll` and `match` over them.
- `Sorting` holds ordered lists of distinct strings (`new Set` followed by
  `sort`).
- `Blogs` holds the blog record.

JS values are modelled as follows:

- Strings are `seq<char>`.
- A missing or empty string field is `""`, which JS treats as falsy. A
  missing numeric id is `0`.
- Some operations become function-typed parameters, about which nothing is
  assumed unless a lemma says so:
  - `encodeURIComponent` becomes `encode`;
  - `decodeURIComponent` becomes `decode`;
  - the outcome of `JSON.parse` becomes `parsesToObject`;
  - the outcome of a health check becomes `healthy`.
- DOM state the code reads becomes plain data:
  - class lists become sets;
  - menu items become `(mode, marked)` pairs;
  - the open flags of the selector and of the button group become booleans.

## Model

| member | source | states |
|---|---|---|
| StructuredRenderer.StripFrontmatter | js/structured-renderer.js:27-33 | Content that does not open with `---` is unchanged; with a closing `---` at index 3 or later the result is trimmed and at least six characters shorter |
| StructuredRenderer.ClosingDelimiter | js/structured-renderer.js:27-33 | The closing delimiter found is the first `---` after the opening one, at index 3 plus the length of `meta` |
| StructuredRenderer.FrontmatterDropped | js/structured-renderer.js:27-33 | A `---meta---` block is dropped with its delimiters and the body trimmed |
| StructuredRenderer.UnclosedFrontmatterKept | js/structured-renderer.js:27-33 | Without a closing delimiter the content comes back unchanged |
| StructuredRenderer.MdHttpImageMatches | js/structured-renderer.js:121-131 | A markdown image whose target is an http(s) URL is matched whole, and the target is captured |
| StructuredRenderer.ExtractImageAt | js/structured-renderer.js:121-131 | The image list is built in document order: text before the first image adds nothing, each image adds its target (duplicates kept), and the scan resumes after it |
| StructuredRenderer.ExtractImageUrlsFromContent | js/structured-renderer.js:138-158 | The markdown http(s) targets when there is at least one; otherwise the bare-URL scan, each of whose results is an http(s) URL without whitespace ending in an image extension |
| StructuredRenderer.BareMatchesShape | js/structured-renderer.js:149-155 | Every match of the case-insensitive bare image-URL scan has an http(s) scheme, no whitespace and an image extension at its end |
| StructuredRenderer.EffectiveImages | js/structured-renderer.js:19-23 | A non-empty list extracted from the whole content, frontmatter included, replaces the caller's list; an empty one keeps it |
| StructuredRenderer.MarkerWhole | js/structured-renderer.js:54-77 | The anchored token scanner accepts a line exactly when the whole line is head, digits and `]`, and the captured digits parse to the token's number |
| StructuredRenderer.Classify | js/structured-renderer.js:44-80 | A trimmed line is blank iff empty, a break token iff exactly `[NEWLINE:d]`, an image token iff exactly `[IMAGE:d]` (with d as its number), and text otherwise |
| StructuredRenderer.TokenHeadsExclusive | js/structured-renderer.js:54-77 | No line is both a break token and an image token |
| StructuredRenderer.RenderStructuredContent | js/structured-renderer.js:13-114 | The renderer's loop appends each line's piece in order, so its output is the line-by-line rendering of the frontmatter-free content with the effective image list |
| StructuredRenderer.NewlineLine | js/structured-renderer.js:54-60 | A line trimming to `[NEWLINE:d]` contributes exactly d copies of `<br>` and nothing else |
| StructuredRenderer.ImageLine | js/structured-renderer.js:63-77 | A line trimming to `[IMAGE:d]` contributes the element for `images[d-1]` when that entry exists and is non-empty, and the placeholder comment for d otherwise (d = 0 and d past the list included) |
| StructuredRenderer.BlankLine | js/structured-renderer.js:48-51 | Blank lines contribute nothing |
| StructuredRenderer.TextLineBreak | js/structured-renderer.js:80-107 | Any other line, including look-alikes such as `[NEWLINE:abc]`, is rewritten inline. It is followed by `\n` exactly when the next line is non-blank and starts no token. The last line never is |
| StructuredRenderer.InertFallbackUnchanged | js/structured-renderer.js:92-97 | The two-step fallback rewrite (used when the Markdown processor is absent) leaves text without `![`, `**` or URLs unchanged |
| StructuredRenderer.RemoveFrontmatterBlock | js/structured-renderer.js:177 | The multiline `^---…---\n*` removal never lengthens the text and leaves text without `---` unchanged |
| StructuredRenderer.NoDashesNoFrontmatter | js/structured-renderer.js:177 | Text without `---` has no frontmatter match at any line start |
| StructuredRenderer.LeadingBlockRemoved | js/structured-renderer.js:177 | A block at the very start is removed with the newlines that follow it, leaving exactly the body |
| StructuredRenderer.NumberImageAt | js/structured-renderer.js:180-184 | The markdown http(s) image numbered k becomes `[IMAGE:k]` and numbering continues at k + 1, the text before it kept |
| StructuredRenderer.GroupLines | js/structured-renderer.js:187-208 | Every input line is accounted for exactly once, non-blank lines survive trimmed and in order, every gap counts at least one line, and no two gaps are adjacent, so each gap is a maximal blank run (a trailing run included) |
| StructuredRenderer.EntryLineShape | js/structured-renderer.js:187-210 | Each converted output line is a single non-blank line |
| StructuredRenderer.ConvertToStructuredFormat | js/structured-renderer.js:166-211 | Empty input gives `""`; input that already holds a token marker is returned unchanged |
| StructuredRenderer.ConvertedLines | js/structured-renderer.js:166-211 | For content without markers, the output lines are exactly the converter's entries and none of them is blank |
| StructuredRenderer.DetectContentFormat | js/structured-renderer.js:218-230 | Empty is unknown; a token marker makes it structured even with Markdown syntax present; otherwise `![`, `**` or `##` make it markdown; otherwise unknown |
| StructuredRenderer.RenderContent | js/structured-renderer.js:238-253 | Structured content is rendered directly, markdown after conversion to tokens, and unknown content has every newline replaced by `<br>` (none is left) |
| StructuredRenderer.PlainContentLines | js/structured-renderer.js:249-251 | Unknown content renders as its lines joined by `<br>` |
| MarkdownProcessor.LinkFor | js/utils/markdown-processor.js:32-43 | A URL run that mentions `.jpg`, `.png`, `.gif`, `.jpeg` or `.webp` is kept verbatim; any other becomes an anchor whose href and text are the run |
| MarkdownProcessor.Process | js/utils/markdown-processor.js:50-58 | Empty input gives `""`; otherwise images are rewritten first, then bold, then links |
| MarkdownProcessor.MdImageMatches | js/utils/markdown-processor.js:12-16 | `![alt](url)` with plain alt text and target is matched exactly, alt and target captured |
| MarkdownProcessor.ProcessImagesAt | js/utils/markdown-processor.js:12-16 | Text before the first image is kept, the image becomes its `<img>` element (alt `图片` when empty, lazy loading), and the rest is processed on its own |
| MarkdownProcessor.ProcessBoldAt | js/utils/markdown-processor.js:23-25 | `**x**` becomes `<strong>x</strong>` when x holds no `*` and no line break: each opening `**` pairs with the nearest following one |
| MarkdownProcessor.UrlRunMatches | js/utils/markdown-processor.js:32-34 | A maximal `http(s)://` run up to whitespace or `<` is matched whole |
| MarkdownProcessor.UrlRunStartsHttp | js/utils/markdown-processor.js:32-34 | Every URL-run match starts with `http` |
| MarkdownProcessor.LinksSkipPrefix | js/utils/markdown-processor.js:32-43 | Text before the first URL run passes through the link rewrite untouched |
| MarkdownProcessor.LinksAtRun | js/utils/markdown-processor.js:32-43 | A URL run at the start is replaced by its link form and the scan resumes after it |
| MarkdownProcessor.ProcessLinksAt | js/utils/markdown-processor.js:32-43 | A maximal URL run is replaced by its anchor, or kept when it names an image, with the surrounding text kept |
| MarkdownProcessor.InertUnchanged | js/utils/markdown-processor.js:50-58 | Text containing none of `![`, `**`, `http://`, `https://` comes back unchanged |
| BlogRenderer.Fallback | js/blog-renderer.js:66-79 | The fallback output contains no newline |
| BlogRenderer.RenderMarkdown | js/blog-renderer.js:7-80 | Frontmatter is stripped first. A body with tokens, or one the loaded detector calls structured, is rendered by the structured renderer with images from the stripped body. Anything else goes through the inline fallback |
| BlogRenderer.GroupNameIrrelevant | js/blog-renderer.js:7-80 | The returned HTML does not depend on the group name |
| BlogRenderer.TokensAgreeWithRenderContent | js/blog-renderer.js:22-36 | With the renderer loaded, a body with tokens renders as the renderer's own `renderContent` renders it, whichever detector is loaded |
| BlogRenderer.FrontmatterIgnored | js/blog-renderer.js:12-18 | A post with a frontmatter block renders exactly as its trimmed body alone |
| BlogRenderer.PlainTextFallback | js/blog-renderer.js:66-79 | Plain text with no detector verdict gets only its newlines replaced by `<br>`, which is also what `renderContent` gives unknown content |
| Utils.DetectContentFormat | js/utils.js:80-101 | Structured iff the text holds `[TITLE]`, `[DATE]`, `[CONTENT]` or `[IMAGE]`; else json iff it parses to an object; else markdown; never unknown |
| Utils.ImageTokenIsNotSectionMarker | js/utils.js:80-87 | A line token `[IMAGE:d]` is not one of those markers, so it is never detected as structured |
| Utils.MarkdownTargets | js/utils.js:108-112 | One entry per markdown image match, in order, each its captured target |
| Utils.HtmlSources | js/utils.js:115-120 | One entry per `<img … src>` match with either quote, in order, each its captured value |
| Utils.AppendAbsent | js/utils.js:115-120 | The list so far is kept as a prefix, each added entry is a candidate not already listed, and every candidate ends up in the list |
| Utils.ExtractImageUrls | js/utils.js:104-123 | All markdown targets first, duplicates kept; then HTML sources not yet listed, each once; every HTML source is in the result |
| Utils.MarkdownFirst | js/utils.js:104-123 | Every markdown-derived URL precedes every URL only an `<img>` tag supplied |
| Utils.MarkdownTargetAt | js/utils.js:108-112 | Markdown targets are listed in document order, each image contributing its target |
| ImageDownload.ContentOf | js/image-download.js:195 | The translation when there is one, else the original content |
| ImageDownload.DoubleQuotedSources | js/image-download.js:199 | One entry per double-quoted `<img src>` match, in order |
| ImageDownload.ExtractImagesFromContent | js/image-download.js:193-223 | Markdown targets in order with duplicates, tagged markdown; then double-quoted `<img>` sources no earlier entry has, tagged html; every such source appears |
| ImageDownload.ZipEntryName | js/image-download.js:143 | Image i (0-based) is stored as the decimal digits of i + 1, zero-padded to two, followed by `.jpg` |
| ImageDownload.ZipEntryNamesDistinct | js/image-download.js:143 | Distinct images get distinct archive entries |
| ImageDownload.SucceededEntries | js/image-download.js:137-159 | At most one entry per image; empty exactly when no download succeeded |
| ImageDownload.SucceededEntriesExactly | js/image-download.js:137-159 | The i-th image's entry is listed exactly when that image exists and its download succeeded |
| ImageDownload.DownloadAll | js/image-download.js:129-167 | No images: nothing attempted. All failed: nothing zipped and the failures number the images. Otherwise successes plus failures equal the number of images and the archive holds exactly the successful entries |
| Seo.DocumentTitle | js/seo-manager.js:28-32 | An empty title leaves the document title alone; the site name is kept as it is; any other title gets ` - 坂道博客翻译` appended |
| Seo.SetMeta | js/seo-manager.js:62-102 | Empty content changes nothing; otherwise that tag holds the content, and every other tag is unchanged |
| Seo.CanonicalUrl | js/seo-manager.js:107-118 | The URL up to its first `#`: a prefix of the URL without `#`, the whole URL when it has none |
| Seo.CanonicalIdempotent | js/seo-manager.js:116 | Canonicalising a canonical URL changes nothing |
| Seo.OpenGraph | js/seo-manager.js:40-45 | Only `property` tags change; each of `og:title`, `og:description`, `og:image`, `og:url` and `og:type` holds its value when that is non-empty |
| Seo.TwitterCard | js/seo-manager.js:47-51 | Only name tags starting with `twitter:` change; `twitter:title`, `twitter:description`, `twitter:image` and `twitter:url` each hold their value when it is non-empty |
| Seo.MetaTags | js/seo-manager.js:34-51 | The description tag always (default when none is given), keywords only when given, and each Twitter tag equal to its Open Graph counterpart: description and image always, title and URL when the value written is non-empty |
| Seo.TwitterMirrorsOpenGraph | js/seo-manager.js:40-51 | After `updateMeta`, the Twitter description and image equal the Open Graph ones; so do URL and title when they are non-empty |
| Seo.UpdateMeta | js/seo-manager.js:17-57 | The title as above. The description is always written (the default when none is given), keywords only when given, `og:title` for a title. The canonical link never holds a fragment |
| Seo.ExtractFirstImage | js/seo-manager.js:228-240 | The default for empty content; else the first markdown http(s) image, which beats any `<img>`; else the first `<img src>`; else the default |
| Seo.StripMarkup | js/seo-manager.js:249-255 | The stripped text holds none of `# * _ ~ \``, has no whitespace other than single spaces, and is trimmed |
| Seo.Unmark | js/seo-manager.js:249-253 | Images, links, tags and marker characters are gone |
| Seo.ExtractTextContent | js/seo-manager.js:467-478 | `""` for empty content, else the same strip pipeline as descriptions |
| Seo.GenerateDescription | js/seo-manager.js:245-259 | The default for empty content. Stripped text that is too long becomes exactly `maxLength` characters ending in `...`. Text that fits is kept |
| Seo.UntruncatedDescription | js/seo-manager.js:245-259 | A description that needs no cut equals `extractTextContent` of the same content |
| Seo.DescriptionBounded | js/seo-manager.js:245-259 | A description is never longer than its limit (once the limit has room for `...`) |
| Seo.BreadcrumbItems | js/seo-manager.js:399-415 | Nothing for no items; otherwise one list item per crumb, in order, at positions 1..n |
| Seo.BreadcrumbPositionsIncrease | js/seo-manager.js:399-415 | Positions strictly increase along the list |
| App.DetermineInitialApiBaseUrl | js/app.js:5-25 | A configured URL wins. Otherwise the local API is used when the origin is not http(s), mentions `localhost` or the host is `127.0.0.1`, and the worker URL is used everywhere else |
| App.FileOriginIsLocal | js/app.js:12-17 | A page opened from disk talks to the local API |
| App.PublicHostUsesWorker | js/app.js:12-21 | A public https host talks to the worker API |
| App.ApiCandidates | js/app.js:30-40 | The current URL first; the configured URL (when set) and the worker URL after it; no URL twice; nothing else |
| App.FirstHealthy | js/app.js:44-75 | The first non-empty candidate whose check answers ok, or none exactly when no candidate does |
| App.FirstHealthySkips | js/app.js:44-75 | A prefix without a healthy candidate can be skipped |
| App.EnsureApiBaseUrl | js/app.js:44-75 | The probing loop adopts exactly the first healthy non-empty candidate, skipping repeats |
| App.GetBlogsPerPage | js/app.js:85-92 | 16 for the `all` view, 32 for any group |
| App.KeyOf | js/app.js:99-115 | A blog with a non-zero id is keyed by that id; one without by its title, member and date joined with `_` |
| App.FirstOfEachKey | js/app.js:95-120 | Reference de-duplication, never longer than the input |
| App.FirstOfEachKeyFromInput | js/app.js:95-120 | Every kept blog is from the input |
| App.FirstOfEachKeyDistinct | js/app.js:95-120 | No key is kept twice |
| App.FirstOfEachKeyCovers | js/app.js:95-120 | Every key of the input is kept |
| App.DistinctUnchanged | js/app.js:95-120 | A list whose keys are already distinct passes through unchanged |
| App.FirstOfEachKeyIdempotent | js/app.js:95-120 | De-duplicating twice is de-duplicating once |
| App.RemoveDuplicateBlogs | js/app.js:95-120 | The first blog of each key, in first-appearance order: keys distinct, all input keys present, every blog from the input |
| App.TotalCount | js/app.js:312-313 | The first of `total`, `pagination.total` and `pagination.totalCount` that is neither `undefined` nor `null`, whatever its type; absent iff all three are |
| App.TotalCountFirstPresent | js/app.js:313 | The total equals the first present field of the `??` chain, by an independent recursive reference |
| App.NonNumericTotalUsesPageCount | js/app.js:313-370 | A present non-number `data.total` hides the later fields, fails the `typeof` test, and the response's own `totalPages` is used |
| App.PagesFor | js/app.js:366-367 | At least one page, and for a positive total exactly enough pages of the page size to hold it |
| App.TotalPagesAfter | js/app.js:365-370 | From the total count when it is a number (at least 1, just enough pages); else the response's page count when that is a number; else unchanged |
| App.HasMoreAll | js/app.js:323-328 | The server's boolean when sent; else whether the de-duplicated page came back full |
| App.ShortPageEndsScroll | js/app.js:323-328 | Without the server's flag, fewer than 16 blogs end the infinite scroll and 16 or more continue it |
| App.DeleteKeepsChars | js/app.js:445-451 | Deleting matches never introduces a character |
| App.NoTagSurvives | js/app.js:451 | After tag removal no `<` is followed anywhere later by `>` |
| App.PreviewText | js/app.js:441-453 | The cleaned text is trimmed, its only whitespace is single spaces |
| App.TranslatedContentPreview | js/app.js:435-461 | The placeholder `暂无翻译内容` without a translation; else the cleaned text, cut to 200 characters plus `...` when longer |
| App.PlainPreview | js/app.js:441-453 | Text without frontmatter, images, tokens or tags is only whitespace-normalised |
| MemberPage.PageOfPosition | js/member-page.js:534-535 | Blog position n lies on page p's offset range exactly when p = n / 32 + 1 |
| MemberPage.MemberBlogsBase | js/member-page.js:559-560 | The request starts at the configured API base, or the default worker when none is set |
| MemberPage.MemberBlogsUrl | js/member-page.js:554-565 | The group filter, with the group's API name, is appended exactly when the key is not `all` |
| MemberPage.GroupKeySentAsApiName | js/member-page.js:554-565 | The key `sakurazaka` is sent as `樱坂46` |
| MemberPage.UpdatePagination | js/member-page.js:697-732 | Hidden iff at most one page; prev disabled iff on page 1; next disabled iff on the last page; buttons are the consecutive pages max(1, c−2)..min(T, c+2) |
| MemberPage.OneCurrentButton | js/member-page.js:720-731 | Exactly one button is marked current, the one for the current page |
| MemberPage.MemberPager | js/member-page.js:641-645 | The pager shows only for more than 32 blogs, with ceil(count / 32) pages |
| MemberPage.ManyBlogsShowPager | js/member-page.js:641-645 | More than 32 blogs show the pager, with just enough pages to hold them |
| MemberPage.ExcerptPlain | js/member-page.js:670-674 | Images, tokens and markdown symbols are gone |
| MemberPage.ExcerptText | js/member-page.js:670-676 | The cleaned text holds no markdown symbol and no newline, and is trimmed |
| MemberPage.Prefix | js/member-page.js:677 | `substring(0, n)`: the first min(n, length) characters |
| MemberPage.ExcerptAsWritten | js/member-page.js:668-679 | The excerpt as written (see Findings): empty without a translation |
| MemberPage.Excerpt | js/member-page.js:668-679 | The corrected excerpt: the cleaned text, cut to 150 characters with `...` exactly when something was cut |
| MemberPage.ExcerptsAgreeOffBoundary | js/member-page.js:668-679 | The two excerpts agree on every text except one of exactly 150 characters |
| MemberPage.PlainExcerptText | js/member-page.js:670-676 | Plain one-line text is its own cleaned text |
| MemberPage.ExcerptEllipsisWithoutCut | js/member-page.js:677-678 | A plain text of exactly 150 characters gets `...` as written although nothing was cut |
| MemberPage.ChangeMonth | js/member-page.js:888-897 | The month stays in 1..12, wrapping to January of the next year or December of the previous |
| MemberPage.MonthStep | js/member-page.js:888-897 | From a valid month, a step of ±1 changes `year * 12 + month` by exactly that step |
| MemberPage.MonthStepInverse | js/member-page.js:888-897 | Forward then back, or back then forward, returns to the same month |
| MemberPage.MonthPrefix | js/member-page.js:871 | The `YYYY/MM` prefix holds no space |
| MemberPage.DatePartKeepsPrefix | js/member-page.js:875-876 | The date part of a date starting with the month prefix still starts with it |
| MemberPage.DatesIn | js/member-page.js:873-880 | Exactly the date parts of the blogs of that month |
| MemberPage.GetBlogDatesForMonth | js/member-page.js:869-883 | The distinct date parts of that month's blogs, ascending, each starting with the month prefix |
| MemberPage.MonthKey | js/member-page.js:991-993 | A `YYYY.MM` entry: four digits, a dot, two digits |
| MemberPage.MonthKeys | js/member-page.js:987-997 | Exactly the entries of the blogs whose date starts with `YYYY/MM` |
| MemberPage.MonthMenu | js/member-page.js:982-1000 | Those distinct entries, newest first |
| MemberPage.FilterByDate | js/member-page.js:904-911 | The hash of the first blog whose date starts with the date; nothing when no blog does |
| Sorting.SortDistinct | js/member-page.js:882 | `Array.from(new Set(xs)).sort()`: ascending, exactly the values of the input |
| Sorting.IncreasingUnique | js/member-page.js:882 | Two ascending lists with the same values are equal, so the sorted list is determined by the set |
| Sorting.SortDistinctBySet | js/member-page.js:882 | Sorting ignores order and repetition of the input |
| Sorting.ReverseDecreasing | js/member-page.js:1000 | Reversing an ascending list gives a descending one with the same values |
| Pagination.Reset | js/pagination.js:40-46 | Page 1 of 1, no blogs, nothing more, hidden |
| Pagination.Update | js/pagination.js:51-82 | Current page from the loaded page. With a total: ceil(total / 32) pages and more iff before the last. Without: more iff the page came back full, one extra page iff more. Visible iff several pages or more |
| Pagination.ShownIffSeveralPages | js/pagination.js:59-62 | With a total the component shows exactly when the blogs fill more than one page |
| Pagination.ShownWithoutTotal | js/pagination.js:63-81 | Without a total it shows exactly when past page 1 or the page came back full |
| Pagination.Buttons | js/pagination.js:117-145 | Consecutive page numbers lo..hi, exactly the current one marked |
| Pagination.Render | js/pagination.js:87-147 | The page info (a blog range when there is a total), prev disabled iff on page 1, next disabled iff no more and on the last page, and the button window |
| Pagination.Offset | js/pagination.js:95-98 | The offset of a page is a multiple of 32, non-negative from page 1 |
| Pagination.InfoRangeWithinTotal | js/pagination.js:95-101 | On a page within the total, the info shows a non-empty range of at most 32 blogs inside 1..total |
| Pagination.WindowPages | js/pagination.js:117-145 | The window starts at page 1, ends at the last page and lists only pages in range |
| Pagination.WindowOneCurrent | js/pagination.js:117-145 | Exactly one button is marked, the current page |
| Pagination.WindowGaps | js/pagination.js:117-145 | Neighbouring buttons are consecutive pages; an ellipsis sits only between pages more than one apart |
| Pagination.GoToPage | js/pagination.js:170-185 | Ignored below page 1 or on the current page; otherwise the page changes, with no upper bound |
| Pagination.GoToPreviousPage | js/pagination.js:190-194 | One page back, only after page 1 |
| Pagination.GoToNextPage | js/pagination.js:199-203 | One page on, only while pages remain or more are announced |
| Pagination.PreviousUndoesNext | js/pagination.js:190-203 | Previous undoes next |
| Pagination.NextArrowMatchesMove | js/pagination.js:105-111 | The next arrow is enabled exactly when moving on would act |
| Router.ParseHash | js/router.js:35-60 | `""` or `#` route to the `all` group. A `#blog/` prefix is a blog route, which beats the member pattern. `/member/` routes to the first segment minus `#` and the decoded third segment. Anything else goes to the group named by the rest |
| Router.MemberPathSplits | js/router.js:49-54 | A hash containing `/member/` has at least three `/`-separated parts |
| Router.BlogRouteWins | js/router.js:45-48 | A blog hash is a blog route whatever follows |
| Router.MemberRouteRoundTrip | js/router.js:49-54 | A member hash built from a group and an encoded member parses back to them |
| Router.GroupRoute | js/router.js:55-58 | `#g` without `/` routes to group g |
| Router.ShowGroupPage | js/router.js:65-88 | Nothing changes when that group's list is already shown; otherwise the group view, page 1, no member, no search, a reset pager |
| Router.ShowGroupPageIdempotent | js/router.js:74-88 | Showing the same group twice is showing it once |
| Router.ShowMemberPage | js/router.js:186-192 | The member view for that member and group; nothing else changes |
| Router.ShowBlogDetail | js/router.js:214-217 | The blog view for that id; nothing else changes |
| Router.HandleRoute | js/router.js:35-60 | Calls exactly the page function of the parsed route |
| Router.Navigate | js/router.js:262-290 | From the member view to a group hash, the group page is shown without touching the address. To the current hash, the route runs again. Otherwise only the hash is set |
| Router.Settle | js/router.js:284-289 | A changed hash fires routing; an unchanged one does not |
| Router.NavigateRoutes | js/router.js:262-290 | Outside the member view, navigating sets the hash and ends where routing it would |
| Router.MemberShortcutMatchesRoute | js/router.js:270-278 | The member view's shortcut reaches the state routing the hash would give, with the address unchanged |
| GroupConfig.GetByKey | js/group-config.js:8-37 | A configuration exactly for `nogizaka`, `sakurazaka` and `hinatazaka`, filed under its own key |
| GroupConfig.NormalizeName | js/group-config.js:62-77 | No `櫻` is left and the result is trimmed; empty gives `""` |
| GroupConfig.NormalizeIdempotent | js/group-config.js:62-77 | Normalising twice is normalising once |
| GroupConfig.FindNamed | js/group-config.js:48-54 | The first group whose normalised display or API name matches; none exactly when no group matches |
| GroupConfig.GetByName | js/group-config.js:42-57 | Nothing for an empty name; otherwise the first group its normal form names |
| GroupConfig.TraditionalNormal | js/group-config.js:62-77 | `櫻坂46` with surrounding blanks normalises to `樱坂46` |
| GroupConfig.TraditionalSpellingResolves | js/group-config.js:42-77 | The traditional spelling, with surrounding blanks, resolves to 樱坂46 |
| GroupConfig.FindNamedTable | js/group-config.js:48-54 | Exactly the three configured names find a group |
| GroupConfig.GetByNameTable | js/group-config.js:42-57 | A non-empty name resolves exactly when its normal form is a configured name |
| GroupConfig.Resolve | js/group-config.js:83 | By key when it is one, else by name; a result is a configured group |
| GroupConfig.GetApiName | js/group-config.js:82-85 | The API name of a known key or name; anything unknown passes through |
| GroupConfig.GetDisplayName | js/group-config.js:90-93 | The display name of a known key or name; anything unknown passes through |
| GroupConfig.GetColor | js/group-config.js:98-101 | The group's colour, `#6b7280` for anything unknown |
| GroupConfig.GetEmoji | js/group-config.js:106-109 | `📝` exactly for unknown groups; known groups have no emoji |
| GroupConfig.ApiNameResolves | js/group-config.js:42-57 | A group's API name resolves back to that group |
| GroupConfig.GetApiNameIdempotent | js/group-config.js:82-85 | The API name of an API name is itself |
| GroupConfig.KeyAndNameAgree | js/group-config.js:35-57 | A group's key and its display name reach the same group |
| MemberImages.NormalizeName | js/member-default-images.js:39-42 | No whitespace is left; a name without whitespace is unchanged |
| MemberImages.NormalizeIdempotent | js/member-default-images.js:39-42 | Normalising is idempotent and equals removing all whitespace |
| MemberImages.GetImageUrl | js/member-default-images.js:50-74 | Nothing before the table is loaded or for an empty name. Otherwise the exact entry; else the first entry whose normalised key equals the normalised name; else nothing |
| MemberImages.ExactMatchPreferred | js/member-default-images.js:56-59 | An exact key wins, even over an earlier key that normalises to the same name |
| MemberImages.SpacingInsensitive | js/member-default-images.js:62-70 | Without an exact key, names that differ only in whitespace find the same photo |
| MemberImages.GetDefaultAvatar | js/member-default-images.js:82-96 | The group's colour pair or gray exactly when the group is unknown, and the first character of the name |
| BlogDetailSidebar.Lookup | js/blog-detail-sidebar.js:126-127 | A value exactly when the table has the key, and then that entry's URL |
| BlogDetailSidebar.SpaceAfterEachRemoved | js/blog-detail-sidebar.js:141 | Removing whitespace from the spaced-out spelling gives the name back |
| BlogDetailSidebar.VariantsStripToName | js/blog-detail-sidebar.js:132-141 | Both spelling variants of a whitespace-free name strip back to it |
| BlogDetailSidebar.PickFromTable | js/blog-detail-sidebar.js:123-154 | The exact name, then the whitespace-free name, then the spaced-out name, each only while the pick is missing or a placeholder; a placeholder is never the answer |
| BlogDetailSidebar.LoadMemberAvatar | js/blog-detail-sidebar.js:110-196 | The photo the three-step table pick finds (exact, whitespace-free, spaced-out spelling). Else, after a non-ok response or a table with no usable photo, the helper's result when the helper is loaded, the initial otherwise. A failed fetch or a table without images goes straight to the initial |
| BlogDetailSidebar.SpacedSpellingFindsPhoto | js/blog-detail-sidebar.js:139-146 | A photo under the whitespace-free spelling is found from the spaced-out spelling too |
| BlogDetailSidebar.ManualGroupName | js/blog-detail-sidebar.js:168-180 | A lower-cased group key becomes its Chinese name; anything else is kept |
| BlogDetailSidebar.GroupKey | js/blog-detail-sidebar.js:248-268 | The three Chinese names map exactly; anything else goes by what its lower-cased form mentions |
| BlogDetailSidebar.KeyOfMention | js/blog-detail-sidebar.js:257-267 | The first group mentioned, in the order 乃木坂, 樱坂, 日向坂; else the lower-cased name |
| BlogDetailSidebar.KeyOfKey | js/blog-detail-sidebar.js:248-268 | Each group key is its own key |
| BlogDetailSidebar.ChineseNamesMention | js/blog-detail-sidebar.js:259-264 | Each Chinese name mentions its own group |
| BlogDetailSidebar.GroupKeyIdempotent | js/blog-detail-sidebar.js:248-268 | Deriving the key of a key changes nothing |
| BlogDetailSidebar.GroupKeyPathSafe | js/blog-detail-sidebar.js:248-272 | A name without `/` that is not `blog` gives a key usable as a hash segment |
| BlogDetailSidebar.ViewMoreRoutesToMember | js/blog-detail-sidebar.js:271-272 | The view-more link routes to the member page of the derived key and that member |
| BlogDetailSidebar.NewEntries | js/blog-detail-sidebar.js:223 | The first five blogs, or all when fewer |
| BlogDetailSidebar.HttpImageTargetsNonEmpty | js/blog-detail-sidebar.js:293-294 | Every http(s) image match captures a non-empty target |
| BlogDetailSidebar.Thumbnail | js/blog-detail-sidebar.js:291-302 | The first markdown http(s) image of the translation, which is the renderer's first image; none (the gradient) otherwise |
| MemberDetail.GroupDisplayName | js/member-detail.js:405-410 | The three keys map to their Chinese names; any other key passes through |
| MemberDetail.DisplayMapAgrees | js/member-detail.js:405-410 | The page's own map agrees with the shared group configuration |
| MemberDetail.DisplayNameKeyRoundTrip | js/member-detail.js:405-410 | The sidebar's key derivation takes a display name back to its key |
| MemberDetail.DayPrefix | js/member-detail.js:537 | The `YYYY/MM/DD` prefix extends the month prefix |
| MemberDetail.CheckHasBlog | js/member-detail.js:536-539 | A day is marked iff some publish date starts with its zero-padded `YYYY/MM/DD` |
| MemberDetail.LoadBlogByDate | js/member-detail.js:603-608 | The first blog whose date starts with the date; none exactly when no blog does |
| MemberDetail.LoadMatchesFilter | js/member-detail.js:603-608 | Loads the blog the member page's date filter would open |
| MemberDetail.CalendarClickAsWritten | js/member-detail.js:519-530 | A click looks up the cell's dashed `data-date` (see Findings) |
| MemberDetail.MarkedDayClickFindsNothing | js/member-detail.js:519-539 | With slash-dated blogs, clicking a marked day as written loads nothing |
| MemberDetail.CalendarClick | js/member-detail.js:536-539 | The corrected click looks the day up the way it was marked |
| MemberDetail.MarkedDayClickLoads | js/member-detail.js:536-539 | A day is marked exactly when the corrected click loads a blog |
| MemberDetail.ByMember | js/member-detail.js:546-547 | The member's blogs, all of them and only them |
| MemberDetail.ByMemberAppend | js/member-detail.js:546-547 | Filtering keeps order across concatenation |
| MemberDetail.RecentEntries | js/member-detail.js:544-553 | The placeholder exactly when the member has no blog; else the member's first blogs in order, exactly ten of them when there are more, all of them otherwise |
| MemberDetail.CurrentGroupKey | js/member-detail.js:613-619 | The first of nogizaka, sakurazaka, hinatazaka found in the hash, in that order; nogizaka by default |
| MemberDetail.CurrentKeyOfGroupHash | js/member-detail.js:613-619 | A group page's hash `#key` gives that key back |
| MemberDetail.GoBack | js/member-detail.js:624-648 | From a member hash, the member page of the hash's group and decoded member. It is shown directly when the member page is loaded, else through the member hash. Anything else goes to `#all` |
| MemberDetail.GoBackFollowsRoute | js/member-detail.js:624-648 | Going back shows the member page the router would route the hash to |
| MemberDetail.GoBackFromMemberLink | js/member-detail.js:624-648 | From the sidebar's member link, going back reaches that member of that group; the fallback hash is the link itself |
| BilingualControl.ParseMode | js/bilingual-control-v2.js:9 | The mode of that name, and none exactly when no mode has the name |
| BilingualControl.ParseName | js/bilingual-control-v2.js:9 | Mode names read back as their modes |
| BilingualControl.LoadSavedMode | js/bilingual-control-v2.js:363-370 | The saved mode when storage holds a valid one; bilingual otherwise, also when storage fails |
| BilingualControl.ModeClass | js/bilingual-control-v2.js:311-316 | The content class of a mode is `mode-` and its name |
| BilingualControl.ApplyMode | js/bilingual-control-v2.js:305-318 | Other classes are kept; the mode classes left are none for bilingual and exactly the mode's own otherwise; nothing without the content |
| BilingualControl.Mark | js/bilingual-control-v2.js:331-346 | Same items in the same order, each marked exactly when it is for the given mode |
| BilingualControl.Reverse | js/bilingual-control-v2.js:104 | The mobile buttons list the modes in reverse |
| BilingualControl.Inserted | js/bilingual-control-v2.js:52-70 | One menu item per mode, in mode order |
| BilingualControl.ToggleSelector | js/bilingual-control-v2.js:200-213 | Selector and button take the opposite of the selector's state |
| BilingualControl.CloseSelector | js/bilingual-control-v2.js:218-225 | Both closed |
| BilingualControl.ToggleFab | js/bilingual-control-v2.js:230-246 | Container, overlay and main button take the opposite of the container's state |
| BilingualControl.CloseFab | js/bilingual-control-v2.js:251-260 | All three closed |
| BilingualControl.CloseIdempotent | js/bilingual-control-v2.js:218-260 | Closing twice is closing once |
| BilingualControl.ToggleTwice | js/bilingual-control-v2.js:200-246 | Toggling keeps the elements in step, and toggling twice restores them |
| BilingualControl.Init | js/bilingual-control-v2.js:8-81 | The saved mode. Without bilingual content nothing is inserted and the content is untouched. Otherwise the button group is inserted closed with one button per mode in reverse order, the current one marked, and the content is the mode applied to it. The selector is inserted closed, with the caption naming the mode and one menu item per mode, exactly when the mount point or the download button exists; otherwise there is no selector, caption or menu |
| BilingualControl.InitThenChoose | js/bilingual-control-v2.js:27-81 | Right after init on bilingual content with a place for the selector, choosing any mode selects exactly its menu item |
| BilingualControl.InitConsistent | js/bilingual-control-v2.js:27-81 | After init, classes, caption and marks agree with the mode |
| BilingualControl.SetMode | js/bilingual-control-v2.js:287-300 | A name that is not a mode changes nothing. A mode is made current, applied, marked in menu and buttons, shown as the caption, and saved when storage accepts it |
| BilingualControl.SetModeConsistent | js/bilingual-control-v2.js:287-300 | Setting a mode keeps the control consistent |
| BilingualControl.SetModeConsistentHere | js/bilingual-control-v2.js:287-300 | The same, stated for any starting state |
| BilingualControl.SavedModeReloads | js/bilingual-control-v2.js:352-370 | A saved mode is the one loaded next time |
| BilingualControl.OneSelected | js/bilingual-control-v2.js:331-346 | With the menu as inserted, exactly the item for the new mode is selected |
| BilingualControl.KeyMode | js/bilingual-control-v2.js:184-188 | Keys 1, 2, 3 map to bilingual, chinese, japanese; other keys to nothing |
| BilingualControl.OnKey | js/bilingual-control-v2.js:181-193 | Typing in an input or text area, or another key, changes nothing; a mode key sets that mode and keeps the control consistent |
| BilingualControl.DigitKeySelectsItem | js/bilingual-control-v2.js:181-193 | With the menu as inserted, the k-th digit key makes the k-th mode current and marks exactly the k-th menu item |
| BilingualControl.ChooseFromMenu | js/bilingual-control-v2.js:135-146 | A menu click makes that item's mode current and marked, and closes the selector |
| BilingualControl.ChooseFromFab | js/bilingual-control-v2.js:143-178 | A button click makes that button's mode current and marked and closes the group; the click reaches the document handler, so the selector closes too |
| BilingualControl.ClickOverlay | js/bilingual-control-v2.js:143-163 | An overlay click closes the button group and, through the document handler, the selector; mode, items, caption, content and saved preference are unchanged |
| BilingualControl.OverlayUndoesOpen | js/bilingual-control-v2.js:149-163 | Opening the closed button group and clicking the overlay restores the control exactly |
| Config.FetchPrefix | js/config.js:23-33 | The fetch prefix starts with `http` and ends with `/` |
| Config.CloudinaryUrl | js/config.js:41-52 | The input unchanged when disabled, empty or not http-prefixed. Otherwise the fetch prefix for cloud `djoegafjn` with `w_600,q_75,f_auto,c_scale`, followed by the encoded input |
| Config.UnwrapRecovers | js/config.js:45-51 | Dropping the prefix and decoding recovers the original URL |
| Config.WrapsTwice | js/config.js:43-51 | A wrapped URL starts with `http`, so wrapping it again nests it once more: the wrapper is not idempotent |

## Left out

- DOM effects are not modelled. That covers `innerHTML`, templates, CSS, classes on elements other than the blog content, listeners, scrolling, dialogs and progress bars. The model keeps the decisions they display.
- Network calls become parameters or are left out:
  - API fetches, health-check requests, the router's blog fetch and its `#all` redirect on failure;
  - the `member-images.json` fetch, the member list fetch of the detail page and `updateMemberInfo`;
  - image downloads, JSZip and saving.

  Their outcomes are parameters (`healthy`, the `Response` of the avatar table, `fetched[i]`).
- `notifyMissingStructuredTags` is a POST throttled through sessionStorage, and only its caller is modelled.
- Timers, animations and logging are left out.
- The date sort of `loadBlogs` (`new Date(publish_date)`) depends on date parsing and is not modelled. Neither is `renderCalendar`'s day and weekday arithmetic; only its `data-date` text and its click are.
- `translated_content` given as an object (`translatedText`) is not modelled; translations are strings.
- The `try`/`catch` of `determineInitialApiBaseUrl` is not modelled. Its body cannot throw once `location` is plain data.
- The storage calls of `saveMode` and `loadSavedMode` become `storageWritable` and an optional saved value. Other storage failures are not modelled.
- `decodeURIComponent` exceptions on malformed escapes are not modelled; `decode` is total.
- The `Pagination.update` early return for a missing container is not modelled.
- Pagination.Update: takes the total as a number; a present non-number total (a numeric string, say) that `app.js` passes on is not modelled.
- GroupConfig.GetByKey: a name inherited from `Object.prototype` (`constructor`, `toString`, `__proto__`, …) is treated as an unknown key. `this.groups[key]` finds the inherited member, which is not a group; the model has no such value.
- GroupConfig.GetApiName: for an `Object.prototype` name the source reads `apiName` of the inherited member and returns `undefined`; the model passes the name through, since results are strings.
- GroupConfig.GetDisplayName: the same `Object.prototype` case returns `undefined` in the source; the model passes the name through.
- GroupConfig.GetColor: the same `Object.prototype` case returns `undefined` in the source; the model returns the gray default.
- GroupConfig.GetEmoji: the same `Object.prototype` case returns `undefined` in the source; the model returns `📝`.
- MemberDetail.GroupDisplayName: `groupNames[groupKey]` of an `Object.prototype` name is the inherited function, so the source shows its text; the model passes the key through.
- MemberImages.GetImageUrl: a member name that is an `Object.prototype` name finds the inherited member in `this.images` and returns its `undefined` `imageUrl`; the model treats the name as absent from the table.
- The sidebar's `getChineseGroupName` path is not modelled. It calls a global this code does not define; only the manual map is modelled.
- HTML escaping is not modelled. Emitted elements carry their URLs and text verbatim, and the source escapes nothing either.
- The string and numeric keys of a JS `Map` never collide, so blog keys use two constructors. JS object key order for integer-like keys (the avatar table) is not modelled; entries keep table order.
- Precision limits of `parseInt` and of JS numbers are not modelled; integers are unbounded.
- StructuredRenderer.RenderStructuredContent: a `[NEWLINE:N]` count too large for a string makes `'<br>'.repeat(count)` throw `RangeError`, which propagates out of `renderStructuredContent`; the model's repetition is total and yields N copies for every N.
- MemberImages.GetDefaultAvatar: for a group that is an `Object.prototype` name (`constructor`, `toString`, …), `colors[group]` is the inherited member, so the source's avatar carries it as its colours; the model gives the gray pair.
- BlogDetailSidebar.Lookup: `data.images[name]` also finds names inherited from `Object.prototype`; the model looks only among the table's own entries.
- BlogDetailSidebar.PickFromTable: when the member name, or its spaceless or spaced variant, is an `Object.prototype` name, the source reads `imageUrl` of the inherited member, and `undefined.includes` throws; the model treats the name as absent from the table.
- BlogDetailSidebar.LoadMemberAvatar: in that same case the source's `catch` (js/blog-detail-sidebar.js:188-191) shows the initial-letter avatar without trying the image helper; the model goes on to the helper.
- BlogDetailSidebar.ManualGroupName: for a lower-cased group name that is an `Object.prototype` name (`constructor`, `__proto__`), `manualMap[lowerGroupName]` is the inherited member and becomes the display name; the model passes the name through.
- BlogDetailSidebar.GroupKey: for a group name that is an `Object.prototype` name, `groupKeyMap[name]` is the inherited member, which the source uses as the key; the model goes on to the `includes` chain.
- Strings are sequences of code points, not UTF-16 units. `toLowerCase` and the `i` flag fold ASCII letters only.
- `#blog/undefined` and other renderings of missing fields are not modelled.
- The markup of the inserted selector and buttons is not modelled, and neither is `destroy`.
- Config.WrapsTwice: proves that the second wrap differs from the first only for an `encode` that never shortens its input, which `encodeURIComponent` satisfies.
- The global-name clash is not resolved. `js/structured-renderer.js` and `js/utils.js` both define `detectContentFormat` and `extractImageUrls`, so each is modelled in its own module. `BlogRenderer` takes the loaded detector as a parameter.

## Findings

| source | as written | input that shows it | evidently intended | confidence | as-written member | corrected member |
|---|---|---|---|---|---|---|
| js/member-page.js:677-678 | `...` is appended whenever the cut excerpt is 150 characters long | a translation whose cleaned text is exactly 150 characters: nothing is cut, yet `...` is added | `...` only when the cleaned text was longer than 150 | medium, not executed | MemberPage.ExcerptAsWritten (MemberPage.ExcerptEllipsisWithoutCut) | MemberPage.Excerpt (MemberPage.ExcerptsAgreeOffBoundary) |
| js/member-detail.js:519-530 | calendar cells carry `data-date` `YYYY-MM-DD` and the click looks that up with `startsWith`, while days are marked by `YYYY/MM/DD` | a blog dated `2024/01/05 10:00`: the cell for 2024-01-05 is marked, but `loadBlogByDate("2024-01-05")` finds no blog | the click finds the blog that marked the day | high, not executed | MemberDetail.CalendarClickAsWritten (MemberDetail.MarkedDayClickFindsNothing) | MemberDetail.CalendarClick (MemberDetail.MarkedDayClickLoads) |

=== FILE: app.dfy ===
/**
 * The list page's logic: choosing and probing the API base URL, the page
 * size, de-duplicating a fetched page of blogs, the paging figures derived
 * from the response, and the card preview of a translation.
 */
module App {
  import opened Wrappers
  import opened Text
  import opened Patterns
  import opened Blogs
  import SR = StructuredRenderer

  // ---------------------------------------------------------------------------
  // API base URL

  /** What the page knows about where it was loaded from. */
  datatype Location = Location(origin: string, hostname: string)

  /** A page served by a development host, or not over http(s) at all. */
  predicate IsLocalOrigin(loc: Location) {
    !StartsWith(loc.origin, "http") || Contains(loc.origin, "localhost") || loc.hostname == "127.0.0.1"
  }

  /**
   * `determineInitialApiBaseUrl`. `configUrl` is the configured base URL
   * ("" when neither configuration global is set); `localApi` and `workerApi`
   * are the two URLs the page was given.
   */
  function DetermineInitialApiBaseUrl(configUrl: string, loc: Location, localApi: string, workerApi: string): (r: string)
    ensures r == configUrl || r == localApi || r == workerApi
    ensures configUrl != "" ==> r == configUrl
    ensures configUrl == "" && IsLocalOrigin(loc) ==> r == localApi
    ensures configUrl == "" && !IsLocalOrigin(loc) ==> r == workerApi
  {
    if configUrl != "" then configUrl
    else if IsLocalOrigin(loc) then localApi
    else workerApi
  }

  /** A page opened from disk (origin "null" or `file://`) talks to the local API. */
  lemma FileOriginIsLocal(origin: string, hostname: string, localApi: string, workerApi: string)
    requires !StartsWith(origin, "http")
    ensures DetermineInitialApiBaseUrl("", Location(origin, hostname), localApi, workerApi) == localApi
  {
  }

  /** A deployed page on a public https host talks to the worker API. */
  lemma PublicHostUsesWorker(host: string, rest: string, localApi: string, workerApi: string)
    requires !Contains("https://" + host + rest, "localhost") && host != "127.0.0.1"
    ensures DetermineInitialApiBaseUrl("", Location("https://" + host + rest, host), localApi, workerApi) == workerApi
  {
    assert ("https://" + host + rest)[..4] == "http";
  }

  /**
   * The candidates `ensureApiBaseUrl` probes: the current URL, then the
   * configured one, then the worker URL, each added only when not yet listed.
   */
  function ApiCandidates(current: string, configUrl: string, workerApi: string): (r: seq<string>)
    ensures 1 <= |r| <= 3 && r[0] == current
    ensures forall i, j :: 0 <= i < j < |r| ==> r[i] != r[j]
    ensures configUrl != "" ==> configUrl in r
    ensures workerApi in r
    ensures forall u :: u in r ==> u == current || u == configUrl || u == workerApi
  {
    var c := if configUrl != "" && configUrl !in [current] then [current, configUrl] else [current];
    if workerApi !in c then c + [workerApi] else c
  }

  /** Reference: the first non-empty candidate whose health check answers ok. */
  function FirstHealthy(cands: seq<string>, healthy: string -> bool): (r: Option<string>)
    ensures r.Some? ==> r.value in cands && r.value != "" && healthy(r.value)
    ensures r.None? <==> forall i :: 0 <= i < |cands| ==> cands[i] == "" || !healthy(cands[i])
    ensures r.Some? ==>
      exists i :: (0 <= i < |cands| && cands[i] == r.value
        && forall j :: 0 <= j < i ==> cands[j] == "" || !healthy(cands[j]))
    decreases |cands|
  {
    if |cands| == 0 then None
    else if cands[0] != "" && healthy(cands[0]) then Some(cands[0])
    else
      var r := FirstHealthy(cands[1..], healthy);
      assert forall i :: 1 <= i < |cands| ==> cands[i] == cands[1..][i - 1];
      r
  }

  /** FirstHealthy of a list with a healthy-free prefix is FirstHealthy of the rest. */
  lemma {:induction false} FirstHealthySkips(cands: seq<string>, i: nat, healthy: string -> bool)
    requires i <= |cands|
    requires forall j :: 0 <= j < i ==> cands[j] == "" || !healthy(cands[j])
    ensures FirstHealthy(cands, healthy) == FirstHealthy(cands[i..], healthy)
    decreases i
  {
    if i > 0 {
      assert cands[1..][i - 1..] == cands[i..];
      FirstHealthySkips(cands[1..], i - 1, healthy);
    }
  }

  /**
   * The probing loop of `ensureApiBaseUrl`: candidates are tried in order,
   * empty or already tried ones skipped, and the first whose health check
   * answers ok is adopted. `healthy` is the outcome of each check (a
   * timeout or network error counts as not ok); `None` is the thrown error.
   */
  method EnsureApiBaseUrl(cands: seq<string>, healthy: string -> bool) returns (r: Option<string>)
    ensures r == FirstHealthy(cands, healthy)
  {
    var tested: set<string> := {};
    var i := 0;
    while i < |cands|
      invariant i <= |cands|
      invariant forall j :: 0 <= j < i ==> cands[j] == "" || !healthy(cands[j])
      invariant forall u :: u in tested ==> u != "" && !healthy(u)
    {
      var c := cands[i];
      if c != "" && c !in tested {
        tested := tested + {c};
        if healthy(c) {
          FirstHealthySkips(cands, i, healthy);
          return Some(c);
        }
      }
      i := i + 1;
    }
    FirstHealthySkips(cands, i, healthy);
    return None;
  }

  // ---------------------------------------------------------------------------
  // page size and de-duplication

  /** `getBlogsPerPage`: the infinite-scroll "all" view loads 16, paged groups 32. */
  function GetBlogsPerPage(group: string): (r: nat)
    ensures r == 16 || r == 32
    ensures r == 16 <==> group == "all"
  {
    if group == "all" then 16 else 32
  }

  /**
   * The map key a blog is filed under: its id when it has a non-zero one,
   * else title, member and date joined with `_`. A numeric key never equals
   * a string key in a JS `Map`, hence two constructors.
   */
  datatype Key = IdKey(id: nat) | TextKey(text: string)

  function KeyOf(b: Blog): (k: Key)
    ensures k.IdKey? <==> b.id != 0
    ensures k.IdKey? ==> k.id == b.id
    ensures k.TextKey? ==> k.text == b.title + "_" + b.member + "_" + b.publishDate
  {
    if b.id != 0 then IdKey(b.id) else TextKey(b.title + "_" + b.member + "_" + b.publishDate)
  }

  function KeysOf(blogs: seq<Blog>): set<Key> {
    set i | 0 <= i < |blogs| :: KeyOf(blogs[i])
  }

  /** No earlier blog has the key of the blog at `j`. */
  predicate IsFirstOf(blogs: seq<Blog>, j: nat)
    requires j < |blogs|
  {
    forall l :: 0 <= l < j ==> KeyOf(blogs[l]) != KeyOf(blogs[j])
  }

  /** Reference: every blog that is the first of its key, in input order. */
  function FirstOfEachKey(blogs: seq<Blog>): (r: seq<Blog>)
    ensures |r| <= |blogs|
    decreases |blogs|
  {
    if |blogs| == 0 then []
    else
      var n := |blogs| - 1;
      FirstOfEachKey(blogs[..n]) + (if IsFirstOf(blogs, n) then [blogs[n]] else [])
  }

  predicate DistinctKeys(blogs: seq<Blog>) {
    forall i, j :: 0 <= i < j < |blogs| ==> KeyOf(blogs[i]) != KeyOf(blogs[j])
  }

  lemma KeysOfSnoc(a: seq<Blog>, b: Blog)
    ensures KeysOf(a + [b]) == KeysOf(a) + {KeyOf(b)}
  {
    var s := a + [b];
    assert forall i :: 0 <= i < |a| ==> s[i] == a[i];
    assert s[|a|] == b;
  }

  /** The kept blogs come from the input, in order. */
  lemma {:induction false} FirstOfEachKeyFromInput(blogs: seq<Blog>)
    ensures forall b :: b in FirstOfEachKey(blogs) ==> b in blogs
    decreases |blogs|
  {
    if |blogs| > 0 {
      var n := |blogs| - 1;
      FirstOfEachKeyFromInput(blogs[..n]);
      assert forall b :: b in blogs[..n] ==> b in blogs;
    }
  }

  /** No key is kept twice. */
  lemma {:induction false} FirstOfEachKeyDistinct(blogs: seq<Blog>)
    ensures DistinctKeys(FirstOfEachKey(blogs))
    decreases |blogs|
  {
    if |blogs| > 0 {
      var n := |blogs| - 1;
      var pre := blogs[..n];
      FirstOfEachKeyDistinct(pre);
      FirstOfEachKeyFromInput(pre);
      if IsFirstOf(blogs, n) {
        var f := FirstOfEachKey(pre);
        var r := f + [blogs[n]];
        forall i | 0 <= i < |f| ensures KeyOf(r[i]) != KeyOf(blogs[n]) {
          assert r[i] == f[i] && f[i] in pre;
          var l :| 0 <= l < n && pre[l] == f[i];
          assert blogs[l] == pre[l];
        }
      }
    }
  }

  /** Every key of the input is kept. */
  lemma {:induction false} FirstOfEachKeyCovers(blogs: seq<Blog>)
    ensures KeysOf(FirstOfEachKey(blogs)) == KeysOf(blogs)
    decreases |blogs|
  {
    if |blogs| > 0 {
      var n := |blogs| - 1;
      var pre := blogs[..n];
      assert blogs == pre + [blogs[n]];
      FirstOfEachKeyCovers(pre);
      KeysOfSnoc(pre, blogs[n]);
      if IsFirstOf(blogs, n) {
        KeysOfSnoc(FirstOfEachKey(pre), blogs[n]);
      } else {
        var l :| 0 <= l < n && KeyOf(blogs[l]) == KeyOf(blogs[n]);
        assert KeyOf(pre[l]) in KeysOf(pre);
        assert FirstOfEachKey(pre) + [] == FirstOfEachKey(pre);
      }
    }
  }

  /** A list whose keys are already distinct passes through unchanged. */
  lemma {:induction false} DistinctUnchanged(blogs: seq<Blog>)
    requires DistinctKeys(blogs)
    ensures FirstOfEachKey(blogs) == blogs
    decreases |blogs|
  {
    if |blogs| > 0 {
      var n := |blogs| - 1;
      DistinctUnchanged(blogs[..n]);
      assert blogs[..n] + [blogs[n]] == blogs;
    }
  }

  /** De-duplicating twice gives what de-duplicating once gives. */
  lemma FirstOfEachKeyIdempotent(blogs: seq<Blog>)
    ensures FirstOfEachKey(FirstOfEachKey(blogs)) == FirstOfEachKey(blogs)
  {
    FirstOfEachKeyDistinct(blogs);
    DistinctUnchanged(FirstOfEachKey(blogs));
  }

  /**
   * `removeDuplicateBlogs`: a map from key to the first blog filed under it,
   * read back in insertion order.
   */
  method RemoveDuplicateBlogs(blogs: seq<Blog>) returns (r: seq<Blog>)
    ensures r == FirstOfEachKey(blogs)
    ensures DistinctKeys(r) && KeysOf(r) == KeysOf(blogs)
    ensures forall b :: b in r ==> b in blogs
  {
    var seen: set<Key> := {};
    r := [];
    var i := 0;
    while i < |blogs|
      invariant i <= |blogs|
      invariant seen == KeysOf(blogs[..i])
      invariant r == FirstOfEachKey(blogs[..i])
    {
      var pre := blogs[..i + 1];
      assert pre[..i] == blogs[..i];
      assert KeyOf(blogs[i]) in seen <==> !IsFirstOf(pre, i) by {
        if KeyOf(blogs[i]) in seen {
          var l :| 0 <= l < i && KeyOf(blogs[..i][l]) == KeyOf(blogs[i]);
          assert pre[l] == blogs[..i][l];
        } else {
          forall l | 0 <= l < i ensures KeyOf(pre[l]) != KeyOf(pre[i]) {
            assert pre[l] == blogs[..i][l];
          }
        }
      }
      if KeyOf(blogs[i]) !in seen {
        r := r + [blogs[i]];
      }
      KeysOfSnoc(blogs[..i], blogs[i]);
      assert blogs[..i] + [blogs[i]] == pre;
      seen := seen + {KeyOf(blogs[i])};
      i := i + 1;
    }
    assert blogs[..i] == blogs;
    FirstOfEachKeyDistinct(blogs);
    FirstOfEachKeyCovers(blogs);
    FirstOfEachKeyFromInput(blogs);
  }

  // ---------------------------------------------------------------------------
  // paging figures of a list response

  /**
   * A count field of a response as `??` and `typeof` see it: `Absent` for
   * `undefined` or `null`, `Num` for a number, `Other` for any other value
   * (a numeric string, say).
   */
  datatype Field = Absent | Num(n: int) | Other

  /** The pagination fields a list response may carry. */
  datatype PageInfo = PageInfo(
    total: Field,                // `data.total`
    pagingTotal: Field,          // `pagination.total`
    totalCount: Field,           // `pagination.totalCount`
    hasMore: Option<bool>,       // `pagination.hasMore`, when a boolean
    totalPages: Option<int>)     // `pagination.totalPages`, when a number

  /**
   * The total count: `a ?? b ?? c ?? null`, the first of the three fields
   * that is neither `undefined` nor `null`, whatever its type.
   */
  function TotalCount(info: PageInfo): (r: Field)
    ensures r.Absent? <==> info.total.Absent? && info.pagingTotal.Absent? && info.totalCount.Absent?
    ensures !info.total.Absent? ==> r == info.total
    ensures info.total.Absent? && !info.pagingTotal.Absent? ==> r == info.pagingTotal
    ensures info.total.Absent? && info.pagingTotal.Absent? ==> r == info.totalCount
  {
    if !info.total.Absent? then info.total
    else if !info.pagingTotal.Absent? then info.pagingTotal
    else info.totalCount
  }

  /** The first present field of a chain of `??`, as an independent reference. */
  function FirstPresent(fs: seq<Field>): (r: Field)
  {
    if |fs| == 0 then Absent
    else if !fs[0].Absent? then fs[0]
    else FirstPresent(fs[1..])
  }

  /**
   * The total is the first present field of the chain: every field before
   * it is absent, and it is one of the three.
   */
  lemma TotalCountFirstPresent(info: PageInfo)
    ensures TotalCount(info) == FirstPresent([info.total, info.pagingTotal, info.totalCount])
    ensures TotalCount(info) in [info.total, info.pagingTotal, info.totalCount, Absent]
  {
    var fs := [info.total, info.pagingTotal, info.totalCount];
    assert fs[1..] == [info.pagingTotal, info.totalCount];
    assert fs[1..][1..] == [info.totalCount];
    assert FirstPresent([info.totalCount]) == info.totalCount by {
      assert [info.totalCount][1..] == [];
    }
  }

  /**
   * A present total that is not a number hides the later fields and fails
   * the `typeof` test, so the response's own page count is used.
   */
  lemma NonNumericTotalUsesPageCount(info: PageInfo, group: string, previous: int)
    requires info.total == Other && info.totalPages.Some?
    ensures TotalCount(info) == Other
    ensures TotalPagesAfter(info, group, previous) == info.totalPages.value
  {
  }

  /**
   * `Math.max(1, Math.ceil(total / perPage))`: at least one page, and for a
   * positive total just enough pages of `perPage` to hold it.
   */
  function PagesFor(total: int, perPage: nat): (r: nat)
    requires perPage > 0
    ensures r >= 1
    ensures total > 0 ==> (r - 1) * perPage < total <= r * perPage
    ensures total <= 0 ==> r == 1
  {
    var q := CeilDiv(total, perPage);
    if q < 1 then 1 else q
  }

  /**
   * `window.totalPages` after a response: computed from the total count when
   * it is a number, else the response's own page count when that is a
   * number, else left as it was.
   */
  function TotalPagesAfter(info: PageInfo, group: string, previous: int): (r: int)
    ensures TotalCount(info).Num? ==> r >= 1
    ensures TotalCount(info).Num? ==>
      var t := TotalCount(info).n;
      t > 0 ==> (r - 1) * GetBlogsPerPage(group) < t <= r * GetBlogsPerPage(group)
    ensures !TotalCount(info).Num? && info.totalPages.Some? ==> r == info.totalPages.value
    ensures !TotalCount(info).Num? && info.totalPages.None? ==> r == previous
  {
    match TotalCount(info)
    case Num(t) => PagesFor(t, GetBlogsPerPage(group))
    case _ => if info.totalPages.Some? then info.totalPages.value else previous
  }

  /**
   * `window.hasMore` on the "all" view: the response's boolean when it sent
   * one, else whether the de-duplicated page came back full.
   */
  function HasMoreAll(info: PageInfo, uniqueCount: nat): (r: bool)
    ensures info.hasMore.Some? ==> r == info.hasMore.value
    ensures info.hasMore.None? ==> (r <==> uniqueCount >= GetBlogsPerPage("all"))
  {
    match info.hasMore
    case Some(h) => h
    case None => uniqueCount >= 16
  }

  /** Without the server's flag, a short page ends the infinite scroll and a full one continues it. */
  lemma ShortPageEndsScroll(info: PageInfo, uniqueCount: nat)
    requires info.hasMore.None?
    ensures uniqueCount < 16 ==> !HasMoreAll(info, uniqueCount)
    ensures uniqueCount >= 16 ==> HasMoreAll(info, uniqueCount)
  {
  }

  // ---------------------------------------------------------------------------
  // translation preview on a card

  const NoTranslation: string := "暂无翻译内容"
  const PreviewLimit: nat := 200

  /** `<[^>]*>` replaced by '' throughout. */
  function Untag(s: string): string {
    ReplaceAll(TagAny, s, Nothing)
  }

  /** Deleting matches never introduces a character. */
  lemma {:induction false} DeleteKeepsChars(p: Pattern, s: string)
    ensures forall c :: c in ReplaceAll(p, s, Nothing) ==> c in s
    decreases |s|
  {
    if |s| > 0 {
      match MatchAt(p, s)
      case Some(m) =>
        DeleteKeepsChars(p, s[m.len..]);
        assert forall c :: c in s[m.len..] ==> c in s;
      case None =>
        DeleteKeepsChars(p, s[1..]);
        assert forall c :: c in s[1..] ==> c in s;
    }
  }

  /** After tag removal no `<` is followed, anywhere later, by a `>`. */
  lemma {:induction false} NoTagSurvives(s: string)
    ensures var r := Untag(s);
      forall i, j :: 0 <= i < j < |r| && r[i] == '<' ==> r[j] != '>'
    decreases |s|
  {
    if |s| > 0 {
      match MatchAt(TagAny, s)
      case Some(m) =>
        NoTagSurvives(s[m.len..]);
        assert Untag(s) == "" + Untag(s[m.len..]);
      case None =>
        NoTagSurvives(s[1..]);
        var rest := Untag(s[1..]);
        if s[0] == '<' {
          var c := SpanWhile(s, 1, NotGt);
          assert c == |s|;
          assert forall k :: 1 <= k < |s| ==> s[k] != '>';
          DeleteKeepsChars(TagAny, s[1..]);
          assert '>' !in s[1..];
          assert '>' !in rest;
        }
        assert Untag(s) == [s[0]] + rest;
    }
  }

  /** The cleaned translation before truncation. */
  function PreviewText(content: string): (r: string)
    ensures IsTrimmed(r)
    ensures forall i :: 0 <= i < |r| && IsSpace(r[i]) ==> r[i] == ' '
    ensures forall i :: 0 <= i && i + 1 < |r| ==> !(r[i] == ' ' && r[i + 1] == ' ')
  {
    var noFront := SR.RemoveFrontmatterBlock(content, IsSpace);
    var noImages := ReplaceAll(MdImage, noFront, Nothing);
    var noTokens := ReplaceAll(ImageMarker, noImages, Nothing);
    var spaced := ReplaceAll(NewlineMarker, noTokens, Space);
    Tidy(Untag(spaced))
  }

  /**
   * `getTranslatedContentPreview` for a string translation: the cleaned text,
   * cut to 200 characters plus "..." when longer; the placeholder when the
   * blog has no translation.
   */
  function TranslatedContentPreview(b: Blog): (r: string)
    ensures b.translatedContent == "" ==> r == NoTranslation
    ensures b.translatedContent != "" ==> |r| <= PreviewLimit + 3
    ensures b.translatedContent != "" ==>
      var t := PreviewText(b.translatedContent);
      if |t| <= PreviewLimit then r == t
      else |r| == PreviewLimit + 3 && r[..PreviewLimit] == t[..PreviewLimit] && EndsWithDots(r)
  {
    if b.translatedContent == "" then NoTranslation
    else
      var t := PreviewText(b.translatedContent);
      if |t| > PreviewLimit then t[..PreviewLimit] + "..." else t
  }

  predicate EndsWithDots(r: string) {
    |r| >= 3 && r[|r| - 3..] == "..."
  }

  /**
   * Text with no frontmatter delimiter, image, token or tag is only
   * whitespace-normalised.
   */
  lemma PlainPreview(content: string)
    requires !Contains(content, "---") && !Contains(content, "[") && !Contains(content, "<")
    ensures PreviewText(content) == Tidy(content)
  {
    NoBracketNoBang(content);
    NoBangBracket(content);
    UnanchoredUnchanged(MdImage, content, Nothing);
    AbsentLiteralUnanchored(ImageMarker, content, "[");
    UnanchoredUnchanged(ImageMarker, content, Nothing);
    AbsentLiteralUnanchored(NewlineMarker, content, "[");
    UnanchoredUnchanged(NewlineMarker, content, Space);
    AbsentLiteralUnanchored(TagAny, content, "<");
    UnanchoredUnchanged(TagAny, content, Nothing);
  }
}

=== FILE: bilingual_control.dfy ===
/**
 * The bilingual display-mode control of the blog detail page: the three
 * modes, the saved preference, the mode classes on the content, the
 * desktop selector and mobile button group with their open states, the
 * keyboard shortcuts and the marks on the menu items.
 */
module BilingualControl {
  import opened Wrappers

  datatype Mode = Bilingual | Chinese | Japanese

  /** The mode list, in menu order. */
  const Modes: seq<Mode> := [Bilingual, Chinese, Japanese]

  /** The mode's name, as stored and as written in `data-mode`. */
  function Name(m: Mode): string {
    match m
    case Bilingual => "bilingual"
    case Chinese => "chinese"
    case Japanese => "japanese"
  }

  /** The caption shown for a mode. */
  function Label(m: Mode): string {
    match m
    case Bilingual => "中日对照"
    case Chinese => "仅中文"
    case Japanese => "仅日文"
  }

  /** `this.modes.includes(s)`: the mode of that name, if it is one. */
  function ParseMode(s: string): (r: Option<Mode>)
    ensures r.Some? ==> Name(r.value) == s
    ensures r.None? <==> forall m: Mode :: Name(m) != s
  {
    if s == "bilingual" then Some(Bilingual)
    else if s == "chinese" then Some(Chinese)
    else if s == "japanese" then Some(Japanese)
    else None
  }

  /** Names are read back as their modes. */
  lemma ParseName(m: Mode)
    ensures ParseMode(Name(m)) == Some(m)
  {
  }

  /**
   * `loadSavedMode`: the saved mode if storage holds a valid one; else,
   * and when storage is missing or unreadable (`None`), bilingual.
   */
  function LoadSavedMode(saved: Option<string>): (r: Mode)
    ensures saved.Some? && ParseMode(saved.value).Some? ==> Name(r) == saved.value
    ensures saved.None? || ParseMode(saved.value).None? ==> r == Bilingual
  {
    match saved
    case Some(s) => (match ParseMode(s) case Some(m) => m case None => Bilingual)
    case None => Bilingual
  }

  /** The content class of a mode, `mode-<name>`. */
  function ModeClass(m: Mode): (r: string)
    ensures r == "mode-" + Name(m)
  {
    match m
    case Bilingual => "mode-bilingual"
    case Chinese => "mode-chinese"
    case Japanese => "mode-japanese"
  }

  function ModeClasses(): set<string> {
    {ModeClass(Bilingual), ModeClass(Chinese), ModeClass(Japanese)}
  }

  /**
   * `applyMode`: every mode class removed, then the mode's own class added
   * unless it is bilingual; other classes are kept. Nothing happens without
   * the content element.
   */
  function ApplyMode(content: Option<set<string>>, m: Mode): (r: Option<set<string>>)
    ensures r.Some? <==> content.Some?
    ensures r.Some? ==> r.value - ModeClasses() == content.value - ModeClasses()
    ensures r.Some? ==> r.value * ModeClasses() == (if m == Bilingual then {} else {ModeClass(m)})
  {
    match content
    case None => None
    case Some(c) =>
      var kept := c - ModeClasses();
      Some(if m == Bilingual then kept else kept + {ModeClass(m)})
  }

  /** A menu item or mobile button for a mode, and whether it is marked (selected or active). */
  datatype Item = Item(mode: Mode, marked: bool)

  /** Every item marked exactly when it is for mode `m`, in the same order. */
  function Mark(items: seq<Item>, m: Mode): (r: seq<Item>)
    ensures |r| == |items|
    ensures forall k :: 0 <= k < |r| ==> r[k].mode == items[k].mode && (r[k].marked <==> r[k].mode == m)
  {
    seq(|items|, k requires 0 <= k < |items| => Item(items[k].mode, items[k].mode == m))
  }

  function Reverse(items: seq<Item>): (r: seq<Item>)
    ensures |r| == |items|
    ensures forall k :: 0 <= k < |r| ==> r[k] == items[|items| - 1 - k]
  {
    seq(|items|, k requires 0 <= k < |items| => items[|items| - 1 - k])
  }

  /** The items as first inserted: one per mode, the current one marked. */
  function Inserted(m: Mode): (r: seq<Item>)
    ensures |r| == |Modes| && forall k :: 0 <= k < |r| ==> r[k].mode == Modes[k]
  {
    Mark(seq(|Modes|, k requires 0 <= k < |Modes| => Item(Modes[k], false)), m)
  }

  /** The desktop selector and its button, each possibly `open`; absent until inserted. */
  datatype Selector = Selector(present: bool, open: bool, buttonOpen: bool)

  /** The mobile button group: container `open`, overlay `show`, main button `open`. */
  datatype Fab = Fab(present: bool, open: bool, overlayShown: bool, mainOpen: bool)

  /** `toggleDesktopSelector`: both elements take the opposite of the selector's state. */
  function ToggleSelector(s: Selector): (r: Selector)
    ensures !s.present ==> r == s
    ensures s.present ==> r.present && r.open == !s.open && r.buttonOpen == !s.open
  {
    if !s.present then s else Selector(true, !s.open, !s.open)
  }

  /** `closeDesktopSelector`: both closed. */
  function CloseSelector(s: Selector): (r: Selector)
    ensures !s.present ==> r == s
    ensures s.present ==> r == Selector(true, false, false)
  {
    if !s.present then s else Selector(true, false, false)
  }

  /** `toggleFab`: all three take the opposite of the container's state. */
  function ToggleFab(f: Fab): (r: Fab)
    ensures !f.present ==> r == f
    ensures f.present ==> r.present && r.open == !f.open && r.overlayShown == !f.open && r.mainOpen == !f.open
  {
    if !f.present then f else Fab(true, !f.open, !f.open, !f.open)
  }

  /** `closeFab`: all three closed. */
  function CloseFab(f: Fab): (r: Fab)
    ensures !f.present ==> r == f
    ensures f.present ==> r == Fab(true, false, false, false)
  {
    if !f.present then f else Fab(true, false, false, false)
  }

  /** Closing twice is closing once. */
  lemma CloseIdempotent(s: Selector, f: Fab)
    ensures CloseSelector(CloseSelector(s)) == CloseSelector(s)
    ensures CloseFab(CloseFab(f)) == CloseFab(f)
  {
  }

  /** Elements whose states agree. */
  predicate InStep(s: Selector, f: Fab) {
    s.open == s.buttonOpen && f.open == f.overlayShown && f.open == f.mainOpen
  }

  /** Toggling keeps the elements in step, and toggling twice restores them. */
  lemma ToggleTwice(s: Selector, f: Fab)
    ensures s.present && f.present ==> InStep(ToggleSelector(s), ToggleFab(f))
    ensures InStep(s, f) ==> ToggleSelector(ToggleSelector(s)) == s && ToggleFab(ToggleFab(f)) == f
  {
  }

  /**
   * The control: the current mode, the stored preference (and whether
   * storage accepts writes), the content's classes, the selector's caption
   * and items, the mobile buttons (in reverse menu order) and the open
   * states.
   */
  datatype Ui = Ui(
    mode: Mode,
    stored: Option<string>,
    storageWritable: bool,
    content: Option<set<string>>,
    caption: Option<string>,
    menu: seq<Item>,
    buttons: seq<Item>,
    selector: Selector,
    fab: Fab)

  /**
   * The constructor and `init`: the saved mode; without bilingual content
   * nothing is inserted and the content is left alone. Otherwise the
   * button group is inserted closed and the mode is applied; the selector,
   * with its caption and menu, is inserted closed only when there is a
   * place for it (`mountable`: `#bilingualControlMount` or
   * `#downloadAllBtn` exists).
   */
  function Init(stored: Option<string>, storageWritable: bool, content: Option<set<string>>, bilingualContent: bool, mountable: bool): (r: Ui)
    ensures r.mode == LoadSavedMode(stored) && r.stored == stored
    ensures !bilingualContent ==> r.content == content && r.menu == [] && r.buttons == [] && !r.selector.present && !r.fab.present
    ensures bilingualContent ==> r.fab == Fab(true, false, false, false) && r.buttons == Reverse(Inserted(r.mode))
    ensures bilingualContent ==> r.content == ApplyMode(content, r.mode)
    ensures bilingualContent && mountable ==>
      r.selector == Selector(true, false, false) && r.menu == Inserted(r.mode) && r.caption == Some(Label(r.mode))
    ensures bilingualContent && !mountable ==> !r.selector.present && r.menu == [] && r.caption.None?
  {
    var m := LoadSavedMode(stored);
    if !bilingualContent then
      Ui(m, stored, storageWritable, content, None, [], [], Selector(false, false, false), Fab(false, false, false, false))
    else if mountable then
      Ui(m, stored, storageWritable, ApplyMode(content, m), Some(Label(m)), Inserted(m), Reverse(Inserted(m)),
         Selector(true, false, false), Fab(true, false, false, false))
    else
      Ui(m, stored, storageWritable, ApplyMode(content, m), None, [], Reverse(Inserted(m)),
         Selector(false, false, false), Fab(true, false, false, false))
  }

  /** What the control shows agrees with its mode. */
  predicate Consistent(u: Ui) {
    (forall k :: 0 <= k < |u.menu| ==> (u.menu[k].marked <==> u.menu[k].mode == u.mode))
    && (forall k :: 0 <= k < |u.buttons| ==> (u.buttons[k].marked <==> u.buttons[k].mode == u.mode))
    && (u.caption.Some? ==> u.caption.value == Label(u.mode))
    && (u.content.Some? && (u.selector.present || u.fab.present) ==>
          u.content.value * ModeClasses() == (if u.mode == Bilingual then {} else {ModeClass(u.mode)}))
  }

  lemma InitConsistent(stored: Option<string>, storageWritable: bool, content: Option<set<string>>, bilingualContent: bool, mountable: bool)
    ensures Consistent(Init(stored, storageWritable, content, bilingualContent, mountable))
  {
  }

  /**
   * `setMode(name)`: a name that is not a mode changes nothing; a mode is
   * made current, applied to the content, marked in the menu and on the
   * buttons, shown as the caption and saved.
   */
  function SetMode(u: Ui, name: string): (r: Ui)
    ensures ParseMode(name).None? ==> r == u
    ensures ParseMode(name).Some? ==>
      Name(r.mode) == name
      && r.content == ApplyMode(u.content, r.mode)
      && (u.storageWritable ==> r.stored == Some(name))
      && (!u.storageWritable ==> r.stored == u.stored)
      && r.selector == u.selector && r.fab == u.fab && |r.menu| == |u.menu| && |r.buttons| == |u.buttons|
  {
    match ParseMode(name)
    case None => u
    case Some(m) =>
      u.(mode := m,
         content := ApplyMode(u.content, m),
         caption := if u.caption.Some? then Some(Label(m)) else None,
         menu := Mark(u.menu, m),
         buttons := Mark(u.buttons, m),
         stored := if u.storageWritable then Some(name) else u.stored)
  }

  /** Setting a mode keeps the control consistent. */
  lemma SetModeConsistent(u: Ui, name: string)
    requires Consistent(u)
    ensures Consistent(SetMode(u, name))
  {
  }

  /** A saved mode is the one loaded next time. */
  lemma SavedModeReloads(u: Ui, m: Mode)
    requires u.storageWritable
    ensures LoadSavedMode(SetMode(u, Name(m)).stored) == m
  {
  }

  /**
   * With the menu as inserted, exactly one item is marked after any valid
   * `setMode`: the one for the new mode.
   */
  lemma OneSelected(u: Ui, m: Mode)
    requires u.menu == Inserted(u.mode)
    ensures var menu := SetMode(u, Name(m)).menu;
      |menu| == 3 && menu[0].mode == Bilingual && menu[1].mode == Chinese && menu[2].mode == Japanese
      && forall k :: 0 <= k < 3 ==> (menu[k].marked <==> menu[k].mode == m)
  {
  }

  /**
   * Right after `init` on bilingual content with a place for the selector,
   * choosing any mode selects exactly its menu item.
   */
  lemma InitThenChoose(stored: Option<string>, storageWritable: bool, content: Option<set<string>>, m: Mode)
    ensures var menu := SetMode(Init(stored, storageWritable, content, true, true), Name(m)).menu;
      |menu| == 3 && forall k :: 0 <= k < 3 ==> (menu[k].marked <==> menu[k].mode == m)
  {
    OneSelected(Init(stored, storageWritable, content, true, true), m);
  }

  /** The keyboard shortcuts 1, 2 and 3. */
  function KeyMode(key: string): (r: Option<Mode>)
    ensures key == "1" ==> r == Some(Bilingual)
    ensures key == "2" ==> r == Some(Chinese)
    ensures key == "3" ==> r == Some(Japanese)
    ensures key != "1" && key != "2" && key != "3" ==> r.None?
  {
    if key == "1" then Some(Bilingual)
    else if key == "2" then Some(Chinese)
    else if key == "3" then Some(Japanese)
    else None
  }

  /**
   * The `keydown` handler: typing in an input or text area, and other keys,
   * change nothing; a mode key sets its mode.
   */
  function OnKey(u: Ui, targetTag: string, key: string): (r: Ui)
    ensures targetTag == "INPUT" || targetTag == "TEXTAREA" || KeyMode(key).None? ==> r == u
    ensures targetTag != "INPUT" && targetTag != "TEXTAREA" && KeyMode(key).Some? ==>
      r.mode == KeyMode(key).value && (Consistent(u) ==> Consistent(r))
  {
    if targetTag == "INPUT" || targetTag == "TEXTAREA" then u
    else match KeyMode(key)
      case Some(m) =>
        SetModeConsistentHere(u, Name(m));
        SetMode(u, Name(m))
      case None => u
  }

  lemma SetModeConsistentHere(u: Ui, name: string)
    ensures Consistent(u) ==> Consistent(SetMode(u, name))
  {
    if Consistent(u) {
      SetModeConsistent(u, name);
    }
  }

  /** A click on a menu item: set its mode, then close the selector (the document handler closes it again). */
  function ChooseFromMenu(u: Ui, k: nat): (r: Ui)
    requires k < |u.menu|
    ensures r.mode == u.menu[k].mode && |r.menu| == |u.menu| && r.menu[k].marked
    ensures u.selector.present ==> !r.selector.open && !r.selector.buttonOpen
  {
    var v := SetMode(u, Name(u.menu[k].mode));
    v.(selector := CloseSelector(CloseSelector(v.selector)))
  }

  /**
   * A click on a mobile button: set its mode, close the group, refresh the
   * marks; the click then bubbles to the document handler, which closes
   * the selector.
   */
  function ChooseFromFab(u: Ui, k: nat): (r: Ui)
    requires k < |u.buttons|
    ensures r.mode == u.buttons[k].mode && |r.buttons| == |u.buttons| && r.buttons[k].marked
    ensures u.fab.present ==> !r.fab.open && !r.fab.overlayShown && !r.fab.mainOpen
    ensures u.selector.present ==> !r.selector.open && !r.selector.buttonOpen
  {
    var v := SetMode(u, Name(u.buttons[k].mode));
    v.(fab := CloseFab(v.fab), buttons := Mark(v.buttons, v.mode), selector := CloseSelector(v.selector))
  }

  /**
   * A click on the overlay: the button group closes, and the click bubbles
   * to the document handler, which closes the selector; the mode, the
   * items and the content are left alone.
   */
  function ClickOverlay(u: Ui): (r: Ui)
    ensures r.mode == u.mode && r.content == u.content && r.caption == u.caption
    ensures r.menu == u.menu && r.buttons == u.buttons && r.stored == u.stored
    ensures !u.fab.present ==> r.fab == u.fab
    ensures u.fab.present ==> r.fab == Fab(true, false, false, false)
    ensures !u.selector.present ==> r.selector == u.selector
    ensures u.selector.present ==> r.selector == Selector(true, false, false)
  {
    u.(fab := CloseFab(u.fab), selector := CloseSelector(u.selector))
  }

  /** Opening the button group and then clicking the overlay leaves it as it was. */
  lemma OverlayUndoesOpen(u: Ui)
    requires u.fab == Fab(true, false, false, false)
    requires u.selector.present ==> !u.selector.open && !u.selector.buttonOpen
    ensures ClickOverlay(u.(fab := ToggleFab(u.fab))) == u
  {
  }

  /**
   * The number keys follow the menu: with the menu as inserted, the k-th
   * digit key selects exactly the k-th item.
   */
  lemma DigitKeySelectsItem(u: Ui, targetTag: string, k: nat)
    requires u.menu == Inserted(u.mode) && k < 3
    requires targetTag != "INPUT" && targetTag != "TEXTAREA"
    ensures var r := OnKey(u, targetTag, ["123"[k]]);
      r.mode == Modes[k] && |r.menu| == 3 && forall j :: 0 <= j < 3 ==> (r.menu[j].marked <==> j == k)
  {
    var key := ["123"[k]];
    assert KeyMode(key) == Some(Modes[k]) by {
      if k == 0 { assert key == "1"; } else if k == 1 { assert key == "2"; } else { assert key == "3"; }
    }
    OneSelected(u, Modes[k]);
  }
}

=== FILE: blog_detail_sidebar.dfy ===
/**
 * The blog-detail sidebar: the choice of the member's avatar among the
 * name's spelling variants, the group name handed to the avatar helper, the
 * NEW ENTRY list and its thumbnails, and the "view more" link back to the
 * member page.
 */
module BlogDetailSidebar {
  import opened Wrappers
  import opened Text
  import opened Patterns
  import MI = MemberImages
  import SR = StructuredRenderer
  import R = Router

  // ---------------------------------------------------------------------------
  // the avatar

  /** A generated placeholder picture rather than a photo. */
  predicate IsPlaceholder(url: string) {
    Contains(url, "ui-avatars.com")
  }

  /** `data.images[key].imageUrl`, when the key is in the table. */
  function Lookup(es: seq<MI.Entry>, key: string): (r: Option<string>)
    ensures r.Some? <==> exists i :: 0 <= i < |es| && es[i].key == key
    ensures r.Some? ==> exists i :: 0 <= i < |es| && es[i].key == key && es[i].imageUrl == r.value
  {
    match MI.Find(es, MI.HasKey(key))
    case Some(i) => Some(es[i].imageUrl)
    case None =>
      assert forall j :: 0 <= j < |es| ==> !MI.HasKey(key)(es[j]);
      None
  }

  /** A real photo was found. */
  predicate Usable(o: Option<string>) {
    o.Some? && !IsPlaceholder(o.value)
  }

  /** `s.replace(/(.)/g, '$1 ')`: a space after every character other than a line terminator. */
  function SpaceAfterEach(s: string): (r: string)
    ensures |r| >= |s|
  {
    if |s| == 0 then []
    else (if IsLineTerminator(s[0]) then [s[0]] else [s[0], ' ']) + SpaceAfterEach(s[1..])
  }

  /** The name spelt with a space between its characters, as some table keys are. */
  function SpacedName(name: string): string {
    Trim(SpaceAfterEach(name))
  }

  lemma {:induction false} SpaceAfterEachRemoved(s: string)
    requires forall i :: 0 <= i < |s| ==> !IsSpace(s[i])
    ensures RemoveSpaces(SpaceAfterEach(s)) == s
    decreases |s|
  {
    if |s| > 0 {
      SpaceAfterEachRemoved(s[1..]);
      RemoveSpacesAppend([s[0], ' '], SpaceAfterEach(s[1..]));
      assert RemoveSpaces([s[0], ' ']) == [s[0]];
      assert s == [s[0]] + s[1..];
    }
  }

  /** Both spelling variants of a whitespace-free name strip back to the name. */
  lemma VariantsStripToName(name: string)
    requires forall i :: 0 <= i < |name| ==> !IsSpace(name[i])
    ensures RemoveSpaces(SpacedName(name)) == name
    ensures RemoveSpaces(name) == name
  {
    RemoveSpacesTrim(SpaceAfterEach(name));
    SpaceAfterEachRemoved(name);
  }

  /**
   * The photo taken from `member-images.json`: the exact name, then the
   * name without whitespace, then the spaced-out name, each later one only
   * when the pick so far is missing or a placeholder; a placeholder is never
   * the answer.
   */
  function PickFromTable(es: seq<MI.Entry>, member: string): (r: Option<string>)
    ensures r.Some? ==> !IsPlaceholder(r.value)
    ensures Usable(Lookup(es, member)) ==> r == Lookup(es, member)
    ensures !Usable(Lookup(es, member)) && Usable(Lookup(es, RemoveSpaces(member))) ==>
      r == Lookup(es, RemoveSpaces(member))
    ensures !Usable(Lookup(es, member)) && !Usable(Lookup(es, RemoveSpaces(member))) ==>
      (Usable(Lookup(es, SpacedName(member))) ==> r == Lookup(es, SpacedName(member)))
      && (!Usable(Lookup(es, SpacedName(member))) ==> r.None?)
  {
    var p1 := Lookup(es, member);
    var bare := Lookup(es, RemoveSpaces(member));
    var p2 := if !Usable(p1) && Usable(bare) then bare else p1;
    var spaced := Lookup(es, SpacedName(member));
    var p3 := if !Usable(p2) && Usable(spaced) then spaced else p2;
    if Usable(p3) then p3 else None
  }

  /** How the table fetch went. */
  datatype Response =
    | Failed
    | NotOk
    | Ok(images: Option<seq<MI.Entry>>)

  datatype AvatarView =
    | Photo(url: string)
    | Generated(src: Option<string>)
    | InitialOnly(initial: string)

  /** The first character of the name, for the plain fallback. */
  function Initial(name: string): string {
    if name == "" then "" else name[..1]
  }

  /**
   * `loadMemberAvatar`: a real photo from the table; else, when the avatar
   * helper is loaded, whatever it finds (possibly nothing); else the
   * initial. A failed fetch, or a table without `images`, which throws on
   * the second lookup, goes straight to the initial.
   */
  function LoadMemberAvatar(resp: Response, helperLoaded: bool, helperImages: Option<seq<MI.Entry>>, member: string): (r: AvatarView)
    ensures r.Photo? ==> !IsPlaceholder(r.url) && resp.Ok? && resp.images.Some?
    ensures r.Generated? ==> helperLoaded && r.src == MI.GetImageUrl(helperImages, member)
    ensures resp.Failed? || resp == Ok(None) ==> r == InitialOnly(Initial(member))
    ensures resp.Ok? && resp.images.Some? && Usable(Lookup(resp.images.value, member)) ==>
      r == Photo(Lookup(resp.images.value, member).value)
    ensures resp.Ok? && resp.images.Some? && PickFromTable(resp.images.value, member).Some? ==>
      r == Photo(PickFromTable(resp.images.value, member).value)
    ensures resp == NotOk || (resp.Ok? && resp.images.Some? && PickFromTable(resp.images.value, member).None?) ==>
      r == (if helperLoaded then Generated(MI.GetImageUrl(helperImages, member)) else InitialOnly(Initial(member)))
  {
    var helper := if helperLoaded then Generated(MI.GetImageUrl(helperImages, member)) else InitialOnly(Initial(member));
    match resp
    case Failed => InitialOnly(Initial(member))
    case NotOk => helper
    case Ok(None) => InitialOnly(Initial(member))
    case Ok(Some(es)) =>
      match PickFromTable(es, member)
      case Some(u) => Photo(u)
      case None => helper
  }

  /**
   * A photo stored under the whitespace-free spelling of a name is found
   * from the spaced-out spelling too, when the exact key is missing.
   */
  lemma SpacedSpellingFindsPhoto(es: seq<MI.Entry>, name: string)
    requires forall i :: 0 <= i < |name| ==> !IsSpace(name[i])
    requires Lookup(es, SpacedName(name)).None? && Usable(Lookup(es, name))
    ensures PickFromTable(es, SpacedName(name)) == Lookup(es, name)
  {
    VariantsStripToName(name);
  }

  // ---------------------------------------------------------------------------
  // group names

  /**
   * The group name passed to the avatar helper when `getChineseGroupName`
   * is missing: a lower-cased key becomes its Chinese name; anything else is
   * kept as it was.
   */
  function ManualGroupName(groupName: string): (r: string)
    ensures AsciiLower(groupName) == "nogizaka" ==> r == "乃木坂46"
    ensures AsciiLower(groupName) == "sakurazaka" ==> r == "樱坂46"
    ensures AsciiLower(groupName) == "hinatazaka" ==> r == "日向坂46"
    ensures AsciiLower(groupName) !in {"nogizaka", "sakurazaka", "hinatazaka"} ==> r == groupName
  {
    var lower := AsciiLower(groupName);
    if lower == "nogizaka" then "乃木坂46"
    else if lower == "sakurazaka" then "樱坂46"
    else if lower == "hinatazaka" then "日向坂46"
    else groupName
  }

  predicate MentionsNogizaka(lower: string) { Contains(lower, "nogizaka") || Contains(lower, "乃木坂") }
  predicate MentionsSakurazaka(lower: string) { Contains(lower, "sakurazaka") || Contains(lower, "樱坂") }
  predicate MentionsHinatazaka(lower: string) { Contains(lower, "hinatazaka") || Contains(lower, "日向坂") }

  /**
   * The URL key of `setupViewMoreLink`: the three Chinese names map exactly;
   * anything else goes by what its lower-cased form mentions.
   */
  function GroupKey(groupName: string): (r: string)
    ensures groupName == "乃木坂46" ==> r == "nogizaka"
    ensures groupName == "樱坂46" ==> r == "sakurazaka"
    ensures groupName == "日向坂46" ==> r == "hinatazaka"
    ensures groupName != "乃木坂46" && groupName != "樱坂46" && groupName != "日向坂46" ==>
      r == KeyOfMention(AsciiLower(groupName))
  {
    if groupName == "乃木坂46" then "nogizaka"
    else if groupName == "樱坂46" then "sakurazaka"
    else if groupName == "日向坂46" then "hinatazaka"
    else KeyOfMention(AsciiLower(groupName))
  }

  /** The first group a lower-cased name mentions, in the order 乃木坂, 樱坂, 日向坂; else the name. */
  function KeyOfMention(lower: string): (r: string)
    ensures MentionsNogizaka(lower) ==> r == "nogizaka"
    ensures !MentionsNogizaka(lower) && MentionsSakurazaka(lower) ==> r == "sakurazaka"
    ensures !MentionsNogizaka(lower) && !MentionsSakurazaka(lower) && MentionsHinatazaka(lower) ==> r == "hinatazaka"
    ensures !MentionsNogizaka(lower) && !MentionsSakurazaka(lower) && !MentionsHinatazaka(lower) ==> r == lower
  {
    if MentionsNogizaka(lower) then "nogizaka"
    else if MentionsSakurazaka(lower) then "sakurazaka"
    else if MentionsHinatazaka(lower) then "hinatazaka"
    else lower
  }

  lemma NoNogizaka(w: string)
    requires 'n' !in w && '乃' !in w
    ensures !MentionsNogizaka(w)
  {
    AbsentCharOfPattern(w, "nogizaka", 0);
    AbsentCharOfPattern(w, "乃木坂", 0);
  }

  lemma NoSakurazaka(w: string)
    requires 's' !in w && '樱' !in w
    ensures !MentionsSakurazaka(w)
  {
    AbsentCharOfPattern(w, "sakurazaka", 0);
    AbsentCharOfPattern(w, "樱坂", 0);
  }

  lemma NogizakaKey(w: string)
    requires w == "nogizaka"
    ensures KeyOfMention(w) == w
  {
    ContainsAt(w, w, 0);
  }

  lemma SakurazakaKey(w: string)
    requires w == "sakurazaka"
    ensures KeyOfMention(w) == w
  {
    NoNogizaka(w);
    ContainsAt(w, w, 0);
  }

  lemma HinatazakaKey(w: string)
    requires w == "hinatazaka"
    ensures KeyOfMention(w) == w
  {
    assert 'o' !in w && '乃' !in w;
    AbsentCharOfPattern(w, "nogizaka", 1);
    AbsentCharOfPattern(w, "乃木坂", 0);
    NoSakurazaka(w);
    ContainsAt(w, w, 0);
  }

  /** A group key is lower case and no Chinese name, so it is its own key. */
  lemma KeyOfKey(w: string)
    requires w == "nogizaka" || w == "sakurazaka" || w == "hinatazaka"
    ensures GroupKey(w) == w
  {
    KeyWordIsLower(w);
    if w == "nogizaka" {
      NogizakaKey(w);
    } else if w == "sakurazaka" {
      SakurazakaKey(w);
    } else {
      HinatazakaKey(w);
    }
  }

  /** A group key is lower-case ASCII, so neither lower-casing nor the Chinese table touches it. */
  lemma KeyWordIsLower(w: string)
    requires w == "nogizaka" || w == "sakurazaka" || w == "hinatazaka"
    ensures AsciiLower(w) == w
    ensures w != "乃木坂46" && w != "樱坂46" && w != "日向坂46"
  {
    if w == "nogizaka" {
      LowerWordIsKeyWord(w);
    } else if w == "sakurazaka" {
      LowerWordIsKeyWord(w);
    } else {
      LowerWordIsKeyWord(w);
    }
  }

  /** A word of ASCII lower-case letters is its own lower case and none of the Chinese names. */
  lemma LowerWordIsKeyWord(w: string)
    requires |w| > 0 && forall i :: 0 <= i < |w| ==> 'a' <= w[i] <= 'z'
    ensures AsciiLower(w) == w
    ensures w != "乃木坂46" && w != "樱坂46" && w != "日向坂46"
  {
    AsciiLowerOfLower(w);
    assert w[0] != "乃木坂46"[0] && w[0] != "樱坂46"[0] && w[0] != "日向坂46"[0];
  }

  /** The Chinese names mention their own group. */
  lemma ChineseNamesMention()
    ensures MentionsNogizaka("乃木坂46") && MentionsSakurazaka("樱坂46") && MentionsHinatazaka("日向坂46")
  {
    ContainsAt("乃木坂46", "乃木坂", 0);
    ContainsAt("樱坂46", "樱坂", 0);
    ContainsAt("日向坂46", "日向坂", 0);
  }

  /** A key maps to itself, so deriving the key again changes nothing. */
  lemma GroupKeyIdempotent(groupName: string)
    ensures GroupKey(GroupKey(groupName)) == GroupKey(groupName)
  {
    var k := GroupKey(groupName);
    if k == "nogizaka" || k == "sakurazaka" || k == "hinatazaka" {
      KeyOfKey(k);
    } else {
      var lower := AsciiLower(groupName);
      assert k == lower && k == KeyOfMention(lower);
      AsciiLowerIdempotent(groupName);
      ChineseNamesMention();
    }
  }

  /** A derived key has no `/` and is not `blog` when the lower-cased name has neither. */
  lemma GroupKeyPathSafe(groupName: string)
    requires '/' !in AsciiLower(groupName) && AsciiLower(groupName) != "blog"
    ensures '/' !in GroupKey(groupName) && GroupKey(groupName) != "blog"
  {
    var k := GroupKey(groupName);
    if k != AsciiLower(groupName) {
      assert k == "nogizaka" || k == "sakurazaka" || k == "hinatazaka";
      KeyWordPathSafe(k);
    }
  }

  lemma KeyWordPathSafe(k: string)
    requires k == "nogizaka" || k == "sakurazaka" || k == "hinatazaka"
    ensures '/' !in k && k != "blog"
  {
    assert |k| >= 8;
    assert forall i :: 0 <= i < |k| ==> 'a' <= k[i] <= 'z';
  }

  /** `#<groupKey>/member/<encoded member>`. */
  function ViewMoreLink(groupName: string, member: string, encode: string -> string): string {
    R.MemberHash(GroupKey(groupName), encode(member))
  }

  /**
   * The link routes to the member page of the derived group key and the
   * member, for a group name without `/` that does not read `blog`.
   */
  lemma ViewMoreRoutesToMember(groupName: string, member: string, encode: string -> string, decode: string -> string)
    requires '/' !in groupName && AsciiLower(groupName) != "blog"
    requires '/' !in encode(member) && decode(encode(member)) == member
    ensures R.ParseHash(ViewMoreLink(groupName, member, encode), decode) == R.ToMember(GroupKey(groupName), member)
  {
    var k := GroupKey(groupName);
    AsciiLowerKeepsAbsent(groupName, '/');
    GroupKeyPathSafe(groupName);
    R.MemberRouteRoundTrip(k, member, encode, decode);
  }

  // ---------------------------------------------------------------------------
  // NEW ENTRY

  const NewEntryCount: nat := 5

  /** `blogs.slice(0, 5)`. */
  function NewEntries<T>(blogs: seq<T>): (r: seq<T>)
    ensures |r| == if |blogs| < NewEntryCount then |blogs| else NewEntryCount
    ensures r == blogs[..|r|]
  {
    if |blogs| < NewEntryCount then blogs else blogs[..NewEntryCount]
  }

  lemma {:induction false} HttpImageTargetsNonEmpty(s: string)
    ensures forall k :: 0 <= k < |MatchesOf(MdHttpImage, s)| ==> |MatchesOf(MdHttpImage, s)[k].cap1| > 0
    decreases |s|
  {
    if |s| > 0 {
      match MatchAt(MdHttpImage, s)
      case Some(m) =>
        HttpImageTargetsNonEmpty(s[m.len..]);
      case None =>
        HttpImageTargetsNonEmpty(s[1..]);
    }
  }

  /**
   * An entry's thumbnail: the target of the first markdown http(s) image in
   * its translation, which is the first image the renderer extracts; `None`
   * draws the gradient.
   */
  function Thumbnail(translated: string): (r: Option<string>)
    ensures translated == "" ==> r.None?
    ensures translated != "" ==>
      var urls := SR.ExtractImageUrls(translated);
      (|urls| == 0 ==> r.None?) && (|urls| > 0 ==> r == Some(urls[0]))
  {
    if translated == "" then None
    else
      HttpImageTargetsNonEmpty(translated);
      match FirstMatch(MdHttpImage, translated)
      case Some(m) => if m.cap1 != "" then Some(m.cap1) else None
      case None => None
  }
}

=== FILE: blog_renderer.dfy ===
/**
 * `renderMarkdown`, the entry point the blog pages call: strip frontmatter,
 * prefer the structured renderer when the body carries line tokens, else ask
 * whichever format detector is loaded, else fall back to inline Markdown with
 * `<br>` for every newline.
 */
module BlogRenderer {
  import opened Text
  import SR = StructuredRenderer
  import MP = MarkdownProcessor
  import Utils

  /**
   * Which global `detectContentFormat` the page ended up with: two scripts
   * define one, and the one loaded last wins.
   */
  datatype Detector =
    | RendererDetector
    | UtilsDetector(parsesToObject: string -> bool)
    | NoDetector

  /**
   * What is loaded on the page. `rendererLoaded` covers the structured
   * renderer's script, which defines `renderStructuredContent` and
   * `extractImageUrlsFromContent` together.
   */
  datatype Env = Env(rendererLoaded: bool, processorLoaded: bool, detector: Detector)

  predicate DetectsStructured(d: Detector, s: string) {
    match d
    case RendererDetector => SR.DetectContentFormat(s) == SR.Structured
    case UtilsDetector(p) => Utils.DetectContentFormat(s, p) == Utils.Structured
    case NoDetector => false
  }

  /** The structured path: images come from the stripped body. */
  function StructuredPath(clean: string, processorLoaded: bool): string {
    SR.StructuredHtml(clean, SR.ExtractImageUrlsFromContent(clean), processorLoaded)
  }

  /** The fallback: inline Markdown, then `<br>` for every newline. */
  function Fallback(clean: string, processorLoaded: bool): (r: string)
    ensures '\n' !in r
  {
    ReplaceChar(SR.Inline(clean, processorLoaded), '\n', "<br>")
  }

  /** Does the body go down the structured path? */
  predicate TakesStructuredPath(clean: string, env: Env) {
    env.rendererLoaded && (SR.HasMarker(clean) || DetectsStructured(env.detector, clean))
  }

  /**
   * `renderMarkdown`. `groupName` only reaches the log and the missing-token
   * notifier, neither of which is part of this model.
   */
  function RenderMarkdown(markdown: string, groupName: string, env: Env): (r: string)
    ensures var clean := SR.StripFrontmatter(markdown);
      TakesStructuredPath(clean, env) ==> r == StructuredPath(clean, env.processorLoaded)
    ensures var clean := SR.StripFrontmatter(markdown);
      !TakesStructuredPath(clean, env) ==> '\n' !in r && r == Fallback(clean, env.processorLoaded)
  {
    var clean := SR.StripFrontmatter(markdown);
    if SR.HasMarker(clean) && env.rendererLoaded then StructuredPath(clean, env.processorLoaded)
    else if env.detector != NoDetector && env.rendererLoaded && DetectsStructured(env.detector, clean) then
      StructuredPath(clean, env.processorLoaded)
    else Fallback(clean, env.processorLoaded)
  }

  /** The returned HTML never depends on the group name. */
  lemma GroupNameIrrelevant(markdown: string, g1: string, g2: string, env: Env)
    ensures RenderMarkdown(markdown, g1, env) == RenderMarkdown(markdown, g2, env)
  {
  }

  /**
   * With the renderer loaded, a body carrying tokens renders exactly as the
   * renderer's own `renderContent` renders it, whatever detector is loaded.
   */
  lemma TokensAgreeWithRenderContent(markdown: string, groupName: string, env: Env)
    requires env.rendererLoaded
    requires SR.HasMarker(SR.StripFrontmatter(markdown))
    ensures var clean := SR.StripFrontmatter(markdown);
      RenderMarkdown(markdown, groupName, env)
        == SR.RenderContent(clean, SR.ExtractImageUrlsFromContent(clean), env.processorLoaded)
  {
  }

  /**
   * Frontmatter is dropped before anything is decided: a post renders as its
   * trimmed body would on its own (unless that body opens another block).
   */
  lemma FrontmatterIgnored(meta: string, body: string, groupName: string, env: Env)
    requires !Contains(meta + "--", "---")
    requires !StartsWith(Trim(body), "---")
    ensures RenderMarkdown("---" + meta + "---" + body, groupName, env) == RenderMarkdown(Trim(body), groupName, env)
  {
    SR.FrontmatterDropped(meta, body);
  }

  /**
   * Plain text (no tokens, nothing the inline rewrite acts on, no detector
   * verdict) comes back with only its newlines turned into `<br>`: the same
   * as `renderContent` gives for unrecognised content.
   */
  lemma PlainTextFallback(markdown: string, groupName: string, env: Env)
    requires !StartsWith(markdown, "---")
    requires !SR.HasMarker(markdown) && MP.Inert(markdown)
    requires env.detector == NoDetector
    ensures RenderMarkdown(markdown, groupName, env) == ReplaceChar(markdown, '\n', "<br>")
    ensures markdown != "" && !SR.HasMarkdown(markdown) ==>
      RenderMarkdown(markdown, groupName, env) == SR.RenderContent(markdown, [], env.processorLoaded)
  {
    MP.InertUnchanged(markdown);
    SR.InertFallbackUnchanged(markdown);
  }
}

=== FILE: blogs.dfy ===
/**
 * The blog record as the front end receives it from the API. Missing or
 * falsy string fields are the empty string; a missing id is 0.
 */
module Blogs {
  import opened Wrappers
  import opened Text

  datatype Blog = Blog(
    id: nat,
    title: string,
    member: string,
    publishDate: string,
    content: string,
    translatedContent: string)

  /** `b.publish_date && b.publish_date.startsWith(date)`. */
  predicate DatedWith(b: Blog, date: string) {
    b.publishDate != "" && StartsWith(b.publishDate, date)
  }

  /**
   * `blogs.find(b => b.publish_date && b.publish_date.startsWith(date))`,
   * as the index of the blog found.
   */
  function FirstDatedWith(blogs: seq<Blog>, date: string): (r: Option<nat>)
    ensures r.Some? ==> r.value < |blogs| && DatedWith(blogs[r.value], date)
    ensures r.Some? ==> forall j :: 0 <= j < r.value ==> !DatedWith(blogs[j], date)
    ensures r.None? <==> forall j :: 0 <= j < |blogs| ==> !DatedWith(blogs[j], date)
    decreases |blogs|
  {
    if |blogs| == 0 then None
    else if DatedWith(blogs[0], date) then Some(0)
    else
      var r := FirstDatedWith(blogs[1..], date);
      assert forall j :: 1 <= j < |blogs| ==> blogs[j] == blogs[1..][j - 1];
      match r
      case Some(i) => Some(i + 1)
      case None => None
  }

  /** The hash of a blog's detail page. */
  function BlogHash(b: Blog): string {
    "#blog/" + NatToString(b.id)
  }
}

=== FILE: config.dfy ===
/**
 * The image CDN wrapper of the global configuration: an http(s) image URL
 * is fetched through Cloudinary with a fixed transformation. `encode`
 * stands for `encodeURIComponent`.
 */
module Config {
  import opened Text

  const CloudName: string := "djoegafjn"

  /** `w_<width>,q_<quality>,f_<format>,c_<crop>` for width 600, quality 75, format auto, crop scale. */
  const Transformation: string := "w_600,q_75,f_auto,c_scale"

  /** Everything of a wrapped URL before the encoded original. */
  function FetchPrefix(): (r: string)
    ensures StartsWith(r, "http")
    ensures |r| > 0 && r[|r| - 1] == '/'
  {
    var r := "https://res.cloudinary.com/" + CloudName + "/image/fetch/" + Transformation + "/";
    assert r[..4] == "http";
    r
  }

  /** `!originalUrl || !originalUrl.startsWith('http')`: the URLs passed through untouched. */
  predicate PassedThrough(url: string) {
    url == "" || !StartsWith(url, "http")
  }

  /**
   * `getCloudinaryUrl`: the input itself when the wrapper is disabled, the
   * input is empty or it does not start with `http`; else the fetch prefix
   * followed by the encoded input.
   */
  function CloudinaryUrl(enabled: bool, url: string, encode: string -> string): (r: string)
    ensures !enabled || PassedThrough(url) ==> r == url
    ensures enabled && !PassedThrough(url) ==>
      StartsWith(r, FetchPrefix()) && r[|FetchPrefix()|..] == encode(url)
  {
    if !enabled || PassedThrough(url) then url
    else
      var p := FetchPrefix();
      assert (p + encode(url))[..|p|] == p;
      p + encode(url)
  }

  /** The original URL is recovered from a wrapped one by dropping the prefix and decoding. */
  lemma UnwrapRecovers(url: string, encode: string -> string, decode: string -> string)
    requires !PassedThrough(url) && decode(encode(url)) == url
    ensures var w := CloudinaryUrl(true, url, encode);
      StartsWith(w, FetchPrefix()) && decode(w[|FetchPrefix()|..]) == url
  {
  }

  /**
   * A wrapped URL starts with `http` itself, so wrapping it again nests it
   * once more: with an encoding that never shortens its input, the wrapper
   * is not idempotent.
   */
  lemma WrapsTwice(url: string, encode: string -> string)
    requires !PassedThrough(url)
    requires forall x :: |encode(x)| >= |x|
    ensures var w := CloudinaryUrl(true, url, encode);
      !PassedThrough(w) && CloudinaryUrl(true, w, encode) == FetchPrefix() + encode(w)
      && CloudinaryUrl(true, w, encode) != w
  {
    var w := CloudinaryUrl(true, url, encode);
    var p := FetchPrefix();
    assert w[..4] == p[..4] by {
      assert w[..|p|] == p;
    }
    assert |encode(w)| >= |w|;
  }
}

=== FILE: group_config.dfy ===
/**
 * The three groups: lookup by key or by (normalised) name, and the name,
 * colour and emoji accessors built on that lookup.
 */
module GroupConfig {
  import opened Wrappers
  import opened Text

  datatype Group = Group(key: string, name: string, apiName: string, color: string)

  const Nogizaka: Group := Group("nogizaka", "乃木坂46", "乃木坂46", "#a855f7")
  const Sakurazaka: Group := Group("sakurazaka", "樱坂46", "樱坂46", "#f59e0b")
  const Hinatazaka: Group := Group("hinatazaka", "日向坂46", "日向坂46", "#3b82f6")

  /** The groups in the order `getByName` visits them. */
  const Groups: seq<Group> := [Nogizaka, Sakurazaka, Hinatazaka]

  const DefaultColor: string := "#6b7280"
  const DefaultEmoji: string := "📝"

  predicate IsGroupKey(k: string) {
    k == "nogizaka" || k == "sakurazaka" || k == "hinatazaka"
  }

  /** `getByKey`: the configuration filed under `key`, if any. */
  function GetByKey(key: string): (r: Option<Group>)
    ensures r.Some? <==> IsGroupKey(key)
    ensures r.Some? ==> r.value in Groups && r.value.key == key
  {
    if key == "nogizaka" then Some(Nogizaka)
    else if key == "sakurazaka" then Some(Sakurazaka)
    else if key == "hinatazaka" then Some(Hinatazaka)
    else None
  }

  /** `normalizeName`: traditional 櫻 becomes simplified 樱, then trim. */
  function NormalizeName(name: string): (r: string)
    ensures '櫻' !in r
    ensures IsTrimmed(r)
    ensures name == "" ==> r == ""
  {
    if name == "" then "" else Trim(ReplaceChar(name, '櫻', "樱"))
  }

  lemma NormalizeIdempotent(name: string)
    ensures NormalizeName(NormalizeName(name)) == NormalizeName(name)
  {
    var n := NormalizeName(name);
    if n != "" {
      TrimOfTrimmed(n);
    }
  }

  lemma NogizakaNormal() ensures NormalizeName("乃木坂46") == "乃木坂46" {
    assert '櫻' !in "乃木坂46" && IsTrimmed("乃木坂46");
    TrimOfTrimmed("乃木坂46");
  }

  lemma SakurazakaNormal() ensures NormalizeName("樱坂46") == "樱坂46" {
    assert '櫻' !in "樱坂46" && IsTrimmed("樱坂46");
    TrimOfTrimmed("樱坂46");
  }

  lemma HinatazakaNormal() ensures NormalizeName("日向坂46") == "日向坂46" {
    assert '櫻' !in "日向坂46" && IsTrimmed("日向坂46");
    TrimOfTrimmed("日向坂46");
  }

  predicate NamedBy(g: Group, normalized: string) {
    NormalizeName(g.name) == normalized || NormalizeName(g.apiName) == normalized
  }

  /** The first of `gs` whose normalised display or API name is `normalized`. */
  function FindNamed(gs: seq<Group>, normalized: string): (r: Option<Group>)
    ensures r.Some? ==> r.value in gs && NamedBy(r.value, normalized)
    ensures r.None? <==> forall i :: 0 <= i < |gs| ==> !NamedBy(gs[i], normalized)
  {
    if |gs| == 0 then None
    else if NamedBy(gs[0], normalized) then Some(gs[0])
    else
      var r := FindNamed(gs[1..], normalized);
      assert forall i :: 1 <= i < |gs| ==> gs[i] == gs[1..][i - 1];
      r
  }

  /** `getByName`: nothing for an empty name, else the first group the normalised name denotes. */
  function GetByName(name: string): (r: Option<Group>)
    ensures name == "" ==> r.None?
    ensures r.Some? ==> r.value in Groups && NamedBy(r.value, NormalizeName(name))
    ensures name != "" && r.None? ==> forall i :: 0 <= i < |Groups| ==> !NamedBy(Groups[i], NormalizeName(name))
  {
    if name == "" then None else FindNamed(Groups, NormalizeName(name))
  }

  /** The traditional spelling, with stray spaces, still finds 樱坂46. */
  lemma TraditionalSpellingResolves(pre: string, post: string)
    requires forall i :: 0 <= i < |pre| ==> IsSpace(pre[i])
    requires forall i :: 0 <= i < |post| ==> IsSpace(post[i])
    ensures GetByName(pre + "櫻坂46" + post) == Some(Sakurazaka)
  {
    TraditionalNormal(pre, post);
    GetByNameTable(pre + "櫻坂46" + post);
    DistinctNames();
  }

  lemma TraditionalNormal(pre: string, post: string)
    requires forall i :: 0 <= i < |pre| ==> IsSpace(pre[i])
    requires forall i :: 0 <= i < |post| ==> IsSpace(post[i])
    ensures NormalizeName(pre + "櫻坂46" + post) == "樱坂46"
  {
    TraditionalNormalOf(pre, "櫻坂46", post, "樱坂46");
  }

  lemma TraditionalNormalOf(pre: string, w: string, post: string, v: string)
    requires w == "櫻坂46" && v == "樱坂46"
    requires forall i :: 0 <= i < |pre| ==> IsSpace(pre[i])
    requires forall i :: 0 <= i < |post| ==> IsSpace(post[i])
    ensures NormalizeName(pre + w + post) == v
  {
    ReplaceCharConcat(pre, w, post);
    TraditionalWord(w, v);
    ReplaceCharKeepsSpaces(pre);
    ReplaceCharKeepsSpaces(post);
    assert |pre + w + post| > 0;
    TrimAroundWord(pre, v, post);
  }

  lemma TraditionalWord(w: string, v: string)
    requires w == "櫻坂46" && v == "樱坂46"
    ensures ReplaceChar(w, '櫻', "樱") == v
    ensures |v| > 0 && !IsSpace(v[0]) && !IsSpace(v[|v| - 1])
  {
    assert ReplaceChar(w, '櫻', "樱") == "樱" + ReplaceChar(w[1..], '櫻', "樱");
    assert '櫻' !in w[1..];
  }

  lemma ReplaceCharConcat(a: string, b: string, c: string)
    ensures ReplaceChar(a + b + c, '櫻', "樱") == ReplaceChar(a, '櫻', "樱") + ReplaceChar(b, '櫻', "樱") + ReplaceChar(c, '櫻', "樱")
  {
    ReplaceCharAppend(a + b, c, '櫻', "樱");
    ReplaceCharAppend(a, b, '櫻', "樱");
  }

  lemma ReplaceCharKeepsSpaces(s: string)
    requires forall i :: 0 <= i < |s| ==> IsSpace(s[i])
    ensures ReplaceChar(s, '櫻', "樱") == s
  {
    assert '櫻' !in s by {
      assert forall i :: 0 <= i < |s| ==> s[i] != '櫻';
    }
  }

  /** Trimming a word with no outer spaces out of surrounding blanks. */
  lemma TrimAroundWord(pre: string, w: string, post: string)
    requires forall i :: 0 <= i < |pre| ==> IsSpace(pre[i])
    requires forall i :: 0 <= i < |post| ==> IsSpace(post[i])
    requires |w| > 0 && !IsSpace(w[0]) && !IsSpace(w[|w| - 1])
    ensures Trim(pre + w + post) == w
  {
    var s := pre + w + post;
    var t := Trim(s);
    var lo := LeadingSpaces(s);
    assert s[|pre|] == w[0];
    assert forall i :: 0 <= i < |pre| ==> IsSpace(s[i]);
    assert lo == |pre|;
    assert s[|pre|..][..|w|] == w;
    assert !IsSpace(s[|pre| + |w| - 1]);
    assert forall i :: |pre| + |w| <= i < |s| ==> IsSpace(s[i]);
    assert |t| == |w|;
    assert t == s[|pre|..|pre| + |w|];
  }

  /** `getByKey(k) || getByName(k)`. */
  function Resolve(keyOrName: string): (r: Option<Group>)
    ensures IsGroupKey(keyOrName) ==> r == GetByKey(keyOrName)
    ensures !IsGroupKey(keyOrName) ==> r == GetByName(keyOrName)
    ensures r.Some? ==> r.value in Groups
  {
    var k := GetByKey(keyOrName);
    if k.Some? then k else GetByName(keyOrName)
  }

  /** `getApiName`: the API spelling of a key or name; anything unknown passes through. */
  function GetApiName(keyOrName: string): (r: string)
    ensures Resolve(keyOrName).None? ==> r == keyOrName
    ensures Resolve(keyOrName).Some? ==> r == Resolve(keyOrName).value.apiName
  {
    match Resolve(keyOrName)
    case Some(g) => g.apiName
    case None => keyOrName
  }

  /** `getDisplayName`: the display spelling; anything unknown passes through. */
  function GetDisplayName(keyOrName: string): (r: string)
    ensures Resolve(keyOrName).None? ==> r == keyOrName
    ensures Resolve(keyOrName).Some? ==> r == Resolve(keyOrName).value.name
  {
    match Resolve(keyOrName)
    case Some(g) => g.name
    case None => keyOrName
  }

  /** `getColor`, gray for anything unknown. */
  function GetColor(keyOrName: string): (r: string)
    ensures Resolve(keyOrName).None? ==> r == DefaultColor
    ensures Resolve(keyOrName).Some? ==> r == Resolve(keyOrName).value.color
  {
    match Resolve(keyOrName)
    case Some(g) => g.color
    case None => DefaultColor
  }

  /**
   * `getEmoji`: the configurations carry no emoji field, so a known group
   * yields `undefined` (`None`) and only an unknown one the fallback.
   */
  function GetEmoji(keyOrName: string): (r: Option<string>)
    ensures r.None? <==> Resolve(keyOrName).Some?
    ensures r.Some? ==> r.value == DefaultEmoji
  {
    match Resolve(keyOrName)
    case Some(_) => None
    case None => Some(DefaultEmoji)
  }

  lemma NamedByNogizaka(n: string)
    ensures NamedBy(Nogizaka, n) <==> n == "乃木坂46"
  {
    NogizakaNormal();
  }

  lemma NamedBySakurazaka(n: string)
    ensures NamedBy(Sakurazaka, n) <==> n == "樱坂46"
  {
    SakurazakaNormal();
  }

  lemma NamedByHinatazaka(n: string)
    ensures NamedBy(Hinatazaka, n) <==> n == "日向坂46"
  {
    HinatazakaNormal();
  }

  /** The group a normalised name denotes: exactly the three configured names resolve. */
  function NamedGroup(n: string): Option<Group> {
    if n == "乃木坂46" then Some(Nogizaka)
    else if n == "樱坂46" then Some(Sakurazaka)
    else if n == "日向坂46" then Some(Hinatazaka)
    else None
  }

  lemma FindNamedTable(n: string)
    ensures FindNamed(Groups, n) == NamedGroup(n)
  {
    var tail := Groups[1..];
    var last := tail[1..];
    assert tail == [Sakurazaka, Hinatazaka] && last == [Hinatazaka] && last[1..] == [];
    FindNamedStep(Groups, n);
    FindNamedStep(tail, n);
    FindNamedStep(last, n);
    NamedByNogizaka(n);
    NamedBySakurazaka(n);
    NamedByHinatazaka(n);
    DistinctNames();
  }

  lemma FindNamedStep(gs: seq<Group>, n: string)
    requires |gs| > 0
    ensures FindNamed(gs, n) == if NamedBy(gs[0], n) then Some(gs[0]) else FindNamed(gs[1..], n)
  {
  }

  lemma DistinctNames()
    ensures "乃木坂46" != "樱坂46" && "乃木坂46" != "日向坂46" && "樱坂46" != "日向坂46"
  {
    assert "乃木坂46"[0] != "樱坂46"[0] && "乃木坂46"[0] != "日向坂46"[0] && "樱坂46"[0] != "日向坂46"[0];
  }

  /** `getByName` resolves a non-empty name exactly when its normal form is a configured name. */
  lemma GetByNameTable(name: string)
    ensures name != "" ==> GetByName(name) == NamedGroup(NormalizeName(name))
  {
    FindNamedTable(NormalizeName(name));
  }

  lemma NogizakaByName()
    ensures Resolve("乃木坂46") == Some(Nogizaka)
  {
    GetByNameTable("乃木坂46");
    NogizakaNormal();
  }

  lemma SakurazakaByName()
    ensures Resolve("樱坂46") == Some(Sakurazaka)
  {
    GetByNameTable("樱坂46");
    SakurazakaNormal();
  }

  lemma HinatazakaByName()
    ensures Resolve("日向坂46") == Some(Hinatazaka)
  {
    GetByNameTable("日向坂46");
    HinatazakaNormal();
  }

  /** An API name resolves back to its own group, by name. */
  lemma ApiNameResolves(g: Group)
    requires g == Nogizaka || g == Sakurazaka || g == Hinatazaka
    ensures Resolve(g.apiName) == Some(g)
  {
    if g == Nogizaka {
      NogizakaByName();
    } else if g == Sakurazaka {
      SakurazakaByName();
    } else {
      HinatazakaByName();
    }
  }

  /** `getApiName` is idempotent: the API name of an API name is itself. */
  lemma GetApiNameIdempotent(keyOrName: string)
    ensures GetApiName(GetApiName(keyOrName)) == GetApiName(keyOrName)
  {
    match Resolve(keyOrName)
    case Some(g) =>
      ApiNameResolves(g);
    case None =>
  }

  /** Key and display name reach the same group. */
  lemma KeyAndNameAgree(g: Group)
    requires g in Groups
    ensures Resolve(g.key) == Some(g) && Resolve(g.name) == Some(g)
  {
    ApiNameResolves(g);
    assert g.name == g.apiName;
  }
}

=== FILE: image_download.dfy ===
/**
 * The image harvester behind "download all images" and the bookkeeping of the
 * download loop. The downloads themselves happen over the network; here the
 * outcome of each one is an input.
 */
module ImageDownload {
  import opened Text
  import opened Patterns
  import opened Blogs
  import Utils

  datatype Source = FromMarkdown | FromHtml
  datatype ImageRef = ImageRef(url: string, source: Source)

  /** `translated_content || content || ''`. */
  function ContentOf(b: Blog): (r: string)
    ensures b.translatedContent != "" ==> r == b.translatedContent
    ensures b.translatedContent == "" ==> r == b.content
  {
    if b.translatedContent != "" then b.translatedContent else b.content
  }

  /** Values of `<img … src="…"` with double quotes, in order. */
  function DoubleQuotedSources(s: string): (r: seq<string>)
    ensures |r| == |MatchesOf(ImgSrcDouble, s)|
    ensures forall k :: 0 <= k < |r| ==> r[k] == MatchesOf(ImgSrcDouble, s)[k].cap1
  {
    var ms := MatchesOf(ImgSrcDouble, s);
    seq(|ms|, k requires 0 <= k < |ms| => ms[k].cap1)
  }

  /**
   * `extractImagesFromContent`: every markdown target in order, duplicates
   * kept, tagged as markdown; then each double-quoted `<img src>` value that no
   * earlier entry has, tagged as html.
   */
  function ExtractImagesFromContent(b: Blog): (r: seq<ImageRef>)
    ensures var md := Utils.MarkdownTargets(ContentOf(b));
      |md| <= |r| && forall k :: 0 <= k < |md| ==> r[k] == ImageRef(md[k], FromMarkdown)
    ensures var md := Utils.MarkdownTargets(ContentOf(b));
      forall k :: |md| <= k < |r| ==>
        r[k].source == FromHtml && r[k].url in DoubleQuotedSources(ContentOf(b))
        && forall j :: 0 <= j < k ==> r[j].url != r[k].url
    ensures forall u :: u in DoubleQuotedSources(ContentOf(b)) ==> exists k :: 0 <= k < |r| && r[k].url == u
  {
    var md := Utils.MarkdownTargets(ContentOf(b));
    var srcs := DoubleQuotedSources(ContentOf(b));
    var urls := Utils.AppendAbsent(md, srcs);
    TaggedShape(md, srcs, urls);
    Tagged(urls, |md|)
  }

  /** Each URL tagged markdown before position `n` and html from there on. */
  function Tagged(urls: seq<string>, n: nat): (r: seq<ImageRef>)
    ensures |r| == |urls|
    ensures forall k :: 0 <= k < |r| ==> r[k].url == urls[k]
    ensures forall k :: 0 <= k < |r| ==> r[k].source == (if k < n then FromMarkdown else FromHtml)
  {
    seq(|urls|, k requires 0 <= k < |urls| => ImageRef(urls[k], if k < n then FromMarkdown else FromHtml))
  }

  lemma TaggedShape(md: seq<string>, srcs: seq<string>, urls: seq<string>)
    requires |md| <= |urls| && urls[..|md|] == md
    requires forall k :: |md| <= k < |urls| ==> urls[k] in srcs && urls[k] !in urls[..k]
    requires forall c :: c in srcs ==> c in urls
    ensures var r := Tagged(urls, |md|);
      (forall k :: 0 <= k < |md| ==> r[k] == ImageRef(md[k], FromMarkdown))
      && (forall k :: |md| <= k < |r| ==>
            r[k].source == FromHtml && r[k].url in srcs && forall j :: 0 <= j < k ==> r[j].url != r[k].url)
      && (forall u :: u in srcs ==> exists k :: 0 <= k < |r| && r[k].url == u)
  {
    var r := Tagged(urls, |md|);
    forall k | 0 <= k < |md| ensures r[k] == ImageRef(md[k], FromMarkdown) {
      assert urls[k] == urls[..|md|][k];
    }
    forall k, j | |md| <= k < |r| && 0 <= j < k ensures r[j].url != r[k].url {
      assert urls[j] in urls[..k];
    }
    forall u | u in srcs ensures exists k :: 0 <= k < |r| && r[k].url == u {
      var k :| 0 <= k < |urls| && urls[k] == u;
      assert r[k].url == u;
    }
  }

  // ---------------------------------------------------------------------------
  // the ZIP download loop

  /** The ZIP entry of the i-th image (0-based): `i + 1` padded to two digits, then `.jpg`. */
  function ZipEntryName(i: nat): (r: string)
    ensures |r| >= 6 && r[|r| - 4..] == ".jpg"
    ensures AllDigits(r[..|r| - 4]) && ParseNat(r[..|r| - 4]) == i + 1
    ensures i < 99 ==> |r| == 6
  {
    var d := Pad2(i + 1);
    assert (d + ".jpg")[..|d|] == d;
    d + ".jpg"
  }

  /** Distinct images get distinct entries, so no file in the archive is overwritten. */
  lemma ZipEntryNamesDistinct(i: nat, j: nat)
    requires i != j
    ensures ZipEntryName(i) != ZipEntryName(j)
  {
  }

  /** The entries of the images whose download succeeded, in order. */
  function SucceededEntries(fetched: seq<bool>): (r: seq<string>)
    ensures |r| <= |fetched|
    ensures |r| == 0 <==> forall i :: 0 <= i < |fetched| ==> !fetched[i]
    decreases |fetched|
  {
    if |fetched| == 0 then []
    else
      var last := |fetched| - 1;
      var earlier := SucceededEntries(fetched[..last]);
      assert forall i :: 0 <= i < last ==> fetched[..last][i] == fetched[i];
      earlier + (if fetched[last] then [ZipEntryName(last)] else [])
  }

  /** The i-th image's entry is listed exactly when that image exists and its download succeeded. */
  lemma {:induction false} SucceededEntriesExactly(fetched: seq<bool>, i: nat)
    ensures ZipEntryName(i) in SucceededEntries(fetched) <==> i < |fetched| && fetched[i]
    decreases |fetched|
  {
    if |fetched| > 0 {
      var last := |fetched| - 1;
      SucceededEntriesExactly(fetched[..last], i);
      if i != last {
        ZipEntryNamesDistinct(i, last);
      }
      if i < last {
        assert fetched[..last][i] == fetched[i];
      }
    }
  }

  datatype Outcome =
    | NoImages
    | AllFailed(failCount: nat)
    | Zipped(entries: seq<string>, successCount: nat, failCount: nat)

  /**
   * `downloadAllImages` after extraction: `fetched[i]` says whether image i
   * downloaded. Nothing is attempted for an empty list; each success adds an
   * entry and each failure is counted; with no success nothing is zipped.
   */
  method DownloadAll(images: seq<ImageRef>, fetched: seq<bool>) returns (o: Outcome)
    requires |fetched| == |images|
    ensures o == NoImages <==> |images| == 0
    ensures o.AllFailed? <==> |images| > 0 && forall i :: 0 <= i < |fetched| ==> !fetched[i]
    ensures o.AllFailed? ==> o.failCount == |images|
    ensures o.Zipped? ==> o.successCount + o.failCount == |images|
    ensures o.Zipped? ==> o.entries == SucceededEntries(fetched) && o.successCount == |o.entries| > 0
  {
    if |images| == 0 {
      return NoImages;
    }
    var entries: seq<string> := [];
    var successCount := 0;
    var failCount := 0;
    var i := 0;
    while i < |images|
      invariant 0 <= i <= |images|
      invariant entries == SucceededEntries(fetched[..i])
      invariant successCount == |entries| && successCount + failCount == i
    {
      assert fetched[..i + 1][..i] == fetched[..i];
      if fetched[i] {
        entries := entries + [ZipEntryName(i)];
        successCount := successCount + 1;
      } else {
        failCount := failCount + 1;
      }
      i := i + 1;
    }
    assert fetched[..i] == fetched;
    if successCount == 0 {
      return AllFailed(failCount);
    }
    return Zipped(entries, successCount, failCount);
  }
}

=== FILE: markdown_processor.dfy ===
/**
 * The inline Markdown rewrite shared by the renderers: markdown images become
 * `<img>` elements, `**bold**` becomes `<strong>`, and bare http(s) runs become
 * anchors unless they look like image files.
 */
module MarkdownProcessor {
  import opened Wrappers
  import opened Text
  import opened Patterns

  const DefaultAlt: string := "图片"

  /** The element an image `![alt](url)` is rewritten to. */
  function ImageTag(alt: string, url: string): string {
    "<img src=\"" + url + "\" alt=\"" + (if alt == "" then DefaultAlt else alt)
      + "\" class=\"w-full my-4 rounded-lg\" loading=\"lazy\" />"
  }

  function BoldTag(inner: string): string {
    "<strong>" + inner + "</strong>"
  }

  /** The anchor a non-image URL run is rewritten to; href and text are both the run. */
  function Anchor(url: string): string {
    "<a href=\"" + url + "\" target=\"_blank\" rel=\"noopener noreferrer\" "
      + "style=\"color: #2563eb; text-decoration: underline; cursor: pointer; word-break: break-all;\">"
      + url + "</a>"
  }

  /** Case-sensitive test for an image extension anywhere in the run. */
  predicate HasImageExt(u: string) {
    Contains(u, ".jpg") || Contains(u, ".png") || Contains(u, ".gif")
      || Contains(u, ".jpeg") || Contains(u, ".webp")
  }

  function LinkFor(u: string): (r: string)
    ensures HasImageExt(u) ==> r == u
    ensures !HasImageExt(u) ==> r == Anchor(u)
  {
    if HasImageExt(u) then u else Anchor(u)
  }

  function ImageRepl(m: Match): string { ImageTag(m.cap1, m.cap2) }
  function BoldRepl(m: Match): string { BoldTag(m.cap1) }
  function LinkRepl(m: Match): string { LinkFor(m.cap1) }

  function ProcessImages(s: string): string {
    ReplaceAll(MdImage, s, ImageRepl)
  }

  function ProcessBold(s: string): string {
    ReplaceAll(Bold, s, BoldRepl)
  }

  function ProcessLinks(s: string): string {
    ReplaceAll(UrlRun, s, LinkRepl)
  }

  /** The entry point: images, then bold, then links; empty input gives ''. */
  function Process(s: string): (r: string)
    ensures s == "" ==> r == ""
    ensures s != "" ==> r == ProcessLinks(ProcessBold(ProcessImages(s)))
  {
    if s == "" then "" else ProcessLinks(ProcessBold(ProcessImages(s)))
  }

  // ---------------------------------------------------------------------------
  // what the three steps do to a well-formed occurrence

  /** Characters an image's alt text may hold for the lazy scan to stop at its `](`. */
  predicate PlainAlt(alt: string) {
    forall k :: 0 <= k < |alt| ==> !IsLineTerminator(alt[k]) && alt[k] != ']'
  }

  /** Characters an image target may hold for the lazy scan to stop at its `)`. */
  predicate PlainTarget(url: string) {
    forall k :: 0 <= k < |url| ==> !IsLineTerminator(url[k]) && url[k] != ')'
  }

  function ImageSource(alt: string, url: string): string {
    "![" + alt + "](" + url + ")"
  }

  /** Where the brackets, the alt text and the target sit in `![alt](url)`. */
  lemma ImageSourceShape(alt: string, url: string)
    ensures var src := ImageSource(alt, url);
      && |src| == |alt| + |url| + 5
      && src[..2] == "![" && src[2..2 + |alt|] == alt
      && src[2 + |alt|] == ']' && src[3 + |alt|] == '('
      && src[4 + |alt|..] == url + ")"
  {
    var src := ImageSource(alt, url);
    assert src == ("![" + alt) + ("](" + (url + ")"));
    assert src[4 + |alt|..] == url + ")";
  }

  /** `t` begins with `![alt](url)`, stated position by position. */
  predicate ImageAhead(t: string, alt: string, url: string) {
    && |t| >= |alt| + |url| + 5
    && StartsWith(t, "![")
    && t[2..2 + |alt|] == alt
    && t[2 + |alt|] == ']' && t[3 + |alt|] == '('
    && t[4 + |alt|..5 + |alt| + |url|] == url + ")"
  }

  lemma ImageAheadOf(alt: string, url: string, rest: string)
    ensures ImageAhead(ImageSource(alt, url) + rest, alt, url)
    ensures |ImageSource(alt, url)| == |alt| + |url| + 5
  {
    var src := ImageSource(alt, url);
    var t := src + rest;
    ImageSourceShape(alt, url);
    assert t[..|src|] == src;
    assert t[..2] == src[..2];
    assert t[2..2 + |alt|] == src[2..2 + |alt|];
    assert t[4 + |alt|..5 + |alt| + |url|] == src[4 + |alt|..];
  }

  lemma {:induction false} MdImageScan(t: string, a: nat, alt: string, url: string)
    requires 2 <= a <= 2 + |alt|
    requires PlainAlt(alt) && PlainTarget(url)
    requires ImageAhead(t, alt, url)
    ensures MdImageFrom(t, a) == Some(Match(|alt| + |url| + 5, alt, url))
    decreases 2 + |alt| - a
  {
    if a < 2 + |alt| {
      assert t[a] == t[2..2 + |alt|][a - 2] == alt[a - 2];
      MdImageScan(t, a + 1, alt, url);
    } else {
      MdImageClose(t, alt, url);
    }
  }

  /** At the `]` after the alt text the target is read up to its `)`. */
  lemma MdImageClose(t: string, alt: string, url: string)
    requires PlainTarget(url) && ImageAhead(t, alt, url)
    ensures MdImageFrom(t, 2 + |alt|) == Some(Match(|alt| + |url| + 5, alt, url))
  {
    var a := 2 + |alt|;
    var close := 4 + |alt| + |url|;
    forall k | a + 2 <= k < close ensures NotLineEndNorParen(t[k]) {
      assert t[k] == t[a + 2..close + 1][k - a - 2] == url[k - a - 2];
    }
    assert t[close] == t[a + 2..close + 1][|url|] == ')';
    SpanWhileExact(t, a + 2, close, NotLineEndNorParen);
    assert t[a + 2..close] == t[a + 2..close + 1][..|url|] == url;
  }

  /** `![alt](url)` with plain alt and target is matched exactly, with both captured. */
  lemma MdImageMatches(alt: string, url: string, rest: string)
    requires PlainAlt(alt) && PlainTarget(url)
    ensures MatchAt(MdImage, ImageSource(alt, url) + rest)
         == Some(Match(|ImageSource(alt, url)|, alt, url))
  {
    ImageAheadOf(alt, url, rest);
    MdImageScan(ImageSource(alt, url) + rest, 2, alt, url);
  }

  /**
   * Text up to the first image is kept, the image becomes its `<img>` element,
   * and the rest is processed on its own.
   */
  lemma ProcessImagesAt(pre: string, alt: string, url: string, rest: string)
    requires !Contains(pre + "!", "![")
    requires PlainAlt(alt) && PlainTarget(url)
    ensures ProcessImages(pre + ImageSource(alt, url) + rest)
         == pre + ImageTag(alt, url) + ProcessImages(rest)
  {
    var img := ImageSource(alt, url);
    var f := ImageRepl;
    assert (img + rest)[..1] == "!";
    LiteralFreePrefix(MdImage, "![", pre, img + rest);
    assert pre + img + rest == pre + (img + rest);
    ReplaceSkipsPrefix(MdImage, pre, img + rest, f);
    MdImageMatches(alt, url, rest);
    ReplaceAtMatch(MdImage, img, rest, f);
  }

  lemma {:induction false} BoldScan(t: string, a: nat, x: string)
    requires 2 <= a <= 2 + |x|
    requires forall k :: 0 <= k < |x| ==> !IsLineTerminator(x[k]) && x[k] != '*'
    requires |t| >= |x| + 4 && t[..|x| + 4] == "**" + x + "**"
    ensures BoldFrom(t, a) == Some(Match(|x| + 4, x, ""))
    decreases 2 + |x| - a
  {
    assert forall k :: 0 <= k < |x| + 4 ==> t[k] == ("**" + x + "**")[k];
    if a < 2 + |x| {
      assert t[a] == x[a - 2];
      BoldScan(t, a + 1, x);
    } else {
      assert t[2..a] == x;
    }
  }

  /**
   * `**x**` becomes `<strong>x</strong>` when x holds no `*` and no line break:
   * each opening `**` pairs with the nearest following one.
   */
  lemma ProcessBoldAt(pre: string, x: string, rest: string)
    requires !Contains(pre + "*", "**")
    requires forall k :: 0 <= k < |x| ==> !IsLineTerminator(x[k]) && x[k] != '*'
    ensures ProcessBold(pre + "**" + x + "**" + rest) == pre + BoldTag(x) + ProcessBold(rest)
  {
    var b := "**" + x + "**";
    var f := BoldRepl;
    assert (b + rest)[..1] == "*";
    LiteralFreePrefix(Bold, "**", pre, b + rest);
    assert pre + "**" + x + "**" + rest == pre + (b + rest);
    ReplaceSkipsPrefix(Bold, pre, b + rest, f);
    BoldMatches(x, rest);
    ReplaceAtMatch(Bold, b, rest, f);
  }

  /** `**x**` with plain x is matched exactly, with x captured. */
  lemma BoldMatches(x: string, rest: string)
    requires forall k :: 0 <= k < |x| ==> !IsLineTerminator(x[k]) && x[k] != '*'
    ensures MatchAt(Bold, "**" + x + "**" + rest) == Some(Match(|x| + 4, x, ""))
  {
    var b := "**" + x + "**";
    var t := b + rest;
    assert t[..|x| + 4] == b;
    assert StartsWith(t, "**") by { assert t[..2] == "**"; }
    BoldScan(t, 2, x);
  }

  /** A URL run: scheme, at least one more character, none of them whitespace or `<`. */
  predicate UrlRunText(u: string) {
    0 < SchemeEnd(u) < |u| && forall k :: 0 <= k < |u| ==> UrlChar(u[k])
  }

  /**
   * A maximal URL run (the next character ends it) is replaced by its anchor,
   * or kept verbatim when it mentions an image extension.
   */
  lemma ProcessLinksAt(pre: string, u: string, rest: string)
    requires !Contains(pre + "htt", "http")
    requires UrlRunText(u)
    requires rest == [] || !UrlChar(rest[0])
    ensures ProcessLinks(pre + u + rest) == pre + LinkFor(u) + ProcessLinks(rest)
  {
    calc {
      ProcessLinks(pre + u + rest);
      { LinksSkipPrefix(pre, u, rest); }
      pre + ProcessLinks(u + rest);
      { LinksAtRun(u, rest); }
      pre + (LinkFor(u) + ProcessLinks(rest));
    }
  }

  lemma LinksSkipPrefix(pre: string, u: string, rest: string)
    requires !Contains(pre + "htt", "http")
    requires UrlRunText(u)
    ensures ProcessLinks(pre + u + rest) == pre + ProcessLinks(u + rest)
  {
    var t := u + rest;
    assert StartsWith(t, "http") by {
      SchemeStartsHttp(u);
      StartsWithConcat(u, rest, "http");
    }
    assert pre + u + rest == pre + t;
    assert t[..3] == t[..4][..3];
    assert "http"[..3] == "htt";
    UrlRunStartsHttp();
    LiteralFreePrefix(UrlRun, "http", pre, t);
    ReplaceSkipsPrefix(UrlRun, pre, t, LinkRepl);
  }

  lemma LinksAtRun(u: string, rest: string)
    requires UrlRunText(u)
    requires rest == [] || !UrlChar(rest[0])
    ensures ProcessLinks(u + rest) == LinkFor(u) + ProcessLinks(rest)
  {
    UrlRunMatches(u, rest);
    ReplaceAtMatch(UrlRun, u, rest, LinkRepl);
  }

  lemma UrlRunStartsHttp()
    ensures forall t: string {:trigger Anchored(UrlRun, t)} :: Anchored(UrlRun, t) ==> StartsWith(t, "http")
  {
    forall t: string | Anchored(UrlRun, t) ensures StartsWith(t, "http") {
      SchemeStartsHttp(t);
    }
  }

  /** A maximal URL run is matched whole. */
  lemma UrlRunMatches(u: string, rest: string)
    requires UrlRunText(u)
    requires rest == [] || !UrlChar(rest[0])
    ensures MatchAt(UrlRun, u + rest) == Some(Match(|u|, u, ""))
  {
    var t := u + rest;
    StartsWithConcat(u, rest, "http://");
    StartsWithConcat(u, rest, "https://");
    var b := SchemeEnd(t);
    assert b == SchemeEnd(u);
    forall k | b <= k < |u| ensures UrlChar(t[k]) {
      assert t[k] == u[k];
    }
    SpanWhileExact(t, b, |u|, UrlChar);
    assert t[..|u|] == u;
  }

  /** None of the three rewrites can start anywhere in the text. */
  predicate Inert(s: string) {
    !Contains(s, "![") && !Contains(s, "**") && !Contains(s, "http://") && !Contains(s, "https://")
  }

  /** Text containing none of `![`, `**`, `http://`, `https://` comes back unchanged. */
  lemma InertUnchanged(s: string)
    requires Inert(s)
    ensures Process(s) == s
  {
    AbsentLiteralUnanchored(MdImage, s, "![");
    UnanchoredUnchanged(MdImage, s, ImageRepl);
    AbsentLiteralUnanchored(Bold, s, "**");
    UnanchoredUnchanged(Bold, s, BoldRepl);
    forall i | 0 <= i <= |s| ensures !Anchored(UrlRun, s[i..]) {
      NotContainsAt(s, "http://", i);
      NotContainsAt(s, "https://", i);
    }
    UnanchoredUnchanged(UrlRun, s, LinkRepl);
  }
}

=== FILE: member_detail.dfy ===
/**
 * The member blog detail page: the group display names of its breadcrumb,
 * the calendar's "has a blog" marks and day clicks, the recent-entries list,
 * the group key read from the hash, and the back button.
 */
module MemberDetail {
  import opened Wrappers
  import opened Text
  import opened Blogs
  import MP = MemberPage
  import R = Router
  import GC = GroupConfig
  import BDS = BlogDetailSidebar

  /** The breadcrumb's `groupNames[groupKey] || groupKey`. */
  function GroupDisplayName(key: string): (r: string)
    ensures key == "nogizaka" ==> r == "乃木坂46"
    ensures key == "sakurazaka" ==> r == "樱坂46"
    ensures key == "hinatazaka" ==> r == "日向坂46"
    ensures !GC.IsGroupKey(key) ==> r == key
  {
    if key == "sakurazaka" then "樱坂46"
    else if key == "hinatazaka" then "日向坂46"
    else if key == "nogizaka" then "乃木坂46"
    else key
  }

  /**
   * The page's own map agrees with the shared group configuration on keys
   * and on everything the configuration does not know.
   */
  lemma DisplayMapAgrees(key: string)
    requires GC.IsGroupKey(key) || GC.Resolve(key).None?
    ensures GroupDisplayName(key) == GC.GetDisplayName(key)
  {
  }

  /** The sidebar's key derivation takes a display name of this map back to its key. */
  lemma DisplayNameKeyRoundTrip(key: string)
    requires GC.IsGroupKey(key)
    ensures BDS.GroupKey(GroupDisplayName(key)) == key
  {
  }

  /** `${year}/${MM}/${DD}`, month and day zero-padded to two places. */
  function DayPrefix(year: int, month: int, day: int): (r: string)
    ensures StartsWith(r, MP.MonthPrefix(year, month))
  {
    var p := MP.MonthPrefix(year, month);
    var r := p + "/" + PadStart2(IntToString(day));
    assert r[..|p|] == p;
    r
  }

  /** `checkHasBlog`: some blog's publish date starts with that day. */
  function CheckHasBlog(blogs: seq<Blog>, year: int, month: int, day: int): (r: bool)
    ensures r <==> exists j :: 0 <= j < |blogs| && DatedWith(blogs[j], DayPrefix(year, month, day))
  {
    FirstDatedWith(blogs, DayPrefix(year, month, day)).Some?
  }

  /** `loadBlogByDate`: the first blog whose publish date starts with `date`, if any. */
  function LoadBlogByDate(blogs: seq<Blog>, date: string): (r: Option<Blog>)
    ensures r.None? <==> forall j :: 0 <= j < |blogs| ==> !DatedWith(blogs[j], date)
    ensures r.Some? ==> DatedWith(r.value, date)
    ensures r.Some? ==> exists i :: (0 <= i < |blogs| && blogs[i] == r.value
      && forall j :: 0 <= j < i ==> !DatedWith(blogs[j], date))
  {
    match FirstDatedWith(blogs, date)
    case Some(i) => Some(blogs[i])
    case None => None
  }

  /** The detail page loads the blog whose hash the member page's date filter would open. */
  lemma LoadMatchesFilter(blogs: seq<Blog>, date: string)
    ensures LoadBlogByDate(blogs, date).None? <==> MP.FilterByDate(blogs, date).None?
    ensures LoadBlogByDate(blogs, date).Some? ==>
      MP.FilterByDate(blogs, date) == Some(BlogHash(LoadBlogByDate(blogs, date).value))
  {
  }

  /** The `data-date` of a calendar cell: `${year}-${MM}-${DD}`. */
  function CalendarDate(year: int, month: int, day: int): string {
    IntToString(year) + "-" + PadStart2(IntToString(month)) + "-" + PadStart2(IntToString(day))
  }

  /** A click on a marked calendar day, as written: the cell's `data-date` is looked up. */
  function CalendarClickAsWritten(blogs: seq<Blog>, year: int, month: int, day: int): (r: Option<Blog>)
    ensures r.Some? ==> DatedWith(r.value, CalendarDate(year, month, day))
  {
    LoadBlogByDate(blogs, CalendarDate(year, month, day))
  }

  /**
   * Publish dates are written `YYYY/MM/DD …`, which is what marks a day; the
   * dashed `data-date` then matches no blog, so a click on a marked day
   * loads nothing.
   */
  lemma MarkedDayClickFindsNothing(blogs: seq<Blog>, year: nat, month: int, day: int)
    requires forall j :: 0 <= j < |blogs| ==> '-' !in blogs[j].publishDate
    requires CheckHasBlog(blogs, year, month, day)
    ensures CalendarClickAsWritten(blogs, year, month, day).None?
  {
    var d := CalendarDate(year, month, day);
    var y := IntToString(year);
    assert d[|y|] == '-';
    forall j | 0 <= j < |blogs|
      ensures !DatedWith(blogs[j], d)
    {
      var p := blogs[j].publishDate;
      if |p| >= |d| {
        assert p[|y|] != '-';
        assert p[..|d|][|y|] != d[|y|];
      }
    }
  }

  /** The evidently intended click: the day is looked up the way it was marked. */
  function CalendarClick(blogs: seq<Blog>, year: int, month: int, day: int): (r: Option<Blog>)
    ensures r.Some? ==> StartsWith(r.value.publishDate, DayPrefix(year, month, day))
  {
    LoadBlogByDate(blogs, DayPrefix(year, month, day))
  }

  /** A day is marked exactly when clicking it loads a blog. */
  lemma MarkedDayClickLoads(blogs: seq<Blog>, year: int, month: int, day: int)
    ensures CheckHasBlog(blogs, year, month, day) <==> CalendarClick(blogs, year, month, day).Some?
  {
  }

  /** The blogs of one member, in order. */
  function ByMember(blogs: seq<Blog>, name: string): (r: seq<Blog>)
    ensures |r| <= |blogs|
    ensures forall k :: 0 <= k < |r| ==> r[k].member == name && r[k] in blogs
    ensures forall j :: 0 <= j < |blogs| && blogs[j].member == name ==> blogs[j] in r
  {
    if |blogs| == 0 then []
    else
      var rest := ByMember(blogs[1..], name);
      assert forall j :: 1 <= j < |blogs| ==> blogs[j] == blogs[1..][j - 1];
      if blogs[0].member == name then [blogs[0]] + rest else rest
  }

  /** Selecting from two lists in turn selects from their concatenation: the order is kept. */
  lemma {:induction false} ByMemberAppend(a: seq<Blog>, b: seq<Blog>, name: string)
    ensures ByMember(a + b, name) == ByMember(a, name) + ByMember(b, name)
  {
    if |a| == 0 {
      assert a + b == b;
    } else {
      assert (a + b)[1..] == a[1..] + b;
      ByMemberAppend(a[1..], b, name);
    }
  }

  const RecentLimit: nat := 10

  /** The recent-entries list: a placeholder, or the entries to show. */
  datatype Recent = Placeholder | Entries(blogs: seq<Blog>)

  /** `renderRecentEntries`: the member's first ten blogs, or the placeholder when there are none. */
  function RecentEntries(blogs: seq<Blog>, name: string): (r: Recent)
    ensures r.Placeholder? <==> forall j :: 0 <= j < |blogs| ==> blogs[j].member != name
    ensures r.Entries? ==> 0 < |r.blogs| <= RecentLimit
    ensures r.Entries? ==>
      |r.blogs| == if |ByMember(blogs, name)| < RecentLimit then |ByMember(blogs, name)| else RecentLimit
    ensures r.Entries? ==> forall k :: 0 <= k < |r.blogs| ==> r.blogs[k].member == name
    ensures r.Entries? ==> |r.blogs| <= |ByMember(blogs, name)| && r.blogs == ByMember(blogs, name)[..|r.blogs|]
    ensures r.Entries? && |ByMember(blogs, name)| <= RecentLimit ==>
      forall j :: 0 <= j < |blogs| && blogs[j].member == name ==> blogs[j] in r.blogs
  {
    var mine := ByMember(blogs, name);
    assert |mine| > 0 ==> mine[0] in blogs;
    if |mine| == 0 then Placeholder
    else if |mine| <= RecentLimit then Entries(mine)
    else Entries(mine[..RecentLimit])
  }

  /** `getCurrentGroupKey`: the first group word found in the hash, else `nogizaka`. */
  function CurrentGroupKey(hash: string): (r: string)
    ensures GC.IsGroupKey(r)
    ensures Contains(hash, "nogizaka") ==> r == "nogizaka"
    ensures !Contains(hash, "nogizaka") && Contains(hash, "sakurazaka") ==> r == "sakurazaka"
    ensures !Contains(hash, "nogizaka") && !Contains(hash, "sakurazaka") && Contains(hash, "hinatazaka") ==>
      r == "hinatazaka"
    ensures !Contains(hash, "sakurazaka") && !Contains(hash, "hinatazaka") ==> r == "nogizaka"
  {
    if Contains(hash, "nogizaka") then "nogizaka"
    else if Contains(hash, "sakurazaka") then "sakurazaka"
    else if Contains(hash, "hinatazaka") then "hinatazaka"
    else "nogizaka"
  }

  /** A group page's hash `#<key>` gives that key back. */
  lemma CurrentKeyOfGroupHash(key: string)
    requires GC.IsGroupKey(key)
    ensures CurrentGroupKey("#" + key) == key
  {
    if key == "nogizaka" {
      NogizakaHashKey(key);
    } else if key == "sakurazaka" {
      SakurazakaHashKey(key);
    } else {
      HinatazakaHashKey(key);
    }
  }

  lemma NogizakaHashKey(key: string)
    requires key == "nogizaka"
    ensures CurrentGroupKey("#" + key) == key
  {
    KeyInOwnHash(key);
  }

  lemma SakurazakaHashKey(key: string)
    requires key == "sakurazaka"
    ensures CurrentGroupKey("#" + key) == key
  {
    KeyInOwnHash(key);
    SakurazakaHashMentions(key);
  }

  lemma HinatazakaHashKey(key: string)
    requires key == "hinatazaka"
    ensures CurrentGroupKey("#" + key) == key
  {
    KeyInOwnHash(key);
    HinatazakaHashOmitsNogizaka(key);
    HinatazakaHashOmitsSakurazaka(key);
  }

  lemma KeyInOwnHash(key: string)
    ensures Contains("#" + key, key)
  {
    assert ("#" + key)[1..] == key;
    ContainsAt("#" + key, key, 1);
  }

  lemma SakurazakaHashMentions(key: string)
    requires key == "sakurazaka"
    ensures !Contains("#" + key, "nogizaka")
  {
    assert 'n' !in "#" + key;
    AbsentCharOfPattern("#" + key, "nogizaka", 0);
  }

  lemma HinatazakaHashOmitsNogizaka(key: string)
    requires key == "hinatazaka"
    ensures !Contains("#" + key, "nogizaka")
  {
    assert 'o' !in "#" + key;
    AbsentCharOfPattern("#" + key, "nogizaka", 1);
  }

  lemma HinatazakaHashOmitsSakurazaka(key: string)
    requires key == "hinatazaka"
    ensures !Contains("#" + key, "sakurazaka")
  {
    assert 'u' !in "#" + key;
    AbsentCharOfPattern("#" + key, "sakurazaka", 3);
  }

  /** Where the back button goes: the member page of a group, or a new hash. */
  datatype Back = ShowMember(member: string, group: string) | SetHash(hash: string)

  /**
   * `goBack`: from a member hash, the member page of the hash's group and
   * decoded member (through the member page when it is loaded, else by
   * setting the member hash); from anything else, `#all`.
   */
  function GoBack(hash: string, memberPageLoaded: bool, encode: string -> string, decode: string -> string): (r: Back)
    ensures !Contains(hash, "/member/") ==> r == SetHash("#all")
    ensures Contains(hash, "/member/") ==>
      var parts := Split(hash, '/');
      |parts| >= 3
      && (memberPageLoaded ==> r == ShowMember(decode(parts[2]), R.Drop1(parts[0])))
      && (!memberPageLoaded ==> r == SetHash(R.MemberHash(R.Drop1(parts[0]), encode(decode(parts[2])))))
  {
    if Contains(hash, "/member/") then
      R.MemberPathSplits(hash);
      var parts := Split(hash, '/');
      var group := R.Drop1(parts[0]);
      var member := decode(parts[2]);
      if memberPageLoaded then ShowMember(member, group) else SetHash(R.MemberHash(group, encode(member)))
    else SetHash("#all")
  }

  /** Outside blog hashes, going back shows the member page the router would route the hash to. */
  lemma GoBackFollowsRoute(hash: string, encode: string -> string, decode: string -> string)
    requires Contains(hash, "/member/") && !StartsWith(hash, "#blog/") && hash != "#"
    ensures R.ParseHash(hash, decode).ToMember?
    ensures var route := R.ParseHash(hash, decode);
      GoBack(hash, true, encode, decode) == ShowMember(route.member, route.group)
  {
  }

  /**
   * From the sidebar's member link, going back reaches that member of that
   * group, and the fallback hash is the link itself.
   */
  lemma GoBackFromMemberLink(g: string, m: string, encode: string -> string, decode: string -> string)
    requires '/' !in g && g != "blog"
    requires '/' !in encode(m) && decode(encode(m)) == m
    ensures GoBack(R.MemberHash(g, encode(m)), true, encode, decode) == ShowMember(m, g)
    ensures GoBack(R.MemberHash(g, encode(m)), false, encode, decode) == SetHash(R.MemberHash(g, encode(m)))
  {
    var h := R.MemberHash(g, encode(m));
    R.MemberRouteRoundTrip(g, m, encode, decode);
    R.NotBlogHash(g, "/member/" + encode(m));
    assert h == "#" + g + ("/member/" + encode(m));
    GoBackFollowsRoute(h, encode, decode);
  }
}

=== FILE: member_images.dfy ===
/**
 * Member avatars: the name normalisation, the lookup of a member's photo in
 * the loaded `member-images.json` table (exact name first, then ignoring
 * whitespace), and the generated fallback avatar.
 */
module MemberImages {
  import opened Wrappers
  import opened Text

  /** One entry of the images table, in the table's key order. */
  datatype Entry = Entry(key: string, imageUrl: string)

  /** Object keys are distinct. */
  predicate DistinctKeys(es: seq<Entry>) {
    forall i, j :: 0 <= i < j < |es| ==> es[i].key != es[j].key
  }

  /** The index of the first entry satisfying `f`. */
  function Find(es: seq<Entry>, f: Entry -> bool): (r: Option<nat>)
    ensures r.Some? ==> r.value < |es| && f(es[r.value])
    ensures r.Some? ==> forall j :: 0 <= j < r.value ==> !f(es[j])
    ensures r.None? <==> forall j :: 0 <= j < |es| ==> !f(es[j])
    decreases |es|
  {
    if |es| == 0 then None
    else if f(es[0]) then Some(0)
    else
      var r := Find(es[1..], f);
      assert forall j :: 1 <= j < |es| ==> es[j] == es[1..][j - 1];
      match r
      case Some(i) => Some(i + 1)
      case None => None
  }

  /** `normalizeName`: all whitespace removed; '' for an empty name. */
  function NormalizeName(name: string): (r: string)
    ensures forall i :: 0 <= i < |r| ==> !IsSpace(r[i])
    ensures (forall i :: 0 <= i < |name| ==> !IsSpace(name[i])) ==> r == name
  {
    if name == "" then ""
    else
      var w := RemoveSpaces(name);
      TrimOfTrimmed(w);
      Trim(w)
  }

  /** Normalising twice is normalising once; it is the same as removing all whitespace. */
  lemma NormalizeIdempotent(name: string)
    ensures NormalizeName(NormalizeName(name)) == NormalizeName(name)
    ensures NormalizeName(name) == RemoveSpaces(name)
  {
    if name != "" {
      RemoveSpacesTrim(RemoveSpaces(name));
    }
  }

  function HasKey(name: string): Entry -> bool {
    (e: Entry) => e.key == name
  }

  function HasNormalKey(n: string): Entry -> bool {
    (e: Entry) => NormalizeName(e.key) == n
  }

  /**
   * `getImageUrl(memberName)`: nothing before the table is loaded or for an
   * empty name; the entry with exactly that name; else the first entry whose
   * normalised key equals the normalised name; else nothing.
   */
  function GetImageUrl(images: Option<seq<Entry>>, memberName: string): (r: Option<string>)
    ensures images.None? || memberName == "" ==> r.None?
    ensures images.Some? && memberName != "" && Find(images.value, HasKey(memberName)).Some? ==>
      r == Some(images.value[Find(images.value, HasKey(memberName)).value].imageUrl)
    ensures images.Some? && memberName != "" && Find(images.value, HasKey(memberName)).None? ==>
      var n := Find(images.value, HasNormalKey(NormalizeName(memberName)));
      (n.None? ==> r.None?) && (n.Some? ==> r == Some(images.value[n.value].imageUrl))
  {
    if images.None? || memberName == "" then None
    else
      var es := images.value;
      match Find(es, HasKey(memberName))
      case Some(i) => Some(es[i].imageUrl)
      case None =>
        match Find(es, HasNormalKey(NormalizeName(memberName)))
        case Some(i) => Some(es[i].imageUrl)
        case None => None
  }

  /** An exact key wins, even over an earlier key that normalises to the same name. */
  lemma ExactMatchPreferred(es: seq<Entry>, name: string, i: nat)
    requires DistinctKeys(es) && i < |es| && es[i].key == name && name != ""
    ensures GetImageUrl(Some(es), name) == Some(es[i].imageUrl)
  {
    var f := Find(es, HasKey(name));
    assert HasKey(name)(es[i]);
    assert f.value == i;
  }

  /**
   * Without an exact key, names that differ only in whitespace find the same
   * photo.
   */
  lemma SpacingInsensitive(es: seq<Entry>, a: string, b: string)
    requires a != "" && b != ""
    requires Find(es, HasKey(a)).None? && Find(es, HasKey(b)).None?
    requires RemoveSpaces(a) == RemoveSpaces(b)
    ensures GetImageUrl(Some(es), a) == GetImageUrl(Some(es), b)
  {
    NormalizeIdempotent(a);
    NormalizeIdempotent(b);
  }

  /** A member with no photo: the colour pair and the initial to draw. */
  datatype Avatar = Avatar(colors: seq<string>, initial: string)

  const Gray: seq<string> := ["#9E9E9E", "#BDBDBD"]

  /** The colour pair of a group's Chinese display name, if it has one. */
  function GroupColors(group: string): Option<seq<string>> {
    if group == "乃木坂46" then Some(["#7C4DFF", "#B388FF"])
    else if group == "樱坂46" then Some(["#FF6B6B", "#FFB6C1"])
    else if group == "日向坂46" then Some(["#4FC3F7", "#81D4FA"])
    else None
  }

  /** `getDefaultAvatar`: the group's colour pair or gray, and the name's first character. */
  function GetDefaultAvatar(name: string, group: string): (r: Avatar)
    ensures |r.colors| == 2
    ensures r.colors == Gray <==> GroupColors(group).None?
    ensures GroupColors(group).Some? ==> r.colors == GroupColors(group).value
    ensures |r.initial| == (if name == "" then 0 else 1) && StartsWith(name, r.initial)
  {
    var colors := match GroupColors(group) case Some(c) => c case None => Gray;
    Avatar(colors, if name == "" then "" else name[..1])
  }
}

=== FILE: member_page.dfy ===
/**
 * The member page: the paged request for a member's blogs, the numbered
 * page buttons, the plain list-item excerpt, and the calendar's month
 * navigation, day list, month menu and date filter.
 */
module MemberPage {
  import opened Wrappers
  import opened Text
  import opened Patterns
  import opened Blogs
  import opened Sorting
  import opened Pagination
  import GC = GroupConfig

  const PageSize: nat := 32
  const DefaultApi: string := "https://sakamichi-blog-translator.srzwyuu.workers.dev"

  // ---------------------------------------------------------------------------
  // the request

  /** Every blog position lies in exactly one page: `n / 32 + 1`. */
  lemma PageOfPosition(n: nat, page: int)
    ensures Offset(page) <= n < Offset(page) + PageSize <==> page == n / PageSize + 1
  {
    var p := n / PageSize + 1;
    assert Offset(p) <= n < Offset(p) + PageSize;
    if page < p {
      assert Offset(page) + PageSize <= Offset(p);
    } else if page > p {
      assert Offset(p + 1) <= Offset(page);
    }
  }

  /**
   * The URL `loadMemberBlogs` fetches. `encode` is `encodeURIComponent`;
   * with the group configuration loaded the group parameter is its API
   * name, else the key itself; "all" adds no group filter.
   */
  function MemberBlogsUrl(apiBase: string, member: string, groupKey: string, page: int,
                          encode: string -> string, groupConfigLoaded: bool): (r: string)
    ensures var base := MemberBlogsBase(apiBase, member, page, encode);
      StartsWith(r, base)
      && (groupKey == "all" ==> r == base)
      && (groupKey != "all" ==> r[|base|..] == "&group=" + encode(if groupConfigLoaded then GC.GetApiName(groupKey) else groupKey))
  {
    var base := MemberBlogsBase(apiBase, member, page, encode);
    var suffix := if groupKey != "all" then "&group=" + encode(if groupConfigLoaded then GC.GetApiName(groupKey) else groupKey) else "";
    assert (base + suffix)[..|base|] == base;
    assert (base + suffix)[|base|..] == suffix;
    base + suffix
  }

  /** The member, page size and offset part of the URL, on the configured or default API. */
  function MemberBlogsBase(apiBase: string, member: string, page: int, encode: string -> string): (r: string)
    ensures StartsWith(r, if apiBase != "" then apiBase else DefaultApi)
  {
    var api := if apiBase != "" then apiBase else DefaultApi;
    var r := api + "/api/blogs?member=" + encode(member) + "&limit=32&offset=" + IntToString(Offset(page));
    assert r[..|api|] == api;
    r
  }

  /** A group key is sent as its API name: `sakurazaka` asks for 樱坂46. */
  lemma GroupKeySentAsApiName(apiBase: string, member: string, page: int, encode: string -> string)
    ensures var r := MemberBlogsUrl(apiBase, member, "sakurazaka", page, encode, true);
      EndsWithText(r, "&group=" + encode("樱坂46"))
  {
    assert GC.GetApiName("sakurazaka") == "樱坂46";
  }

  predicate EndsWithText(s: string, suffix: string) {
    |suffix| <= |s| && s[|s| - |suffix|..] == suffix
  }

  // ---------------------------------------------------------------------------
  // page buttons

  datatype PagerView =
    | Hidden
    | Shown(info: string, prevDisabled: bool, nextDisabled: bool, buttons: seq<Item>)

  /** `updatePagination`: hidden for at most one page, else info, arrows and a window of buttons. */
  function UpdatePagination(current: int, totalPages: int): (r: PagerView)
    ensures totalPages <= 1 <==> r.Hidden?
    ensures r.Shown? ==> (r.prevDisabled <==> current == 1) && (r.nextDisabled <==> current == totalPages)
    ensures r.Shown? ==>
      var lo := Max(1, current - 2);
      |r.buttons| == Max(0, Min(totalPages, current + 2) - lo + 1)
      && forall k :: 0 <= k < |r.buttons| ==> r.buttons[k].Num? && r.buttons[k].page == lo + k && (r.buttons[k].current <==> lo + k == current)
  {
    if totalPages <= 1 then Hidden
    else
      Shown("第 " + IntToString(current) + " 页 / 共 " + IntToString(totalPages) + " 页",
            current == 1, current == totalPages,
            Buttons(Max(1, current - 2), Min(totalPages, current + 2), current))
  }

  /**
   * For a current page within range, the buttons are pages within range,
   * at most five, and exactly one of them, page `current`, is marked.
   */
  lemma OneCurrentButton(current: int, totalPages: int)
    requires 1 <= current <= totalPages && totalPages > 1
    ensures var b := UpdatePagination(current, totalPages).buttons;
      var k := current - Max(1, current - 2);
      2 <= |b| <= 5
      && 0 <= k < |b| && b[k].current
      && (forall j :: 0 <= j < |b| && j != k ==> !b[j].current)
      && (forall j :: 0 <= j < |b| ==> 1 <= b[j].page <= totalPages)
  {
  }

  /** The pager after a load: shown with `ceil(count / 32)` pages only when there are more than 32. */
  function MemberPager(count: int, page: int): (r: PagerView)
    ensures count <= PageSize ==> r.Hidden?
    ensures count > PageSize ==> r == UpdatePagination(page, CeilDiv(count, PageSize))
  {
    if count > PageSize then UpdatePagination(page, CeilDiv(count, PageSize)) else Hidden
  }

  /** More than one page of blogs always shows the pager, with enough pages to hold them all. */
  lemma ManyBlogsShowPager(count: int, page: int)
    requires count > PageSize
    ensures MemberPager(count, page).Shown?
    ensures (CeilDiv(count, PageSize) - 1) * PageSize < count <= CeilDiv(count, PageSize) * PageSize
  {
  }

  // ---------------------------------------------------------------------------
  // the list-item excerpt

  const ExcerptMarks: set<char> := {'#', '*', '_', '`'}
  const ExcerptLimit: nat := 150

  /** The translation with images, tokens and markdown symbols removed, newlines as spaces, trimmed. */
  function ExcerptText(content: string): (r: string)
    ensures forall i :: 0 <= i < |r| ==> r[i] !in ExcerptMarks
    ensures '\n' !in r && IsTrimmed(r)
  {
    var plain := ExcerptPlain(content);
    ExcerptJoin(plain);
    Trim(CollapseNewlines(plain))
  }

  lemma ExcerptJoin(plain: string)
    requires forall i :: 0 <= i < |plain| ==> plain[i] !in ExcerptMarks
    ensures var r := Trim(CollapseNewlines(plain));
      (forall i :: 0 <= i < |r| ==> r[i] !in ExcerptMarks) && '\n' !in r
  {
    TrimKeepsAbsence(CollapseNewlines(plain), '\n');
    JoinTrimKeepsAbsent(plain, ExcerptMarks);
  }

  /** The translation with images, tokens and markdown symbols removed. */
  function ExcerptPlain(content: string): (r: string)
    ensures forall i :: 0 <= i < |r| ==> r[i] !in ExcerptMarks
  {
    var noImages := ReplaceAll(MdImage, content, Nothing);
    var spaced := ReplaceAll(NewlineMarker, noImages, Space);
    var noTokens := ReplaceAll(ImageMarker, spaced, Nothing);
    RemoveChars(noTokens, ExcerptMarks)
  }

  /** The first `n` characters, `substring(0, n)`. */
  function Prefix(s: string, n: nat): (r: string)
    ensures |r| == Min(n, |s|) && r == s[..|r|]
  {
    if |s| <= n then s else s[..n]
  }

  /**
   * `createBlogListItem`'s excerpt as written: the first 150 characters, and
   * "..." whenever those are exactly 150 characters long.
   */
  function ExcerptAsWritten(b: Blog): (r: string)
    ensures b.translatedContent == "" ==> r == ""
  {
    if b.translatedContent == "" then ""
    else
      var cut := Prefix(ExcerptText(b.translatedContent), ExcerptLimit);
      if |cut| == ExcerptLimit then cut + "..." else cut
  }

  /** The excerpt with "..." exactly when something was cut off. */
  function Excerpt(b: Blog): (r: string)
    ensures b.translatedContent == "" ==> r == ""
    ensures b.translatedContent != "" ==>
      var t := ExcerptText(b.translatedContent);
      (|t| <= ExcerptLimit ==> r == t)
      && (|t| > ExcerptLimit ==> |r| == ExcerptLimit + 3 && r[..ExcerptLimit] == t[..ExcerptLimit] && r[ExcerptLimit..] == "...")
  {
    if b.translatedContent == "" then ""
    else
      var t := ExcerptText(b.translatedContent);
      if |t| > ExcerptLimit then t[..ExcerptLimit] + "..." else t
  }

  /** The two agree on every text except one of exactly 150 characters. */
  lemma ExcerptsAgreeOffBoundary(b: Blog)
    requires |ExcerptText(b.translatedContent)| != ExcerptLimit
    ensures ExcerptAsWritten(b) == Excerpt(b)
  {
  }

  /** Plain one-line text without brackets or markdown symbols is its own excerpt text. */
  lemma PlainExcerptText(c: string)
    requires forall i :: 0 <= i < |c| ==> c[i] != '[' && c[i] != '\n' && c[i] !in ExcerptMarks
    requires IsTrimmed(c)
    ensures ExcerptText(c) == c
  {
    assert '[' !in c;
    AbsentCharNotContained(c, '[');
    NoBracketNoBang(c);
    NoBangBracket(c);
    UnanchoredUnchanged(MdImage, c, Nothing);
    AbsentLiteralUnanchored(NewlineMarker, c, "[");
    UnanchoredUnchanged(NewlineMarker, c, Space);
    AbsentLiteralUnanchored(ImageMarker, c, "[");
    UnanchoredUnchanged(ImageMarker, c, Nothing);
    assert '\n' !in c;
    TrimOfTrimmed(c);
  }

  /**
   * The as-written excerpt of a 150-character plain text gains "..." though
   * nothing was cut; the corrected one returns the text unchanged.
   */
  lemma ExcerptEllipsisWithoutCut(b: Blog)
    requires forall i :: 0 <= i < |b.translatedContent| ==>
      b.translatedContent[i] != '[' && b.translatedContent[i] != '\n' && b.translatedContent[i] !in ExcerptMarks
    requires IsTrimmed(b.translatedContent) && |b.translatedContent| == ExcerptLimit
    ensures ExcerptAsWritten(b) == b.translatedContent + "..."
    ensures Excerpt(b) == b.translatedContent
  {
    PlainExcerptText(b.translatedContent);
  }

  // ---------------------------------------------------------------------------
  // the calendar

  datatype YearMonth = YearMonth(year: int, month: int)

  /** `changeMonth`: step the month, wrapping into the next or previous year. */
  function ChangeMonth(ym: YearMonth, delta: int): (r: YearMonth)
    ensures 1 <= r.month <= 12
    ensures ym.month + delta > 12 ==> r == YearMonth(ym.year + 1, 1)
    ensures ym.month + delta < 1 ==> r == YearMonth(ym.year - 1, 12)
    ensures 1 <= ym.month + delta <= 12 ==> r == YearMonth(ym.year, ym.month + delta)
  {
    var m := ym.month + delta;
    if m > 12 then YearMonth(ym.year + 1, 1)
    else if m < 1 then YearMonth(ym.year - 1, 12)
    else YearMonth(ym.year, m)
  }

  /** A month index that counts months since year 0. */
  function MonthIndex(ym: YearMonth): int { ym.year * 12 + ym.month }

  /** The arrows move exactly one calendar month, carrying the year. */
  lemma MonthStep(ym: YearMonth, delta: int)
    requires 1 <= ym.month <= 12 && (delta == 1 || delta == -1)
    ensures MonthIndex(ChangeMonth(ym, delta)) == MonthIndex(ym) + delta
  {
  }

  /** Forward then back returns to the same month. */
  lemma MonthStepInverse(ym: YearMonth)
    requires 1 <= ym.month <= 12
    ensures ChangeMonth(ChangeMonth(ym, 1), -1) == ym
    ensures ChangeMonth(ChangeMonth(ym, -1), 1) == ym
  {
  }

  /** `${year}/${month.toString().padStart(2, '0')}`. */
  function MonthPrefix(year: int, month: int): (r: string)
    ensures ' ' !in r
  {
    var y := IntToString(year);
    var m := IntToString(month);
    IntToStringNoSpace(year);
    IntToStringNoSpace(month);
    var r := y + "/" + PadStart2(m);
    assert ' ' !in PadStart2(m) by {
      if |m| < 2 {
        assert Repeat("0", 2 - |m|) == "0";
      }
    }
    r
  }

  lemma IntToStringNoSpace(i: int)
    ensures ' ' !in IntToString(i)
  {
    var d := NatToString(if i < 0 then -i else i);
    assert forall k :: 0 <= k < |d| ==> d[k] != ' ';
  }

  /** The date part of a publish date: the text before the first space. */
  function DatePart(publishDate: string): string {
    Split(publishDate, ' ')[0]
  }

  lemma DatePartKeepsPrefix(d: string, p: string)
    requires StartsWith(d, p) && ' ' !in p
    ensures StartsWith(DatePart(d), p)
  {
    SplitHead(d, ' ');
    var h := DatePart(d);
    assert forall k :: 0 <= k < |p| ==> d[k] == p[k] && d[k] != ' ';
    assert h[..|p|] == d[..|p|];
  }

  /** The date parts of the blogs published in the month `prefix`, in blog order. */
  function DatesIn(blogs: seq<Blog>, prefix: string): (r: seq<string>)
    ensures forall d :: d in r <==> exists i :: 0 <= i < |blogs| && DatedWith(blogs[i], prefix) && DatePart(blogs[i].publishDate) == d
    decreases |blogs|
  {
    if |blogs| == 0 then []
    else
      var rest := DatesIn(blogs[1..], prefix);
      assert forall i :: 1 <= i < |blogs| ==> blogs[i] == blogs[1..][i - 1];
      assert forall d ::
        (exists i :: 1 <= i < |blogs| && DatedWith(blogs[i], prefix) && DatePart(blogs[i].publishDate) == d) ==> d in rest
      by {
        forall d | exists i :: 1 <= i < |blogs| && DatedWith(blogs[i], prefix) && DatePart(blogs[i].publishDate) == d
          ensures d in rest
        {
          var i :| 1 <= i < |blogs| && DatedWith(blogs[i], prefix) && DatePart(blogs[i].publishDate) == d;
          assert DatedWith(blogs[1..][i - 1], prefix);
        }
      }
      if DatedWith(blogs[0], prefix) then [DatePart(blogs[0].publishDate)] + rest else rest
  }

  /**
   * `getBlogDatesForMonth`: the distinct date parts of the month's blogs,
   * ascending; each begins with the month prefix.
   */
  function GetBlogDatesForMonth(blogs: seq<Blog>, year: int, month: int): (r: seq<string>)
    ensures Increasing(r)
    ensures forall d :: d in r <==>
      (exists i :: 0 <= i < |blogs| && DatedWith(blogs[i], MonthPrefix(year, month)) && DatePart(blogs[i].publishDate) == d)
    ensures forall k :: 0 <= k < |r| ==> StartsWith(r[k], MonthPrefix(year, month)) && ' ' !in r[k]
  {
    var p := MonthPrefix(year, month);
    var r := SortDistinct(DatesIn(blogs, p));
    forall k | 0 <= k < |r| ensures StartsWith(r[k], p) && ' ' !in r[k] {
      assert r[k] in r;
      var i :| 0 <= i < |blogs| && DatedWith(blogs[i], p) && DatePart(blogs[i].publishDate) == r[k];
      DatePartKeepsPrefix(blogs[i].publishDate, p);
      assert ' ' !in Split(blogs[i].publishDate, ' ')[0];
    }
    r
  }

  /** The `YYYY.MM` menu entry of a date that starts with four digits, `/` and two digits. */
  function MonthKey(d: string): (r: Option<string>)
    ensures r.Some? ==> |r.value| == 7 && r.value[4] == '.' && AllDigits(r.value[..4]) && AllDigits(r.value[5..])
  {
    if |d| >= 7 && AllDigits(d[..4]) && d[4] == '/' && AllDigits(d[5..7]) then
      var r := d[..4] + "." + d[5..7];
      assert r[..4] == d[..4] && r[5..] == d[5..7];
      Some(r)
    else None
  }

  /** The menu entries of the blogs with a (non-empty) date, in blog order. */
  function MonthKeys(blogs: seq<Blog>): (r: seq<string>)
    ensures forall m :: m in r <==> exists i :: 0 <= i < |blogs| && MonthKey(blogs[i].publishDate) == Some(m)
    decreases |blogs|
  {
    if |blogs| == 0 then []
    else
      var rest := MonthKeys(blogs[1..]);
      assert forall i :: 1 <= i < |blogs| ==> blogs[i] == blogs[1..][i - 1];
      assert forall m :: (exists i :: 1 <= i < |blogs| && MonthKey(blogs[i].publishDate) == Some(m)) ==> m in rest by {
        forall m | exists i :: 1 <= i < |blogs| && MonthKey(blogs[i].publishDate) == Some(m) ensures m in rest {
          var i :| 1 <= i < |blogs| && MonthKey(blogs[i].publishDate) == Some(m);
          assert MonthKey(blogs[1..][i - 1].publishDate) == Some(m);
        }
      }
      match MonthKey(blogs[0].publishDate)
      case Some(m) => [m] + rest
      case None => rest
  }

  /** `populateMonthDropdown`'s list: the distinct `YYYY.MM` values, newest first. */
  function MonthMenu(blogs: seq<Blog>): (r: seq<string>)
    ensures Decreasing(r)
    ensures forall m :: m in r <==> exists i :: 0 <= i < |blogs| && MonthKey(blogs[i].publishDate) == Some(m)
  {
    var s := SortDistinct(MonthKeys(blogs));
    ReverseDecreasing(s);
    Reverse(s)
  }

  /** `filterByDate`: the hash of the first blog of that date; `None` leaves the page as it is. */
  function FilterByDate(blogs: seq<Blog>, date: string): (r: Option<string>)
    ensures r.Some? <==> exists j :: 0 <= j < |blogs| && DatedWith(blogs[j], date)
    ensures r.Some? ==> r == Some(BlogHash(blogs[FirstDatedWith(blogs, date).value]))
  {
    match FirstDatedWith(blogs, date)
    case Some(i) => Some(BlogHash(blogs[i]))
    case None => None
  }
}

=== FILE: pagination.dfy ===
/**
 * The shared pagination component of the group page: its state, the
 * update after a page of blogs arrives, the rendered page info and
 * window of page buttons, and the page moves.
 */
module Pagination {
  import opened Wrappers
  import opened Text

  const BlogsPerPage: nat := 32

  datatype State = State(
    currentPage: int,
    totalPages: int,
    totalBlogs: int,
    hasMore: bool,
    visible: bool)

  /** `reset`: page 1 of 1, no blogs, nothing more, hidden. */
  function Reset(): (r: State)
    ensures r.currentPage == 1 && r.totalPages == 1 && r.totalBlogs == 0
    ensures !r.hasMore && !r.visible
  {
    State(1, 1, 0, false, false)
  }

  /**
   * `update(blogsCount, totalCount)`. `globalPage` is the page the list was
   * loaded for (0 when unset); a total of 0 stands for a missing one, as
   * both are falsy.
   */
  function Update(s: State, blogsCount: int, totalCount: int, globalPage: int): (r: State)
    ensures r.currentPage == (if globalPage != 0 then globalPage else 1)
    ensures totalCount != 0 ==>
      r.totalBlogs == totalCount
      && (r.totalPages - 1) * BlogsPerPage < totalCount <= r.totalPages * BlogsPerPage
      && (r.hasMore <==> r.currentPage < r.totalPages)
    ensures totalCount == 0 ==>
      r.totalBlogs == s.totalBlogs
      && (r.hasMore <==> blogsCount >= BlogsPerPage)
      && r.totalPages == (if r.hasMore then r.currentPage + 1 else r.currentPage)
    ensures r.visible <==> r.totalPages > 1 || r.hasMore
  {
    var c := if globalPage != 0 then globalPage else 1;
    if totalCount != 0 then
      var t := CeilDiv(totalCount, BlogsPerPage);
      var more := c < t;
      State(c, t, totalCount, more, !(t <= 1 && !more))
    else
      var more := blogsCount >= BlogsPerPage;
      var t := if more then c + 1 else c;
      State(c, t, s.totalBlogs, more, !(t <= 1 && !more))
  }

  /** With a known total, the component shows exactly when the blogs fill more than one page. */
  lemma ShownIffSeveralPages(s: State, blogsCount: int, totalCount: int, globalPage: int)
    requires globalPage >= 0 && totalCount != 0
    ensures Update(s, blogsCount, totalCount, globalPage).visible <==> totalCount > BlogsPerPage
  {
    var r := Update(s, blogsCount, totalCount, globalPage);
    if totalCount > BlogsPerPage {
      assert r.totalPages * BlogsPerPage > BlogsPerPage;
    }
  }

  /** Without a total, the component shows exactly when past page 1 or the page came back full. */
  lemma ShownWithoutTotal(s: State, blogsCount: int, globalPage: int)
    requires globalPage >= 0
    ensures Update(s, blogsCount, 0, globalPage).visible <==> globalPage > 1 || blogsCount >= BlogsPerPage
  {
  }

  datatype Info =
    | Range(start: int, end: int, total: int)
    | PageOnly(page: int)

  /** The page-info line. */
  function InfoText(i: Info): string {
    match i
    case Range(a, b, t) => "显示 " + IntToString(a) + "-" + IntToString(b) + " / 共 " + IntToString(t) + " 篇"
    case PageOnly(p) => "第 " + IntToString(p) + " 页"
  }

  /** A numbered page button, `current` when it is the page shown, or an ellipsis. */
  datatype Item = Num(page: int, current: bool) | Gap

  datatype View = View(info: Info, prevDisabled: bool, nextDisabled: bool, items: seq<Item>)

  function Max(a: int, b: int): int { if a >= b then a else b }
  function Min(a: int, b: int): int { if a <= b then a else b }

  /** The consecutive page numbers `lo..hi`, the one equal to `current` marked. */
  function Buttons(lo: int, hi: int, current: int): (r: seq<Item>)
    ensures |r| == Max(0, hi - lo + 1)
    ensures forall k :: 0 <= k < |r| ==> r[k].Num? && r[k].page == lo + k && (r[k].current <==> lo + k == current)
    decreases Max(0, hi - lo + 1)
  {
    if lo > hi then [] else [Num(lo, lo == current)] + Buttons(lo + 1, hi, current)
  }

  /**
   * The buttons of `render`: pages `c-2..c+2` clipped to `1..T`, with page 1
   * and page `T` added at the ends and an ellipsis where pages are skipped.
   */
  function Window(c: int, t: int): (r: seq<Item>)
  {
    WindowHead(Max(1, c - 2)) + Buttons(Max(1, c - 2), Min(t, c + 2), c) + WindowTail(Min(t, c + 2), t)
  }

  /** Page 1 and, when pages are skipped, an ellipsis, in front of a window starting at `lo`. */
  function WindowHead(lo: int): seq<Item> {
    if lo > 1 then [Num(1, false)] + (if lo > 2 then [Gap] else []) else []
  }

  /** An ellipsis when pages are skipped, then page `t`, behind a window ending at `hi`. */
  function WindowTail(hi: int, t: int): seq<Item> {
    if hi < t then (if hi < t - 1 then [Gap] else []) + [Num(t, false)] else []
  }

  /** `render`: the page info, the arrow states and the button window. */
  function Render(s: State): (r: View)
    ensures s.totalBlogs > 0 ==>
      (r.info.Range? && r.info.total == s.totalBlogs
       && r.info.start == Offset(s.currentPage) + 1
       && r.info.end == Min(s.currentPage * BlogsPerPage, s.totalBlogs))
    ensures s.totalBlogs <= 0 ==> r.info == PageOnly(s.currentPage)
    ensures r.prevDisabled <==> s.currentPage == 1
    ensures r.nextDisabled <==> !s.hasMore && s.currentPage >= s.totalPages
    ensures r.items == Window(s.currentPage, s.totalPages)
  {
    var info := if s.totalBlogs > 0 then
        Range(Offset(s.currentPage) + 1, Min(s.currentPage * BlogsPerPage, s.totalBlogs), s.totalBlogs)
      else PageOnly(s.currentPage);
    View(info, s.currentPage == 1, !s.hasMore && s.currentPage >= s.totalPages, Window(s.currentPage, s.totalPages))
  }

  /** The position of the first blog of a 1-based page, less one. */
  function Offset(page: int): (r: int)
    ensures r % BlogsPerPage == 0
    ensures page >= 1 <==> r >= 0
  {
    (page - 1) * BlogsPerPage
  }

  /**
   * On a page within the total, the info shows a non-empty range of at most
   * one page of blogs, inside `1..total`.
   */
  lemma InfoRangeWithinTotal(s: State, blogsCount: int, totalCount: int, globalPage: int)
    requires totalCount > 0 && 1 <= globalPage
    requires globalPage <= Update(s, blogsCount, totalCount, globalPage).totalPages
    ensures var i := Render(Update(s, blogsCount, totalCount, globalPage)).info;
      1 <= i.start <= i.end <= totalCount && i.end - i.start < BlogsPerPage
  {
  }

  /** A window on a page within range starts at page 1, ends at page `T` and lists only pages of `1..T`. */
  lemma WindowPages(c: int, t: int)
    requires 1 <= c <= t
    ensures var r := Window(c, t);
      |r| > 0 && r[0] == Num(1, c == 1) && r[|r| - 1] == Num(t, c == t)
      && forall k :: 0 <= k < |r| && r[k].Num? ==> 1 <= r[k].page <= t
  {
    var lo, hi := Max(1, c - 2), Min(t, c + 2);
    var h, m, tl := WindowHead(lo), Buttons(lo, hi, c), WindowTail(hi, t);
    var r := Window(c, t);
    assert r == h + m + tl;
    assert |m| == hi - lo + 1 >= 1;
    assert r[0] == if |h| > 0 then h[0] else m[0];
    assert r[|r| - 1] == if |tl| > 0 then tl[|tl| - 1] else m[|m| - 1];
    forall k | 0 <= k < |r| && r[k].Num? ensures 1 <= r[k].page <= t {
      if k < |h| {
        assert r[k] == h[k];
      } else if k < |h| + |m| {
        assert r[k] == m[k - |h|];
      } else {
        assert r[k] == tl[k - |h| - |m|];
      }
    }
  }

  /** Exactly one button is marked, and it is the current page. */
  lemma WindowOneCurrent(c: int, t: int)
    requires 1 <= c <= t
    ensures var r := Window(c, t);
      exists k :: 0 <= k < |r| && r[k] == Num(c, true)
    ensures var r := Window(c, t);
      forall k :: 0 <= k < |r| && r[k].Num? && r[k].current ==> r[k].page == c
  {
    var lo, hi := Max(1, c - 2), Min(t, c + 2);
    var h, m, tl := WindowHead(lo), Buttons(lo, hi, c), WindowTail(hi, t);
    var r := Window(c, t);
    assert r == h + m + tl;
    assert r[|h| + (c - lo)] == m[c - lo] == Num(c, true);
    forall k | 0 <= k < |r| && r[k].Num? && r[k].current ensures r[k].page == c {
      if |h| <= k < |h| + |m| {
        assert r[k] == m[k - |h|];
      }
    }
  }

  /**
   * Neighbouring items: two buttons side by side are consecutive pages, and
   * an ellipsis sits between two buttons whose pages differ by more than one.
   */
  lemma WindowGaps(c: int, t: int)
    requires 1 <= c <= t
    ensures var r := Window(c, t);
      forall k :: 0 <= k < |r| - 1 && r[k].Num? && r[k + 1].Num? ==> r[k + 1].page == r[k].page + 1
    ensures var r := Window(c, t);
      forall k :: 0 <= k < |r| && r[k].Gap? ==>
        0 < k < |r| - 1 && r[k - 1].Num? && r[k + 1].Num? && r[k + 1].page > r[k - 1].page + 1
  {
    var lo, hi := Max(1, c - 2), Min(t, c + 2);
    var h, m, tl := WindowHead(lo), Buttons(lo, hi, c), WindowTail(hi, t);
    var r := Window(c, t);
    assert r == h + m + tl;
    assert |m| == hi - lo + 1 >= 1;
    forall k | 0 <= k < |r| - 1 && r[k].Num? && r[k + 1].Num? ensures r[k + 1].page == r[k].page + 1 {
      WindowNeighbours(h, m, tl, lo, hi, t, c, k);
    }
    forall k | 0 <= k < |r| && r[k].Gap?
      ensures 0 < k < |r| - 1 && r[k - 1].Num? && r[k + 1].Num? && r[k + 1].page > r[k - 1].page + 1
    {
      WindowGapAt(h, m, tl, lo, hi, t, c, k);
    }
  }

  lemma WindowNeighbours(h: seq<Item>, m: seq<Item>, tl: seq<Item>, lo: int, hi: int, t: int, c: int, k: int)
    requires lo >= 1 && lo <= hi <= t
    requires h == WindowHead(lo) && m == Buttons(lo, hi, c) && tl == WindowTail(hi, t)
    requires 0 <= k < |h + m + tl| - 1 && (h + m + tl)[k].Num? && (h + m + tl)[k + 1].Num?
    ensures (h + m + tl)[k + 1].page == (h + m + tl)[k].page + 1
  {
    var r := h + m + tl;
    if k + 1 == |h| {
      assert r[k] == h[k] && r[k + 1] == m[0];
    } else if |h| < k + 1 < |h| + |m| {
      assert r[k] == m[k - |h|] && r[k + 1] == m[k + 1 - |h|];
    } else if k + 1 == |h| + |m| {
      assert r[k] == m[|m| - 1] && r[k + 1] == tl[0];
    }
  }

  lemma WindowGapAt(h: seq<Item>, m: seq<Item>, tl: seq<Item>, lo: int, hi: int, t: int, c: int, k: int)
    requires lo >= 1 && lo <= hi <= t
    requires h == WindowHead(lo) && m == Buttons(lo, hi, c) && tl == WindowTail(hi, t)
    requires 0 <= k < |h + m + tl| && (h + m + tl)[k].Gap?
    ensures var r := h + m + tl;
      0 < k < |r| - 1 && r[k - 1].Num? && r[k + 1].Num? && r[k + 1].page > r[k - 1].page + 1
  {
    var r := h + m + tl;
    if k < |h| {
      assert k == 1 && r[0] == h[0] && r[2] == m[0];
    } else if k >= |h| + |m| {
      assert k == |h| + |m| && r[k - 1] == m[|m| - 1] && r[k + 1] == tl[1];
    }
  }

  /** `goToPage`: ignored below page 1 or on the current page; no upper bound. */
  function GoToPage(s: State, page: int): (r: Option<State>)
    ensures r.None? <==> page < 1 || page == s.currentPage
    ensures r.Some? ==> r.value == s.(currentPage := page)
  {
    if page < 1 || page == s.currentPage then None else Some(s.(currentPage := page))
  }

  /** `goToPreviousPage`: one page back, only after page 1. */
  function GoToPreviousPage(s: State): (r: Option<State>)
    ensures r.Some? <==> s.currentPage > 1
    ensures r.Some? ==> r.value.currentPage == s.currentPage - 1
  {
    if s.currentPage > 1 then GoToPage(s, s.currentPage - 1) else None
  }

  /** `goToNextPage`: one page on, while pages remain or more are announced. */
  function GoToNextPage(s: State): (r: Option<State>)
    ensures r.Some? <==> (s.currentPage < s.totalPages || s.hasMore) && s.currentPage >= 0
    ensures r.Some? ==> r.value.currentPage == s.currentPage + 1
  {
    if s.currentPage < s.totalPages || s.hasMore then GoToPage(s, s.currentPage + 1) else None
  }

  /** Previous undoes next. */
  lemma PreviousUndoesNext(s: State)
    requires s.currentPage >= 1 && GoToNextPage(s).Some?
    ensures GoToPreviousPage(GoToNextPage(s).value) == Some(s)
  {
  }

  /** The next arrow is enabled exactly when `goToNextPage` acts, on any page from 1. */
  lemma NextArrowMatchesMove(s: State)
    requires s.currentPage >= 1
    ensures !Render(s).nextDisabled <==> GoToNextPage(s).Some?
  {
  }
}

=== FILE: patterns.dfy ===
/**
 * Hand-written scanners for every global regular expression the application
 * applies to blog text. Each scanner decides whether a match STARTS at the
 * beginning of a text `t` and, if so, how long it is and what it captures,
 * following the backtracking order of the JavaScript engine: lazy parts take
 * the shortest extension that lets the rest match, greedy parts the longest.
 *
 * None of these expressions has an anchor or a lookbehind, so whether a match
 * starts at index i of a string depends only on the suffix from i. A global
 * `replace` or `exec` loop is therefore the suffix recursion `ReplaceAll` /
 * `MatchesOf` below: try here, on success continue after the match, on failure
 * keep one character and move on.
 */
module Patterns {
  import opened Wrappers
  import opened Text

  /** One match at the start of a text: its length and up to two captured groups. */
  datatype Match = Match(len: nat, cap1: string, cap2: string)

  /** The expressions, named by what they recognise. */
  datatype Pattern =
    | MdImage         // `![alt](url)`, alt and url lazy and on one line; cap1 alt, cap2 url
    | MdHttpImage     // `![alt](http(s)://…)`, alt lazy on one line, url up to the first `)`; cap1 url
    | BareImageUrl    // case-insensitive `http(s)://` + non-space run ending in `.jpg|.jpeg|.png|.gif|.webp`; cap1 whole
    | Bold            // `**inner**`, inner lazy on one line; cap1 inner
    | UrlRun          // `http(s)://` + longest run without whitespace or `<`; cap1 whole
    | ImgSrcAnyQuote  // `<img … src="v"` or with `'`, last `src=` before the first `>`; cap1 v
    | ImgSrcDouble    // `<img … src="v"` with double quotes only; cap1 v
    | MdLink          // `[text](target)` with non-empty text and target; cap1 text
    | TagNonEmpty     // `<…>` with at least one character inside
    | TagAny          // `<…>`, possibly `<>`
    | ImageMarker     // `[IMAGE:` digits `]`; cap1 the digits
    | NewlineMarker   // `[NEWLINE:` digits `]`; cap1 the digits

  // ---------------------------------------------------------------------------
  // character classes

  predicate NotLineEnd(c: char) { !IsLineTerminator(c) }
  predicate NotLineEndNorParen(c: char) { !IsLineTerminator(c) && c != ')' }
  predicate NotCloseParen(c: char) { c != ')' }
  predicate NotCloseBracket(c: char) { c != ']' }
  predicate NotGt(c: char) { c != '>' }
  predicate NotSpaceChar(c: char) { !IsSpace(c) }
  predicate UrlChar(c: char) { !IsSpace(c) && c != '<' }
  predicate NotAnyQuote(c: char) { c != '"' && c != '\'' }
  predicate NotDoubleQuote(c: char) { c != '"' }

  /** End of the longest run of characters satisfying `ok` that starts at `j`. */
  function SpanWhile(t: string, j: nat, ok: char -> bool): (e: nat)
    requires j <= |t|
    ensures j <= e <= |t|
    ensures forall k :: j <= k < e ==> ok(t[k])
    ensures e == |t| || !ok(t[e])
    decreases |t| - j
  {
    if j < |t| && ok(t[j]) then SpanWhile(t, j + 1, ok) else j
  }

  /** SpanWhile stops exactly at the first character outside the class. */
  lemma {:induction false} SpanWhileExact(t: string, j: nat, e: nat, ok: char -> bool)
    requires j <= e <= |t|
    requires forall k :: j <= k < e ==> ok(t[k])
    requires e == |t| || !ok(t[e])
    ensures SpanWhile(t, j, ok) == e
    decreases e - j
  {
    if j < e {
      SpanWhileExact(t, j + 1, e, ok);
    }
  }

  // ---------------------------------------------------------------------------
  // the scanners

  /** `![alt](url)`: the alternative end `a` grows one character at a time (lazy). */
  function MdImageFrom(t: string, a: nat): (r: Option<Match>)
    requires 2 <= a
    ensures r.Some? ==> 0 < r.value.len <= |t|
    decreases |t| - a
  {
    if a >= |t| || IsLineTerminator(t[a]) then None
    else if t[a] == ']' && a + 1 < |t| && t[a + 1] == '(' then
      var c := SpanWhile(t, a + 2, NotLineEndNorParen);
      if c < |t| && t[c] == ')' then Some(Match(c + 1, t[2..a], t[a + 2..c]))
      else MdImageFrom(t, a + 1)
    else MdImageFrom(t, a + 1)
  }

  /** The target of a markdown image restricted to http(s): returns the index of the closing `)`. */
  function HttpTargetEnd(t: string, j: nat): (r: Option<nat>)
    requires j <= |t|
    ensures r.Some? ==> j < r.value < |t| && t[r.value] == ')'
  {
    var b := if StartsWith(t[j..], "https://") then j + 8
             else if StartsWith(t[j..], "http://") then j + 7
             else 0;
    if b == 0 then None
    else
      var c := SpanWhile(t, b, NotCloseParen);
      if b < c < |t| then Some(c) else None
  }

  function MdHttpImageFrom(t: string, a: nat): (r: Option<Match>)
    requires 2 <= a
    ensures r.Some? ==> 0 < r.value.len <= |t|
    ensures r.Some? ==> |r.value.cap1| > 0
    decreases |t| - a
  {
    if a >= |t| || IsLineTerminator(t[a]) then None
    else if t[a] == ']' && a + 1 < |t| && t[a + 1] == '(' && HttpTargetEnd(t, a + 2).Some? then
      var c := HttpTargetEnd(t, a + 2).value;
      Some(Match(c + 1, t[a + 2..c], ""))
    else MdHttpImageFrom(t, a + 1)
  }

  /** `**inner**`: the closing `**` nearest to the opening one, on the same line. */
  function BoldFrom(t: string, a: nat): (r: Option<Match>)
    requires 2 <= a
    ensures r.Some? ==> 0 < r.value.len <= |t|
    decreases |t| - a
  {
    if a + 1 < |t| && t[a] == '*' && t[a + 1] == '*' then Some(Match(a + 2, t[2..a], ""))
    else if a >= |t| || IsLineTerminator(t[a]) then None
    else BoldFrom(t, a + 1)
  }

  /** Case-sensitive `http://` or `https://` at the start: index after it, or 0. */
  function SchemeEnd(t: string): (b: nat)
    ensures b == 0 || (b <= |t| && (b == 7 || b == 8))
  {
    if StartsWith(t, "https://") then 8 else if StartsWith(t, "http://") then 7 else 0
  }

  lemma SchemeStartsHttp(t: string)
    requires SchemeEnd(t) > 0
    ensures StartsWith(t, "http")
  {
    if StartsWith(t, "https://") {
      assert t[..4] == t[..8][..4];
      assert "https://"[..4] == "http";
    } else {
      assert t[..4] == t[..7][..4];
      assert "http://"[..4] == "http";
    }
  }

  /** The same, with ASCII case folding (the `i` flag). */
  function FoldedSchemeEnd(t: string): (b: nat)
    ensures b == 0 || (b <= |t| && (b == 7 || b == 8))
  {
    if StartsWithFolded(t, "https://") then 8 else if StartsWithFolded(t, "http://") then 7 else 0
  }

  /** `u` ends with `.` followed by `ext` in any ASCII case. */
  predicate FoldedEndsWith(u: string, ext: string) {
    |u| > |ext| && u[|u| - |ext| - 1] == '.' && FoldedAt(u, |u| - |ext|, ext)
  }

  /** What the bare-URL pattern accepts: a case-insensitive http(s) scheme, no whitespace, an image extension at the end. */
  predicate ImageFileUrl(u: string) {
    FoldedSchemeEnd(u) > 0 && NoSpace(u) && EndsWithImageExt(u)
  }

  predicate EndsWithImageExt(u: string) {
    FoldedEndsWith(u, "jpg") || FoldedEndsWith(u, "jpeg") || FoldedEndsWith(u, "png")
    || FoldedEndsWith(u, "gif") || FoldedEndsWith(u, "webp")
  }

  /** Length of an image extension at `k` (case-insensitive, tried in the source's order), or 0. */
  function ExtLen(t: string, k: nat): (n: nat)
    requires k <= |t|
    ensures n == 0 || n == 3 || n == 4
    ensures n > 0 ==> k + n <= |t|
  {
    if FoldedAt(t, k, "jpg") then 3
    else if FoldedAt(t, k, "jpeg") then 4
    else if FoldedAt(t, k, "png") then 3
    else if FoldedAt(t, k, "gif") then 3
    else if FoldedAt(t, k, "webp") then 4
    else 0
  }

  /** Extension letters are never whitespace. */
  lemma ExtNoSpace(t: string, k: nat)
    requires k <= |t| && ExtLen(t, k) > 0
    ensures forall i :: k <= i < k + ExtLen(t, k) ==> !IsSpace(t[i])
  {
    var n := ExtLen(t, k);
    var w := if FoldedAt(t, k, "jpg") then "jpg"
      else if FoldedAt(t, k, "jpeg") then "jpeg"
      else if FoldedAt(t, k, "png") then "png"
      else if FoldedAt(t, k, "gif") then "gif"
      else "webp";
    assert FoldedAt(t, k, w) && |w| == n;
    forall i | k <= i < k + n ensures !IsSpace(t[i]) {
      assert LowerChar(t[i]) == w[i - k];
      FoldedLetterNotSpace(t[i]);
    }
  }

  /** Greedy `[^\s]+` then `.ext`: the dot position `p` shrinks from the longest run. */
  /** The dot before the extension: the last candidate position is tried first. */
  function BareDot(t: string, b: nat, p: nat): (q: Option<nat>)
    requires p < |t|
    ensures q.Some? ==> b < q.value <= p && DotExt(t, q.value)
    ensures q.None? ==> forall k :: b < k <= p ==> !DotExt(t, k)
    decreases p
  {
    if p <= b then None
    else if DotExt(t, p) then Some(p)
    else BareDot(t, b, p - 1)
  }

  /** A `.` at `p` followed by an image extension. */
  predicate DotExt(t: string, p: nat) {
    p < |t| && t[p] == '.' && ExtLen(t, p + 1) > 0
  }

  lemma DotExtEnd(t: string, p: nat)
    requires DotExt(t, p)
    ensures ExtLen(t, p + 1) > 0 && p + 1 + ExtLen(t, p + 1) <= |t|
  {
  }

  lemma DotExtFound(t: string, p: nat)
    requires p < |t| && t[p] == '.' && ExtLen(t, p + 1) > 0
    ensures var e := p + 1 + ExtLen(t, p + 1);
      e <= |t| && EndsWithImageExt(t[..e]) && forall i :: p < i < e ==> !IsSpace(t[i])
  {
    ExtNoSpace(t, p + 1);
    DotExtEnds(t, p);
  }

  lemma DotExtEnds(t: string, p: nat)
    requires p < |t| && t[p] == '.' && ExtLen(t, p + 1) > 0
    ensures EndsWithImageExt(t[..p + 1 + ExtLen(t, p + 1)])
  {
    if FoldedAt(t, p + 1, "jpg") {
      DotWordEnds(t, p, "jpg");
    } else if FoldedAt(t, p + 1, "jpeg") {
      DotWordEnds(t, p, "jpeg");
    } else if FoldedAt(t, p + 1, "png") {
      DotWordEnds(t, p, "png");
    } else if FoldedAt(t, p + 1, "gif") {
      DotWordEnds(t, p, "gif");
    } else {
      DotWordEnds(t, p, "webp");
    }
  }

  /** A `.` followed by the word `w` ends, once cut after the word, with that extension. */
  lemma DotWordEnds(t: string, p: nat, w: string)
    requires p < |t| && t[p] == '.' && FoldedAt(t, p + 1, w)
    ensures FoldedEndsWith(t[..p + 1 + |w|], w)
  {
    FoldedAtPrefix(t, p + 1 + |w|, p + 1, w);
  }

  lemma FoldedAtPrefix(t: string, e: nat, k: nat, w: string)
    requires k + |w| <= e <= |t|
    ensures FoldedAt(t[..e], k, w) == FoldedAt(t, k, w)
  {
    assert forall i :: k <= i < k + |w| ==> t[..e][i] == t[i];
  }

  /** A folded scheme consists of non-space characters. */
  lemma FoldedSchemeNoSpace(t: string)
    requires FoldedSchemeEnd(t) > 0
    ensures forall k :: 0 <= k < FoldedSchemeEnd(t) ==> !IsSpace(t[k])
  {
    var b := FoldedSchemeEnd(t);
    var w := if b == 8 then "https://" else "http://";
    assert FoldedAt(t, 0, w);
    forall k | 0 <= k < b ensures !IsSpace(t[k]) {
      assert LowerChar(t[k]) == w[k];
    }
  }

  lemma FoldedSchemePrefix(t: string, e: nat)
    requires FoldedSchemeEnd(t) < e <= |t| && FoldedSchemeEnd(t) > 0
    ensures FoldedSchemeEnd(t[..e]) == FoldedSchemeEnd(t)
  {
    assert t[..e][..7] == t[..7];
    if 8 <= e {
      assert t[..e][..8] == t[..8];
    }
  }

  function BareImageUrlAt(t: string): (r: Option<Match>)
    ensures r.Some? ==> 0 < r.value.len <= |t|
    ensures r.Some? ==> r.value.cap1 == t[..r.value.len] && ImageFileUrl(r.value.cap1)
  {
    var b := FoldedSchemeEnd(t);
    if b == 0 then None
    else
      var w := SpanWhile(t, b, NotSpaceChar);
      if w == b then None else BareUpToDot(t, b, w)
  }

  /** The bare URL ending at the last image extension inside the run `b..w`, if any. */
  function BareUpToDot(t: string, b: nat, w: nat): (r: Option<Match>)
    requires b == FoldedSchemeEnd(t) > 0
    requires b < w <= |t| && w == SpanWhile(t, b, NotSpaceChar)
    ensures r.Some? ==> 0 < r.value.len <= |t|
    ensures r.Some? ==> r.value.cap1 == t[..r.value.len] && ImageFileUrl(r.value.cap1)
  {
    var q := BareDot(t, b, w - 1);
    if q.Some? then Some(BareMatch(t, b, w, q.value)) else None
  }

  /** The match ending after the extension that follows the `.` at `p`. */
  function BareMatch(t: string, b: nat, w: nat, p: nat): (m: Match)
    requires b == FoldedSchemeEnd(t) > 0
    requires b < w <= |t| && w == SpanWhile(t, b, NotSpaceChar)
    requires b < p < w && DotExt(t, p)
    ensures 0 < m.len <= |t| && m.cap1 == t[..m.len] && ImageFileUrl(m.cap1)
  {
    DotExtEnd(t, p);
    var e := p + 1 + ExtLen(t, p + 1);
    var m := Match(e, t[..e], "");
    BareShape(t, b, w, p, m);
    m
  }

  lemma BareShape(t: string, b: nat, w: nat, p: nat, m: Match)
    requires b == FoldedSchemeEnd(t) > 0
    requires b < w <= |t| && w == SpanWhile(t, b, NotSpaceChar)
    requires b < p < w && DotExt(t, p)
    requires m.len == p + 1 + ExtLen(t, p + 1) <= |t| && m.cap1 == t[..m.len]
    ensures 0 < m.len && ImageFileUrl(m.cap1)
  {
    var e := m.len;
    DotExtFound(t, p);
    BareImageIsFileUrl(t, b, w, e);
  }

  lemma BareImageIsFileUrl(t: string, b: nat, w: nat, e: nat)
    requires b == FoldedSchemeEnd(t) > 0
    requires b < w <= |t| && b < e <= |t|
    requires forall k :: b <= k < w ==> NotSpaceChar(t[k])
    requires w == |t| || !NotSpaceChar(t[w])
    requires forall i :: w - 1 < i < e ==> !IsSpace(t[i])
    ensures FoldedSchemeEnd(t[..e]) > 0 && NoSpace(t[..e])
  {
    FoldedSchemeNoSpace(t);
    FoldedSchemePrefix(t, e);
    forall k | 0 <= k < e ensures !IsSpace(t[..e][k]) {
      if k >= b {
        assert NotSpaceChar(t[k]);
      }
    }
  }

  function UrlRunAt(t: string): (r: Option<Match>)
    ensures r.Some? ==> 0 < r.value.len <= |t|
  {
    var b := SchemeEnd(t);
    if b == 0 then None
    else
      var e := SpanWhile(t, b, UrlChar);
      if e > b then Some(Match(e, t[..e], "")) else None
  }

  /** `src=` + quote + value + quote at `p`, for the given quote class. */
  function SrcAt(t: string, p: nat, anyQuote: bool): (r: Option<Match>)
    requires p <= |t|
    ensures r.Some? ==> 0 < r.value.len <= |t|
  {
    if StartsWith(t[p..], "src=") && p + 4 < |t|
       && (t[p + 4] == '"' || (anyQuote && t[p + 4] == '\''))
    then
      var e := SpanWhile(t, p + 5, if anyQuote then NotAnyQuote else NotDoubleQuote);
      if p + 5 < e < |t| then Some(Match(e + 1, t[p + 5..e], "")) else None
    else None
  }

  /** Greedy `[^>]+` before `src=`: the last candidate position is tried first. */
  function ImgSrcFrom(t: string, p: nat, anyQuote: bool): (r: Option<Match>)
    requires p <= |t|
    ensures r.Some? ==> 0 < r.value.len <= |t|
    decreases p
  {
    if p < 5 then None
    else if SrcAt(t, p, anyQuote).Some? then SrcAt(t, p, anyQuote)
    else ImgSrcFrom(t, p - 1, anyQuote)
  }

  function ImgSrcAt(t: string, anyQuote: bool): (r: Option<Match>)
    ensures r.Some? ==> 0 < r.value.len <= |t|
  {
    if StartsWith(t, "<img") then ImgSrcFrom(t, SpanWhile(t, 4, NotGt), anyQuote) else None
  }

  function MdLinkAt(t: string): (r: Option<Match>)
    ensures r.Some? ==> 0 < r.value.len <= |t|
  {
    if |t| > 0 && t[0] == '[' then
      var c1 := SpanWhile(t, 1, NotCloseBracket);
      if 1 < c1 && c1 + 1 < |t| && t[c1 + 1] == '(' then
        var c2 := SpanWhile(t, c1 + 2, NotCloseParen);
        if c1 + 2 < c2 < |t| then Some(Match(c2 + 1, t[1..c1], "")) else None
      else None
    else None
  }

  function TagAt(t: string, minInner: nat): (r: Option<Match>)
    ensures r.Some? ==> 0 < r.value.len <= |t|
  {
    if |t| > 0 && t[0] == '<' then
      var c := SpanWhile(t, 1, NotGt);
      if 1 + minInner <= c < |t| then Some(Match(c + 1, t[1..c], "")) else None
    else None
  }

  /** `[` + keyword + `:` + digits + `]`. */
  function MarkerAt(t: string, head: string): (r: Option<Match>)
    ensures r.Some? ==> 0 < r.value.len <= |t|
    ensures r.Some? ==> StartsWith(t, head) && r.value.len == |head| + |r.value.cap1| + 1
    ensures r.Some? ==> |r.value.cap1| > 0 && AllDigits(r.value.cap1)
    ensures r.Some? ==> r.value.cap1 == t[|head|..r.value.len - 1] && t[r.value.len - 1] == ']'
  {
    if StartsWith(t, head) then
      var d := SpanWhile(t, |head|, IsDigit);
      if |head| < d < |t| && t[d] == ']' then Some(Match(d + 1, t[|head|..d], "")) else None
    else None
  }

  const ImageHead: string := "[IMAGE:"
  const NewlineHead: string := "[NEWLINE:"

  /** Does `p` match at the start of `t`? */
  function MatchAt(p: Pattern, t: string): (r: Option<Match>)
    ensures r.Some? ==> 0 < r.value.len <= |t|
    ensures r.Some? ==> Anchored(p, t)
  {
    match p
    case MdImage => if StartsWith(t, "![") then MdImageFrom(t, 2) else None
    case MdHttpImage => if StartsWith(t, "![") then MdHttpImageFrom(t, 2) else None
    case BareImageUrl => BareImageUrlAt(t)
    case Bold => if StartsWith(t, "**") then BoldFrom(t, 2) else None
    case UrlRun => UrlRunAt(t)
    case ImgSrcAnyQuote => ImgSrcAt(t, true)
    case ImgSrcDouble => ImgSrcAt(t, false)
    case MdLink => MdLinkAt(t)
    case TagNonEmpty => TagAt(t, 1)
    case TagAny => TagAt(t, 0)
    case ImageMarker => MarkerAt(t, ImageHead)
    case NewlineMarker => MarkerAt(t, NewlineHead)
  }

  /** A literal every match of `p` begins with. */
  predicate Anchored(p: Pattern, t: string) {
    match p
    case MdImage => StartsWith(t, "![")
    case MdHttpImage => StartsWith(t, "![")
    case BareImageUrl => FoldedSchemeEnd(t) != 0
    case Bold => StartsWith(t, "**")
    case UrlRun => StartsWith(t, "http://") || StartsWith(t, "https://")
    case ImgSrcAnyQuote => StartsWith(t, "<img")
    case ImgSrcDouble => StartsWith(t, "<img")
    case MdLink => StartsWith(t, "[")
    case TagNonEmpty => StartsWith(t, "<")
    case TagAny => StartsWith(t, "<")
    case ImageMarker => StartsWith(t, ImageHead)
    case NewlineMarker => StartsWith(t, NewlineHead)
  }

  // ---------------------------------------------------------------------------
  // global replace and global exec

  /** The replacement that deletes every match. */
  function Nothing(m: Match): string { "" }

  /** The replacement that turns every match into one space. */
  function Space(m: Match): string { " " }

  /** `s.replace(p, f)` with the global flag. */
  function ReplaceAll(p: Pattern, s: string, f: Match -> string): string
    decreases |s|
  {
    if |s| == 0 then []
    else match MatchAt(p, s)
      case Some(m) => f(m) + ReplaceAll(p, s[m.len..], f)
      case None => [s[0]] + ReplaceAll(p, s[1..], f)
  }

  /** All matches of a global `exec` loop, left to right. */
  function MatchesOf(p: Pattern, s: string): seq<Match>
    decreases |s|
  {
    if |s| == 0 then []
    else match MatchAt(p, s)
      case Some(m) => [m] + MatchesOf(p, s[m.len..])
      case None => MatchesOf(p, s[1..])
  }

  /** The first match, as a non-global `match` returns it. */
  function FirstMatch(p: Pattern, s: string): (r: Option<Match>)
    ensures r.Some? <==> |MatchesOf(p, s)| > 0
    ensures r.Some? ==> r.value == MatchesOf(p, s)[0]
    decreases |s|
  {
    if |s| == 0 then None
    else match MatchAt(p, s)
      case Some(m) => Some(m)
      case None => FirstMatch(p, s[1..])
  }

  /** A global replace whose replacement also sees the 1-based number `k` of the match. */
  function NumberedReplace(p: Pattern, s: string, f: (nat, Match) -> string, k: nat): string
    decreases |s|
  {
    if |s| == 0 then []
    else match MatchAt(p, s)
      case Some(m) => f(k, m) + NumberedReplace(p, s[m.len..], f, k + 1)
      case None => [s[0]] + NumberedReplace(p, s[1..], f, k)
  }

  /** No match can start anywhere in `s`. */
  predicate Unanchored(p: Pattern, s: string) {
    forall i :: 0 <= i <= |s| ==> !Anchored(p, s[i..])
  }

  /** Where no match can begin, a global replace changes nothing and `exec` finds nothing. */
  lemma {:induction false} UnanchoredUnchanged(p: Pattern, s: string, f: Match -> string)
    requires Unanchored(p, s)
    ensures ReplaceAll(p, s, f) == s
    ensures MatchesOf(p, s) == []
    decreases |s|
  {
    if |s| > 0 {
      assert !Anchored(p, s[0..]);
      assert s[0..] == s;
      assert Unanchored(p, s[1..]) by {
        forall i | 0 <= i <= |s[1..]| ensures !Anchored(p, s[1..][i..]) {
          assert s[1..][i..] == s[i + 1..];
        }
      }
      UnanchoredUnchanged(p, s[1..], f);
    }
  }

  /** Absence of a literal prefix as a substring makes the text unanchored. */
  lemma AbsentLiteralUnanchored(p: Pattern, s: string, lit: string)
    requires !Contains(s, lit)
    requires forall t: string {:trigger Anchored(p, t)} :: Anchored(p, t) ==> StartsWith(t, lit)
    ensures Unanchored(p, s)
  {
    forall i | 0 <= i <= |s| ensures !Anchored(p, s[i..]) {
      NotContainsAt(s, lit, i);
    }
  }

  /** A text with no `![` has no markdown image of either kind. */
  lemma NoBangBracket(s: string)
    requires !Contains(s, "![")
    ensures Unanchored(MdImage, s) && Unanchored(MdHttpImage, s)
  {
    AbsentLiteralUnanchored(MdImage, s, "![");
    AbsentLiteralUnanchored(MdHttpImage, s, "![");
  }

  /** Text before a position where nothing can match is copied verbatim. */
  lemma {:induction false} ReplaceSkipsPrefix(p: Pattern, a: string, b: string, f: Match -> string)
    requires forall i :: 0 <= i < |a| ==> !Anchored(p, (a + b)[i..])
    ensures ReplaceAll(p, a + b, f) == a + ReplaceAll(p, b, f)
    ensures MatchesOf(p, a + b) == MatchesOf(p, b)
    decreases |a|
  {
    if |a| > 0 {
      var s := a + b;
      assert !Anchored(p, s[0..]);
      assert s[0..] == s && s[0] == a[0];
      assert s[1..] == a[1..] + b;
      UnanchoredStep(p, s, f);
      forall i | 0 <= i < |a[1..]| ensures !Anchored(p, (a[1..] + b)[i..]) {
        assert (a[1..] + b)[i..] == (a + b)[i + 1..];
      }
      ReplaceSkipsPrefix(p, a[1..], b, f);
      ConsRegroup(a, ReplaceAll(p, b, f));
    } else {
      assert a + b == b;
    }
  }

  /** Where nothing is anchored, scanning copies one character and moves on. */
  lemma UnanchoredStep(p: Pattern, s: string, f: Match -> string)
    requires |s| > 0 && !Anchored(p, s)
    ensures ReplaceAll(p, s, f) == [s[0]] + ReplaceAll(p, s[1..], f)
    ensures MatchesOf(p, s) == MatchesOf(p, s[1..])
  {
    assert MatchAt(p, s).None?;
  }

  lemma ConsRegroup(a: string, r: string)
    requires |a| > 0
    ensures [a[0]] + (a[1..] + r) == a + r
  {
    assert [a[0]] + a[1..] == a;
  }

  /** A match at the front is rewritten and scanning resumes right after it. */
  lemma ReplaceAtMatch(p: Pattern, a: string, b: string, f: Match -> string)
    requires |a| > 0 && MatchAt(p, a + b).Some? && MatchAt(p, a + b).value.len == |a|
    ensures ReplaceAll(p, a + b, f) == f(MatchAt(p, a + b).value) + ReplaceAll(p, b, f)
    ensures MatchesOf(p, a + b) == [MatchAt(p, a + b).value] + MatchesOf(p, b)
  {
    assert (a + b)[|a|..] == b;
  }

  lemma {:induction false} NumberedSkipsPrefix(p: Pattern, a: string, b: string, f: (nat, Match) -> string, k: nat)
    requires forall i :: 0 <= i < |a| ==> !Anchored(p, (a + b)[i..])
    ensures NumberedReplace(p, a + b, f, k) == a + NumberedReplace(p, b, f, k)
    decreases |a|
  {
    if |a| > 0 {
      var s := a + b;
      assert !Anchored(p, s[0..]);
      assert s[0..] == s && s[0] == a[0];
      assert s[1..] == a[1..] + b;
      NumberedUnanchoredStep(p, s, f, k);
      forall i | 0 <= i < |a[1..]| ensures !Anchored(p, (a[1..] + b)[i..]) {
        assert (a[1..] + b)[i..] == (a + b)[i + 1..];
      }
      NumberedSkipsPrefix(p, a[1..], b, f, k);
      ConsRegroup(a, NumberedReplace(p, b, f, k));
    } else {
      assert a + b == b;
    }
  }

  lemma NumberedUnanchoredStep(p: Pattern, s: string, f: (nat, Match) -> string, k: nat)
    requires |s| > 0 && !Anchored(p, s)
    ensures NumberedReplace(p, s, f, k) == [s[0]] + NumberedReplace(p, s[1..], f, k)
  {
    assert MatchAt(p, s).None?;
  }

  lemma NumberedAtMatch(p: Pattern, a: string, b: string, f: (nat, Match) -> string, k: nat)
    requires |a| > 0 && MatchAt(p, a + b).Some? && MatchAt(p, a + b).value.len == |a|
    ensures NumberedReplace(p, a + b, f, k) == f(k, MatchAt(p, a + b).value) + NumberedReplace(p, b, f, k + 1)
  {
    assert (a + b)[|a|..] == b;
  }

  /**
   * If every match of `p` begins with `lit`, and `lit` occurs nowhere in `a`
   * extended by the first |lit|-1 characters of what follows, then no match
   * starts inside `a`.
   */
  lemma LiteralFreePrefix(p: Pattern, lit: string, a: string, b: string)
    requires |lit| >= 1
    requires forall t: string {:trigger Anchored(p, t)} :: Anchored(p, t) ==> StartsWith(t, lit)
    requires |b| >= |lit| - 1 && !Contains(a + b[..|lit| - 1], lit)
    ensures forall i :: 0 <= i < |a| ==> !Anchored(p, (a + b)[i..])
  {
    var w := a + b[..|lit| - 1];
    forall i | 0 <= i < |a| ensures !Anchored(p, (a + b)[i..]) {
      NotContainsAt(w, lit, i);
      forall j | i <= j < i + |lit| ensures (a + b)[j] == w[j] {
        if j >= |a| {
          assert w[j] == b[..|lit| - 1][j - |a|];
        }
      }
      assert (a + b)[i..i + |lit|] == w[i..i + |lit|];
    }
  }
}

=== FILE: router.dfy ===
/**
 * The hash router: parsing `location.hash` into a route, the view state the
 * three page functions leave behind, and `navigate`. `decode` stands for
 * `decodeURIComponent`.
 */
module Router {
  import opened Text
  import P = Pagination

  datatype Route =
    | ToGroup(group: string)
    | ToMember(group: string, member: string)
    | ToBlog(id: string)

  /** `s.substring(1)`: everything after the first character, or nothing. */
  function Drop1(s: string): (r: string)
    ensures |s| > 0 ==> r == s[1..]
    ensures |s| == 0 ==> r == ""
  {
    if |s| == 0 then "" else s[1..]
  }

  /** The route `handleRoute` takes for a hash. */
  function ParseHash(hash: string, decode: string -> string): (r: Route)
    ensures hash == "" || hash == "#" ==> r == ToGroup("all")
    ensures hash != "" && hash != "#" && StartsWith(hash, "#blog/") ==> r == ToBlog(hash[6..])
    ensures hash != "" && hash != "#" && !StartsWith(hash, "#blog/") && Contains(hash, "/member/") ==>
      var parts := Split(hash, '/');
      |parts| >= 3 && r == ToMember(Drop1(parts[0]), decode(parts[2]))
    ensures hash != "" && hash != "#" && !StartsWith(hash, "#blog/") && !Contains(hash, "/member/") ==>
      r == ToGroup(hash[1..])
  {
    if hash == "" || hash == "#" then ToGroup("all")
    else if StartsWith(hash, "#blog/") then ToBlog(hash[6..])
    else if Contains(hash, "/member/") then
      MemberPathSplits(hash);
      var parts := Split(hash, '/');
      ToMember(Drop1(parts[0]), decode(parts[2]))
    else ToGroup(hash[1..])
  }

  /** A hash containing `/member/` has at least three `/`-separated parts. */
  lemma MemberPathSplits(hash: string)
    requires Contains(hash, "/member/")
    ensures |Split(hash, '/')| >= 3
  {
    var i := ContainsWitness(hash, "/member/");
    assert hash[i..][..8] == "/member/";
    assert hash[i] == '/' && hash[i + 7] == '/';
    SplitTwoSeparators(hash, '/', i, i + 7);
  }

  /** The hash of a member page, as the sidebar's "view more" link builds it. */
  function MemberHash(group: string, encodedMember: string): string {
    "#" + group + "/member/" + encodedMember
  }

  /** A blog hash is a blog route whatever follows, even text that looks like a member path. */
  lemma BlogRouteWins(id: string, decode: string -> string)
    ensures ParseHash("#blog/" + id, decode) == ToBlog(id)
  {
    assert ("#blog/" + id)[..6] == "#blog/";
  }

  /** A hash made of `#` and a group name that is not `blog` never starts with `#blog/`. */
  lemma NotBlogHash(g: string, rest: string)
    requires '/' !in g && g != "blog"
    requires |rest| > 0 && rest[0] == '/'
    ensures !StartsWith("#" + g + rest, "#blog/")
  {
    var h := "#" + g + rest;
    assert h[1 + |g|] == '/';
    if |g| < 4 {
      assert h[1 + |g|] != "#blog/"[1 + |g|];
    } else if |g| == 4 {
      var k :| 0 <= k < 4 && g[k] != "blog"[k];
      assert h[1 + k] == g[k];
    } else {
      assert h[5] == g[4];
    }
  }

  /**
   * The member link parses back to its group and member: with a group name
   * free of `/` and an encoding that leaves no `/` and that `decode` undoes.
   */
  lemma MemberRouteRoundTrip(g: string, m: string, encode: string -> string, decode: string -> string)
    requires '/' !in g && g != "blog"
    requires '/' !in encode(m) && decode(encode(m)) == m
    ensures ParseHash(MemberHash(g, encode(m)), decode) == ToMember(g, m)
  {
    var e := encode(m);
    var h := MemberHash(g, e);
    assert h == "#" + g + ("/member/" + e);
    NotBlogHash(g, "/member/" + e);
    MemberHashMentionsMember(g, e);
    MemberHashParts(g, e);
    assert Drop1("#" + g) == g;
  }

  lemma MemberHashMentionsMember(g: string, e: string)
    ensures Contains(MemberHash(g, e), "/member/")
  {
    var h := MemberHash(g, e);
    assert h[1 + |g|..][..8] == "/member/";
    ContainsAt(h, "/member/", 1 + |g|);
  }

  /** A member hash splits at `/` into `#group`, `member` and the encoded member. */
  lemma MemberHashParts(g: string, e: string)
    requires '/' !in g && '/' !in e
    ensures Split(MemberHash(g, e), '/') == ["#" + g, "member", e]
  {
    var parts := ["#" + g, "member", e];
    assert parts[1..] == ["member", e] && ["member", e][1..] == [e];
    assert Join(["member", e], '/') == "member" + ['/'] + e;
    assert MemberHash(g, e) == ("#" + g) + ['/'] + ("member" + ['/'] + e);
    assert Join(parts, '/') == MemberHash(g, e);
    assert '/' !in "member";
    SplitJoin(parts, '/');
  }

  /** A hash with no `/` after `#` is the group page of that name. */
  lemma GroupRoute(g: string, decode: string -> string)
    requires g != "" && '/' !in g
    ensures ParseHash("#" + g, decode) == ToGroup(g)
  {
    var h := "#" + g;
    assert '/' !in h;
    AbsentHeadNotContained(h, "/member/");
    assert |h| >= 6 ==> h[5] != '/';
  }

  datatype ViewKind = Unset | GroupView | MemberView | BlogView

  /**
   * The router's view and blog, the shared group and member, the list's
   * page and search, and the pagination component.
   */
  datatype State = State(
    view: ViewKind,
    blog: string,
    group: string,
    member: string,
    page: int,
    search: string,
    pager: P.State)

  /**
   * `showGroupPage`: nothing happens when that group's list is already
   * shown; otherwise the group page from page 1 with no member, no search
   * and a reset pager.
   */
  function ShowGroupPage(s: State, group: string): (r: State)
    ensures s.view == GroupView && s.group == group && s.member == "" ==> r == s
    ensures !(s.view == GroupView && s.group == group && s.member == "") ==>
      r.view == GroupView && r.group == group && r.member == "" && r.page == 1 && r.search == ""
      && r.pager == P.Reset() && r.blog == s.blog
  {
    if s.view == GroupView && s.group == group && s.member == "" then s
    else s.(view := GroupView, member := "", group := group, page := 1, search := "", pager := P.Reset())
  }

  /** Showing the same group twice is showing it once. */
  lemma ShowGroupPageIdempotent(s: State, group: string)
    ensures ShowGroupPage(ShowGroupPage(s, group), group) == ShowGroupPage(s, group)
  {
  }

  /** `showMemberPage`: the member view for that member of that group. */
  function ShowMemberPage(s: State, member: string, group: string): (r: State)
    ensures r.view == MemberView && r.group == group && r.member == member
    ensures r.blog == s.blog && r.page == s.page && r.search == s.search && r.pager == s.pager
  {
    s.(view := MemberView, group := group, member := member)
  }

  /** `showBlogDetail`, before its fetch: the blog view for that id. */
  function ShowBlogDetail(s: State, id: string): (r: State)
    ensures r.view == BlogView && r.blog == id
    ensures r.group == s.group && r.member == s.member && r.page == s.page && r.search == s.search && r.pager == s.pager
  {
    s.(view := BlogView, blog := id)
  }

  /** `handleRoute`: the page function the parsed route asks for. */
  function HandleRoute(s: State, hash: string, decode: string -> string): (r: State)
    ensures ParseHash(hash, decode).ToGroup? ==> r == ShowGroupPage(s, ParseHash(hash, decode).group)
    ensures ParseHash(hash, decode).ToMember? ==>
      r == ShowMemberPage(s, ParseHash(hash, decode).member, ParseHash(hash, decode).group)
    ensures ParseHash(hash, decode).ToBlog? ==> r == ShowBlogDetail(s, ParseHash(hash, decode).id)
  {
    match ParseHash(hash, decode)
    case ToGroup(g) => ShowGroupPage(s, g)
    case ToMember(g, m) => ShowMemberPage(s, m, g)
    case ToBlog(id) => ShowBlogDetail(s, id)
  }

  /** The router state after a call and the address bar's hash. */
  datatype Nav = Nav(state: State, location: string)

  /**
   * `navigate(hash)` with the address bar at `location`: from the member
   * view straight to a group page without touching the address; to the
   * current hash by re-running the route; else by setting the hash.
   */
  function Navigate(s: State, hash: string, location: string, decode: string -> string): (r: Nav)
    ensures s.view == MemberView && !Contains(hash, "/member/") && !StartsWith(hash, "#blog/") ==>
      r.location == location && r.state.view == GroupView && r.state.group == Drop1(hash) && r.state.member == ""
    ensures !(s.view == MemberView && !Contains(hash, "/member/") && !StartsWith(hash, "#blog/")) ==>
      r.location == hash
      && (location == hash ==> r.state == HandleRoute(s, hash, decode))
      && (location != hash ==> r.state == s)
  {
    if s.view == MemberView && !Contains(hash, "/member/") && !StartsWith(hash, "#blog/") then
      Nav(ShowGroupPage(s.(view := Unset, member := ""), Drop1(hash)), location)
    else if location == hash then Nav(HandleRoute(s, hash, decode), location)
    else Nav(s, hash)
  }

  /** The state once a changed hash has fired `hashchange`, which runs `handleRoute`. */
  function Settle(before: string, n: Nav, decode: string -> string): (r: State)
    ensures n.location == before ==> r == n.state
    ensures n.location != before ==> r == HandleRoute(n.state, n.location, decode)
  {
    if n.location != before then HandleRoute(n.state, n.location, decode) else n.state
  }

  /** Outside the member view, navigating ends where routing the hash would, with the hash set. */
  lemma NavigateRoutes(s: State, hash: string, location: string, decode: string -> string)
    requires s.view != MemberView
    ensures Navigate(s, hash, location, decode).location == hash
    ensures Settle(location, Navigate(s, hash, location, decode), decode) == HandleRoute(s, hash, decode)
  {
  }

  /**
   * The member view's shortcut to a group page lands in the state routing
   * that hash would give, but leaves the address bar as it was.
   */
  lemma MemberShortcutMatchesRoute(s: State, g: string, location: string, decode: string -> string)
    requires s.view == MemberView && g != "" && '/' !in g
    ensures var n := Navigate(s, "#" + g, location, decode);
      n.location == location && n.state == HandleRoute(s, "#" + g, decode)
  {
    var h := "#" + g;
    GroupRoute(g, decode);
    assert '/' !in h;
    AbsentHeadNotContained(h, "/member/");
    assert |h| >= 6 ==> h[5] != '/';
  }
}

=== FILE: seo.dfy ===
/**
 * The SEO manager's pure parts: document-title composition, the meta-tag
 * setters (with their empty-content guard) and canonical URL, first-image
 * and description extraction, and breadcrumb positions. The document head is
 * a value here: the title, a map of meta tags, and the canonical href.
 */
module Seo {
  import opened Wrappers
  import opened Text
  import opened Patterns
  import SR = StructuredRenderer
  import Utils

  const SiteName: string := "坂道博客翻译"
  const BaseUrl: string := "https://blog.sakamichi-tools.cn"
  const DefaultImage: string := "https://blog.sakamichi-tools.cn/assets/og-image.jpg"
  const DefaultDescription: string := "提供乃木坂46、樱坂46、日向坂46成员官方博客的AI智能中文翻译，实时更新。"
  const TitleSuffix: string := " - 坂道博客翻译"

  predicate EndsWith(s: string, suffix: string) {
    |suffix| <= |s| && s[|s| - |suffix|..] == suffix
  }

  /**
   * `document.title` after `updateMeta`: an empty title leaves it alone, the
   * site name is kept as it is, and any other title gets the site name
   * appended once.
   */
  function DocumentTitle(current: string, title: string): (r: string)
    ensures title == "" ==> r == current
    ensures title == SiteName ==> r == SiteName
    ensures title != "" ==> EndsWith(r, SiteName) && StartsWith(r, title)
    ensures title != "" && title != SiteName ==> r[..|title|] == title && r[|title|..] == TitleSuffix
  {
    if title == "" then current
    else if title == SiteName then title
    else
      var r := title + TitleSuffix;
      assert r[|r| - |SiteName|..] == SiteName;
      assert r[..|title|] == title;
      r
  }

  /** A meta tag is found by its `name` or by its `property` attribute. */
  datatype MetaKey = Named(name: string) | Property(property: string)

  datatype Head = Head(title: string, meta: map<MetaKey, string>, canonical: string)

  /**
   * `setMeta`, `setMetaName` (both select by `name`) and `setMetaProperty`:
   * empty content changes nothing; otherwise the tag is created if needed and
   * its content set, leaving every other tag as it was.
   */
  function SetMeta(meta: map<MetaKey, string>, key: MetaKey, content: string): (r: map<MetaKey, string>)
    ensures content == "" ==> r == meta
    ensures content != "" ==> key in r && r[key] == content
    ensures forall k :: k != key ==> (k in r <==> k in meta) && (k in meta ==> r[k] == meta[k])
  {
    if content == "" then meta else meta[key := content]
  }

  /** `url.split('#')[0]`: the URL up to its first `#`. */
  function CanonicalUrl(url: string): (r: string)
    ensures '#' !in r
    ensures StartsWith(url, r)
    ensures '#' !in url ==> r == url
    ensures |r| < |url| ==> url[|r|] == '#'
  {
    var parts := Split(url, '#');
    JoinSplit(url, '#');
    SplitHead(url, '#');
    parts[0]
  }

  /** Canonicalising again changes nothing. */
  lemma CanonicalIdempotent(url: string)
    ensures CanonicalUrl(CanonicalUrl(url)) == CanonicalUrl(url)
  {
  }

  /** Four distinct tags written in turn: each non-empty value lands, every other tag is kept. */
  function SetFour(meta: map<MetaKey, string>, k1: MetaKey, v1: string, k2: MetaKey, v2: string,
                   k3: MetaKey, v3: string, k4: MetaKey, v4: string): (r: map<MetaKey, string>)
    requires k1 != k2 && k1 != k3 && k1 != k4 && k2 != k3 && k2 != k4 && k3 != k4
    ensures forall k :: k != k1 && k != k2 && k != k3 && k != k4 ==>
      (k in r <==> k in meta) && (k in meta ==> r[k] == meta[k])
    ensures v1 != "" ==> k1 in r && r[k1] == v1
    ensures v2 != "" ==> k2 in r && r[k2] == v2
    ensures v3 != "" ==> k3 in r && r[k3] == v3
    ensures v4 != "" ==> k4 in r && r[k4] == v4
  {
    SetMeta(SetMeta(SetMeta(SetMeta(meta, k1, v1), k2, v2), k3, v3), k4, v4)
  }

  /** The Open Graph tags `updateMeta` writes; only `property` tags change. */
  function OpenGraph(meta: map<MetaKey, string>, title: string, description: string, image: string, url: string, kind: string)
    : (r: map<MetaKey, string>)
    ensures forall k: MetaKey :: !k.Property? ==> (k in r <==> k in meta) && (k in meta ==> r[k] == meta[k])
    ensures title != "" ==> Property("og:title") in r && r[Property("og:title")] == title
    ensures description != "" ==> Property("og:description") in r && r[Property("og:description")] == description
    ensures image != "" ==> Property("og:image") in r && r[Property("og:image")] == image
    ensures url != "" ==> Property("og:url") in r && r[Property("og:url")] == url
    ensures kind != "" ==> Property("og:type") in r && r[Property("og:type")] == kind
  {
    OpenGraphKeys("og:title", "og:description", "og:image", "og:url", "og:type");
    var m4 := SetFour(meta, Property("og:title"), title, Property("og:description"), description,
                      Property("og:image"), image, Property("og:url"), url);
    SetMeta(m4, Property("og:type"), kind)
  }

  lemma OpenGraphKeys(t: string, d: string, i: string, u: string, y: string)
    requires t == "og:title" && d == "og:description" && i == "og:image" && u == "og:url" && y == "og:type"
    ensures t != d && t != i && t != u && t != y && d != i && d != u && d != y && i != u && i != y && u != y
  {
    assert t[3] != i[3] && u[3] != y[3];
  }

  /** The Twitter card tags are the `name` tags whose name starts with `twitter:`. */
  predicate TwitterKey(k: MetaKey) {
    k.Named? && StartsWith(k.name, "twitter:")
  }

  /** A name whose first letter is not `t` is no Twitter card tag. */
  lemma NotTwitterName(n: string)
    requires |n| > 0 && n[0] != 't'
    ensures !TwitterKey(Named(n))
  {
    if |n| >= 8 {
      assert n[..8][0] == n[0];
    }
  }

  /** The Twitter card tags `updateMeta` writes; only `twitter:` name tags change. */
  function TwitterCard(meta: map<MetaKey, string>, title: string, description: string, image: string, url: string)
    : (r: map<MetaKey, string>)
    ensures forall k :: !TwitterKey(k) ==> (k in r <==> k in meta) && (k in meta ==> r[k] == meta[k])
    ensures title != "" ==> Named("twitter:title") in r && r[Named("twitter:title")] == title
    ensures description != "" ==> Named("twitter:description") in r && r[Named("twitter:description")] == description
    ensures image != "" ==> Named("twitter:image") in r && r[Named("twitter:image")] == image
    ensures url != "" ==> Named("twitter:url") in r && r[Named("twitter:url")] == url
  {
    TwitterKeys("twitter:", "twitter:title", "twitter:description", "twitter:image", "twitter:url");
    SetFourTwitter(meta, Named("twitter:title"), title, Named("twitter:description"), description,
                   Named("twitter:image"), image, Named("twitter:url"), url)
  }

  /** Four distinct Twitter card tags written in turn; no other tag changes. */
  function SetFourTwitter(meta: map<MetaKey, string>, k1: MetaKey, v1: string, k2: MetaKey, v2: string,
                          k3: MetaKey, v3: string, k4: MetaKey, v4: string): (r: map<MetaKey, string>)
    requires k1 != k2 && k1 != k3 && k1 != k4 && k2 != k3 && k2 != k4 && k3 != k4
    requires TwitterKey(k1) && TwitterKey(k2) && TwitterKey(k3) && TwitterKey(k4)
    ensures forall k :: !TwitterKey(k) ==> (k in r <==> k in meta) && (k in meta ==> r[k] == meta[k])
    ensures v1 != "" ==> k1 in r && r[k1] == v1
    ensures v2 != "" ==> k2 in r && r[k2] == v2
    ensures v3 != "" ==> k3 in r && r[k3] == v3
    ensures v4 != "" ==> k4 in r && r[k4] == v4
  {
    SetFour(meta, k1, v1, k2, v2, k3, v3, k4, v4)
  }

  lemma TwitterKeys(p: string, t: string, d: string, i: string, u: string)
    requires p == "twitter:"
    requires t == p + "title" && d == p + "description" && i == p + "image" && u == p + "url"
    ensures t != d && t != i && t != u && d != i && d != u && i != u
    ensures TwitterKey(Named(t)) && TwitterKey(Named(d)) && TwitterKey(Named(i)) && TwitterKey(Named(u))
  {
    assert t[8] != i[8] && |t| != |d| && |t| != |u| && |d| != |i| && |d| != |u| && |i| != |u|;
    assert t[..8] == p && d[..8] == p && i[..8] == p && u[..8] == p;
  }

  /** The arguments of `updateMeta`; `kind` is the `type` option, `website` unless given. */
  datatype MetaOptions = MetaOptions(
    title: string, description: string, keywords: string,
    image: string, url: string, kind: string)

  function OrElse(a: string, b: string): string {
    if a != "" then a else b
  }

  /** The description tag (the default when none is given) and, when given, the keywords tag. */
  function BaseTags(meta: map<MetaKey, string>, o: MetaOptions): (r: map<MetaKey, string>)
    ensures Named("description") in r && r[Named("description")] == OrElse(o.description, DefaultDescription)
    ensures o.keywords != "" ==> Named("keywords") in r && r[Named("keywords")] == o.keywords
    ensures o.keywords == "" ==> (Named("keywords") in r <==> Named("keywords") in meta)
  {
    DefaultsNonEmpty();
    var m1 := SetMeta(meta, Named("description"), OrElse(o.description, DefaultDescription));
    assert "description" != "keywords";
    if o.keywords != "" then SetMeta(m1, Named("keywords"), o.keywords) else m1
  }

  lemma DefaultsNonEmpty()
    ensures |DefaultDescription| > 0 && |DefaultImage| > 0
  {
  }

  /** The Twitter card written over the Open Graph tags repeats each non-empty value. */
  lemma CardsMirror(m: map<MetaKey, string>, t: string, d: string, i: string, u: string, kind: string)
    ensures var r := TwitterCard(OpenGraph(m, t, d, i, u, kind), t, d, i, u);
      d != "" ==> (Named("twitter:description") in r && Property("og:description") in r
                   && r[Named("twitter:description")] == r[Property("og:description")] == d)
    ensures var r := TwitterCard(OpenGraph(m, t, d, i, u, kind), t, d, i, u);
      i != "" ==> (Named("twitter:image") in r && Property("og:image") in r
                   && r[Named("twitter:image")] == r[Property("og:image")] == i)
    ensures var r := TwitterCard(OpenGraph(m, t, d, i, u, kind), t, d, i, u);
      u != "" ==> (Named("twitter:url") in r && Property("og:url") in r
                   && r[Named("twitter:url")] == r[Property("og:url")] == u)
    ensures var r := TwitterCard(OpenGraph(m, t, d, i, u, kind), t, d, i, u);
      t != "" ==> (Named("twitter:title") in r && Property("og:title") in r
                   && r[Named("twitter:title")] == r[Property("og:title")] == t)
  {
    var g := OpenGraph(m, t, d, i, u, kind);
    assert !TwitterKey(Property("og:description")) && !TwitterKey(Property("og:image"));
    assert !TwitterKey(Property("og:url")) && !TwitterKey(Property("og:title"));
  }

  /** Neither card touches a `name` tag outside `twitter:`. */
  lemma CardsKeepNamed(m: map<MetaKey, string>, t: string, d: string, i: string, u: string, kind: string, n: string)
    requires !TwitterKey(Named(n))
    ensures var r := TwitterCard(OpenGraph(m, t, d, i, u, kind), t, d, i, u);
      (Named(n) in r <==> Named(n) in m) && (Named(n) in m ==> r[Named(n)] == m[Named(n)])
  {
  }

  /**
   * The tags `updateMeta` writes, given the document title it has just set.
   * The description tag is always written (with the default when none is
   * given), keywords only when given, and the Twitter card repeats the Open
   * Graph values: description and image always (their defaults are
   * non-empty), title and URL whenever the value written is non-empty.
   */
  function MetaTags(meta: map<MetaKey, string>, o: MetaOptions, title: string, href: string): (r: map<MetaKey, string>)
    ensures Named("description") in r && r[Named("description")] == OrElse(o.description, DefaultDescription)
    ensures o.keywords != "" ==> Named("keywords") in r && r[Named("keywords")] == o.keywords
    ensures o.keywords == "" ==> (Named("keywords") in r <==> Named("keywords") in meta)
    ensures var d := OrElse(o.description, DefaultDescription);
      Named("twitter:description") in r && Property("og:description") in r
      && r[Named("twitter:description")] == r[Property("og:description")] == d
    ensures var i := OrElse(o.image, DefaultImage);
      Named("twitter:image") in r && Property("og:image") in r
      && r[Named("twitter:image")] == r[Property("og:image")] == i
    ensures var u := OrElse(o.url, href);
      u != "" ==> (Named("twitter:url") in r && Property("og:url") in r
                   && r[Named("twitter:url")] == r[Property("og:url")] == u)
    ensures var t := OrElse(o.title, title);
      t != "" ==> (Named("twitter:title") in r && Property("og:title") in r
                   && r[Named("twitter:title")] == r[Property("og:title")] == t)
  {
    var t := OrElse(o.title, title);
    var d := OrElse(o.description, DefaultDescription);
    var i := OrElse(o.image, DefaultImage);
    var u := OrElse(o.url, href);
    DefaultsNonEmpty();
    var m2 := BaseTags(meta, o);
    CardsMirror(m2, t, d, i, u, o.kind);
    assert "description"[0] == 'd' && "keywords"[0] == 'k';
    NotTwitterName("description");
    NotTwitterName("keywords");
    CardsKeepNamed(m2, t, d, i, u, o.kind, "description");
    CardsKeepNamed(m2, t, d, i, u, o.kind, "keywords");
    TwitterCard(OpenGraph(m2, t, d, i, u, o.kind), t, d, i, u)
  }

  /**
   * `updateMeta`, with the page's current `location.href` as a parameter:
   * the document title, the tags of MetaTags, and a canonical link that
   * never holds a fragment.
   */
  function UpdateMeta(h: Head, o: MetaOptions, href: string): (r: Head)
    ensures r.title == DocumentTitle(h.title, o.title)
    ensures Named("description") in r.meta && r.meta[Named("description")] == OrElse(o.description, DefaultDescription)
    ensures o.keywords != "" ==> Named("keywords") in r.meta && r.meta[Named("keywords")] == o.keywords
    ensures o.keywords == "" ==> (Named("keywords") in r.meta <==> Named("keywords") in h.meta)
    ensures o.title != "" ==> Property("og:title") in r.meta && r.meta[Property("og:title")] == o.title
    ensures r.canonical == CanonicalUrl(OrElse(o.url, href)) && '#' !in r.canonical
  {
    var title := DocumentTitle(h.title, o.title);
    Head(title, MetaTags(h.meta, o, title, href), CanonicalUrl(OrElse(o.url, href)))
  }

  /** After `updateMeta`, each Twitter card tag holds the value of its Open Graph counterpart. */
  lemma TwitterMirrorsOpenGraph(h: Head, o: MetaOptions, href: string)
    ensures var r := UpdateMeta(h, o, href).meta;
      Named("twitter:description") in r && Property("og:description") in r
      && r[Named("twitter:description")] == r[Property("og:description")]
      && Named("twitter:image") in r && Property("og:image") in r
      && r[Named("twitter:image")] == r[Property("og:image")]
    ensures var r := UpdateMeta(h, o, href).meta;
      OrElse(o.url, href) != "" ==>
        (Named("twitter:url") in r && r[Named("twitter:url")] == r[Property("og:url")] == OrElse(o.url, href))
    ensures var r := UpdateMeta(h, o, href).meta;
      o.title != "" ==>
        (Named("twitter:title") in r && r[Named("twitter:title")] == r[Property("og:title")] == o.title)
  {
    var title := DocumentTitle(h.title, o.title);
    assert UpdateMeta(h, o, href).meta == MetaTags(h.meta, o, title, href);
  }

  // ---------------------------------------------------------------------------
  // content helpers

  /**
   * `extractFirstImage`: the default for empty content; else the first
   * markdown http(s) image target, which wins over any HTML `<img>`; else the
   * first `<img src>` value; else the default.
   */
  function ExtractFirstImage(content: string): (r: string)
    ensures content == "" ==> r == DefaultImage
    ensures content != "" && |SR.ExtractImageUrls(content)| > 0 ==> r == SR.ExtractImageUrls(content)[0]
    ensures content != "" && |SR.ExtractImageUrls(content)| == 0 && |Utils.HtmlSources(content)| > 0
      ==> r == Utils.HtmlSources(content)[0]
    ensures content != "" && |SR.ExtractImageUrls(content)| == 0 && |Utils.HtmlSources(content)| == 0
      ==> r == DefaultImage
  {
    if content == "" then DefaultImage
    else match FirstMatch(MdHttpImage, content)
      case Some(m) => m.cap1
      case None =>
        match FirstMatch(ImgSrcAnyQuote, content)
        case Some(m) => m.cap1
        case None => DefaultImage
  }

  function LinkText(m: Match): string { m.cap1 }

  const MarkChars: set<char> := {'#', '*', '_', '~', '`'}

  /**
   * The strip pipeline shared by `generateDescription` and
   * `extractTextContent`: images removed, links reduced to their text, tags
   * removed, the characters # * _ ~ ` removed, whitespace runs collapsed to
   * one space, and the ends trimmed.
   */
  function StripMarkup(s: string): (r: string)
    ensures forall i :: 0 <= i < |r| ==> r[i] !in MarkChars
    ensures IsTrimmed(r)
    ensures forall i :: 0 <= i < |r| && IsSpace(r[i]) ==> r[i] == ' '
    ensures forall i :: 0 <= i && i + 1 < |r| ==> !(r[i] == ' ' && r[i + 1] == ' ')
  {
    var d := Unmark(s);
    TidyKeepsAbsent(d, MarkChars);
    Tidy(d)
  }


  /** Images, links, tags and the marker characters removed. */
  function Unmark(s: string): (r: string)
    ensures forall i :: 0 <= i < |r| ==> r[i] !in MarkChars
  {
    var a := ReplaceAll(MdImage, s, Nothing);
    var b := ReplaceAll(MdLink, a, LinkText);
    var c := ReplaceAll(TagNonEmpty, b, Nothing);
    RemoveChars(c, MarkChars)
  }

  /** `extractTextContent`: '' for empty content. */
  function ExtractTextContent(content: string): (r: string)
    ensures content == "" ==> r == ""
    ensures content != "" ==> r == StripMarkup(content)
  {
    if content == "" then "" else StripMarkup(content)
  }

  /**
   * `generateDescription`: the default for empty content; the stripped text
   * when it fits; otherwise its first `maxLength - 3` characters and `...`,
   * which is exactly `maxLength` long when `maxLength >= 3`.
   */
  function GenerateDescription(content: string, maxLength: nat): (r: string)
    ensures content == "" ==> r == DefaultDescription
    ensures content != "" && |StripMarkup(content)| > maxLength && maxLength >= 3 ==>
      |r| == maxLength && r[..maxLength - 3] == StripMarkup(content)[..maxLength - 3]
      && r[maxLength - 3..] == "..."
  {
    if content == "" then DefaultDescription
    else
      var text := StripMarkup(content);
      if |text| <= maxLength then text
      else
        // String.prototype.substring clamps a negative end to 0
        var cut := if maxLength >= 3 then maxLength - 3 else 0;
        var r := text[..cut] + "...";
        assert r[..cut] == text[..cut];
        r
  }

  /** A description that needs no cut is exactly the article text. */
  lemma UntruncatedDescription(content: string, maxLength: nat)
    requires content != ""
    requires |ExtractTextContent(content)| <= maxLength
    ensures GenerateDescription(content, maxLength) == ExtractTextContent(content)
  {
  }

  /** A description is never longer than its limit, once the limit leaves room for `...`. */
  lemma DescriptionBounded(content: string, maxLength: nat)
    requires content != "" && maxLength >= 3
    ensures |GenerateDescription(content, maxLength)| <= maxLength
  {
  }

  // ---------------------------------------------------------------------------
  // breadcrumb schema

  datatype Crumb = Crumb(name: string, url: string)
  datatype ListItem = ListItem(position: nat, name: string, item: string)

  /** `generateBreadcrumbSchema`: nothing for no items; otherwise positions 1..n in order. */
  function BreadcrumbItems(items: seq<Crumb>): (r: Option<seq<ListItem>>)
    ensures r.None? <==> |items| == 0
    ensures r.Some? ==> |r.value| == |items|
    ensures r.Some? ==> forall k :: 0 <= k < |items| ==>
      r.value[k].position == k + 1 && r.value[k].name == items[k].name && r.value[k].item == items[k].url
  {
    if |items| == 0 then None
    else Some(seq(|items|, k requires 0 <= k < |items| => ListItem(k + 1, items[k].name, items[k].url)))
  }

  /** Positions are strictly increasing. */
  lemma BreadcrumbPositionsIncrease(items: seq<Crumb>, j: nat, k: nat)
    requires j < k < |items|
    ensures BreadcrumbItems(items).value[j].position < BreadcrumbItems(items).value[k].position
  {
  }
}

=== FILE: sorting.dfy ===
/**
 * JavaScript's default `Array.prototype.sort` on strings, applied to the
 * contents of a `Set`: the distinct values in ascending code-unit order.
 * Characters are compared by code point, which agrees with UTF-16 code
 * units on the date strings this is used for.
 */
module Sorting {
  /** `a` sorts strictly before `b`: lexicographic, a proper prefix first. */
  predicate Below(a: string, b: string)
    decreases |a|
  {
    if |a| == 0 then |b| > 0
    else if |b| == 0 then false
    else a[0] < b[0] || (a[0] == b[0] && Below(a[1..], b[1..]))
  }

  lemma {:induction false} BelowIrreflexive(a: string)
    ensures !Below(a, a)
    decreases |a|
  {
    if |a| > 0 {
      BelowIrreflexive(a[1..]);
    }
  }

  lemma {:induction false} BelowTransitive(a: string, b: string, c: string)
    requires Below(a, b) && Below(b, c)
    ensures Below(a, c)
    decreases |a|
  {
    if |a| > 0 && a[0] == b[0] && b[0] == c[0] {
      BelowTransitive(a[1..], b[1..], c[1..]);
    }
  }

  /** Any two strings are equal or ordered one way round. */
  lemma {:induction false} BelowTotal(a: string, b: string)
    ensures a == b || Below(a, b) || Below(b, a)
    decreases |a|
  {
    if |a| > 0 && |b| > 0 && a[0] == b[0] {
      BelowTotal(a[1..], b[1..]);
      if a[1..] == b[1..] {
        assert a == [a[0]] + a[1..] && b == [b[0]] + b[1..];
      }
    }
  }

  lemma BelowAsymmetric(a: string, b: string)
    requires Below(a, b)
    ensures !Below(b, a)
  {
    if Below(b, a) {
      BelowTransitive(a, b, a);
      BelowIrreflexive(a);
    }
  }

  predicate Increasing(s: seq<string>) {
    forall i, j :: 0 <= i < j < |s| ==> Below(s[i], s[j])
  }

  predicate Decreasing(s: seq<string>) {
    forall i, j :: 0 <= i < j < |s| ==> Below(s[j], s[i])
  }

  /** Adds `x` to an increasing list unless it is there already. */
  function Insert(s: seq<string>, x: string): (r: seq<string>)
    requires Increasing(s)
    ensures Increasing(r)
    ensures forall y :: y in r <==> y in s || y == x
    decreases |s|
  {
    if |s| == 0 then [x]
    else if x == s[0] then s
    else if Below(x, s[0]) then
      forall j | 0 < j < |s| ensures Below(x, s[j]) {
        BelowTransitive(x, s[0], s[j]);
      }
      [x] + s
    else
      BelowTotal(x, s[0]);
      var t := Insert(s[1..], x);
      assert forall y :: y in s[1..] ==> y in s;
      forall j | 0 <= j < |t| ensures Below(s[0], t[j]) {
        assert t[j] in t;
        if t[j] != x {
          assert t[j] in s[1..];
          var k :| 0 <= k < |s[1..]| && s[1..][k] == t[j];
          assert s[k + 1] == t[j];
        }
      }
      assert forall y :: y in s ==> y == s[0] || y in s[1..];
      [s[0]] + t
  }

  /** `Array.from(new Set(xs)).sort()`: the distinct values of `xs`, ascending. */
  function SortDistinct(xs: seq<string>): (r: seq<string>)
    ensures Increasing(r)
    ensures forall y :: y in r <==> y in xs
    decreases |xs|
  {
    if |xs| == 0 then []
    else
      var n := |xs| - 1;
      var r := Insert(SortDistinct(xs[..n]), xs[n]);
      assert forall y :: y in xs <==> y in xs[..n] || y == xs[n] by {
        assert xs == xs[..n] + [xs[n]];
      }
      r
  }

  /** Two increasing lists with the same elements are the same list. */
  lemma {:induction false} IncreasingUnique(a: seq<string>, b: seq<string>)
    requires Increasing(a) && Increasing(b)
    requires forall y :: y in a <==> y in b
    ensures a == b
    decreases |a|
  {
    assert |a| > 0 ==> a[0] in b;
    assert |b| > 0 ==> b[0] in a;
    if |a| > 0 && |b| > 0 {
      // the heads are both the least element
      assert a[0] in a && b[0] in b;
      assert a[0] in b && b[0] in a;
      if a[0] != b[0] {
        var i :| 0 <= i < |b| && b[i] == a[0];
        var j :| 0 <= j < |a| && a[j] == b[0];
        assert i > 0 && j > 0;
        BelowAsymmetric(a[0], a[j]);
        assert false;
      }
      assert a == [a[0]] + a[1..] && b == [b[0]] + b[1..];
      BelowIrreflexive(a[0]);
      forall y | y in a[1..] ensures y in b[1..] {
        var k :| 1 <= k < |a| && a[k] == y;
        assert Below(a[0], a[k]);
        assert y in b && y != b[0];
      }
      forall y | y in b[1..] ensures y in a[1..] {
        var k :| 1 <= k < |b| && b[k] == y;
        assert Below(b[0], b[k]);
        assert y in a && y != a[0];
      }
      IncreasingUnique(a[1..], b[1..]);
    }
  }

  /** Sorting does not depend on the order or repetition of the input. */
  lemma SortDistinctBySet(xs: seq<string>, ys: seq<string>)
    requires forall y :: y in xs <==> y in ys
    ensures SortDistinct(xs) == SortDistinct(ys)
  {
    IncreasingUnique(SortDistinct(xs), SortDistinct(ys));
  }

  /** `.reverse()`. */
  function Reverse(s: seq<string>): (r: seq<string>)
    ensures |r| == |s|
    ensures forall i :: 0 <= i < |s| ==> r[i] == s[|s| - 1 - i]
  {
    seq(|s|, i requires 0 <= i < |s| => s[|s| - 1 - i])
  }

  lemma ReverseDecreasing(s: seq<string>)
    requires Increasing(s)
    ensures Decreasing(Reverse(s))
    ensures forall y :: y in Reverse(s) <==> y in s
  {
    var r := Reverse(s);
    forall y | y in s ensures y in r {
      var i :| 0 <= i < |s| && s[i] == y;
      assert r[|s| - 1 - i] == y;
    }
  }
}

=== FILE: structured_renderer.dfy ===
/**
 * The structured renderer: blog bodies arrive as lines in which a line
 * `[NEWLINE:k]` stands for k line breaks and `[IMAGE:n]` for the n-th image of
 * the post. The renderer strips a leading frontmatter block, interprets the
 * lines one by one, and can also convert legacy Markdown into this form.
 */
module StructuredRenderer {
  import opened Wrappers
  import opened Text
  import opened Patterns
  import MP = MarkdownProcessor

  // ---------------------------------------------------------------------------
  // frontmatter: a leading `---` up to the next `---`

  /** Drops everything through the first `---` at index 3 or later, then trims; otherwise unchanged. */
  function StripFrontmatter(s: string): (r: string)
    ensures !StartsWith(s, "---") ==> r == s
    ensures StartsWith(s, "---") && IndexOf(s, "---", 3).Some? ==> IsTrimmed(r) && |r| <= |s| - 6
  {
    if StartsWith(s, "---") then
      match IndexOf(s, "---", 3)
      case Some(e) => Trim(s[e + 3..])
      case None => s
    else s
  }

  /** The first `---` after the opening one is the one closing `meta`. */
  lemma ClosingDelimiter(meta: string, rest: string)
    requires !Contains(meta + "--", "---")
    ensures IndexOf("---" + meta + "---" + rest, "---", 3) == Some(3 + |meta|)
  {
    var d := "---";
    assert d[..2] == "--";
    ClosingDelimiterOf(d, meta, rest);
  }

  lemma ClosingDelimiterOf(d: string, meta: string, rest: string)
    requires d == "---" && !Contains(meta + d[..2], d)
    ensures IndexOf(d + meta + d + rest, d, 3) == Some(3 + |meta|)
  {
    var s := d + meta + d + rest;
    var m := meta + d[..2];
    forall j | 3 <= j < 3 + |meta| ensures !StartsWith(s[j..], d) {
      NotContainsAt(m, d, j - 3);
      assert s[j..j + 3] == m[j - 3..j];
    }
    assert s[3 + |meta|..][..3] == d;
    IndexOfFirst(s, d, 3, 3 + |meta|);
  }

  /** A frontmatter block closed by `---` is dropped and the rest trimmed. */
  lemma FrontmatterDropped(meta: string, body: string)
    requires !Contains(meta + "--", "---")
    ensures StripFrontmatter("---" + meta + "---" + body) == Trim(body)
  {
    var s := "---" + meta + "---" + body;
    ClosingDelimiter(meta, body);
    assert s[..3] == "---";
    assert s[3 + |meta| + 3..] == body;
  }

  /** Without a closing delimiter the content is left as it is. */
  lemma UnclosedFrontmatterKept(s: string)
    requires StartsWith(s, "---") && !Contains(s[3..], "---")
    ensures StripFrontmatter(s) == s
  {
    forall j | 3 <= j <= |s| ensures !StartsWith(s[j..], "---") {
      NotContainsAt(s[3..], "---", j - 3);
      assert s[3..][j - 3..] == s[j..];
    }
  }

  // ---------------------------------------------------------------------------
  // image lists

  /** The first captured group of each match. */
  function Captures(ms: seq<Match>): (r: seq<string>)
    ensures |r| == |ms| && forall k :: 0 <= k < |ms| ==> r[k] == ms[k].cap1
  {
    seq(|ms|, k requires 0 <= k < |ms| => ms[k].cap1)
  }

  /** `extractImageUrls`: the targets of markdown images whose target is an http(s) URL. */
  function ExtractImageUrls(s: string): seq<string> {
    Captures(MatchesOf(MdHttpImage, s))
  }

  /** The case-insensitive bare image-URL scan used as the fallback. */
  function BareImageUrls(s: string): seq<string> {
    Captures(MatchesOf(BareImageUrl, s))
  }

  /** A markdown image target: http(s) scheme, at least one more character, no `)`. */
  predicate HttpTarget(url: string) {
    0 < SchemeEnd(url) < |url| && forall k :: 0 <= k < |url| ==> url[k] != ')'
  }

  /**
   * `extractImageUrlsFromContent`: the markdown http(s) image targets when
   * there is at least one, otherwise the bare image URLs, each of which has an
   * http(s) scheme, no whitespace and an image extension at its end.
   */
  function ExtractImageUrlsFromContent(s: string): (r: seq<string>)
    ensures |ExtractImageUrls(s)| > 0 ==> r == ExtractImageUrls(s)
    ensures |ExtractImageUrls(s)| == 0 ==> r == BareImageUrls(s)
    ensures |ExtractImageUrls(s)| == 0 ==> forall k :: 0 <= k < |r| ==> ImageFileUrl(r[k])
  {
    var md := ExtractImageUrls(s);
    if |md| > 0 then md
    else
      BareMatchesShape(s);
      BareImageUrls(s)
  }

  lemma {:induction false} BareMatchesShape(s: string)
    ensures forall k :: 0 <= k < |MatchesOf(BareImageUrl, s)| ==> ImageFileUrl(MatchesOf(BareImageUrl, s)[k].cap1)
    decreases |s|
  {
    if |s| > 0 {
      match MatchAt(BareImageUrl, s)
      case Some(m) =>
        BareMatchesShape(s[m.len..]);
      case None =>
        BareMatchesShape(s[1..]);
    }
  }

  lemma {:induction false} MdHttpScan(t: string, a: nat, alt: string, url: string)
    requires 2 <= a <= 2 + |alt|
    requires MP.PlainAlt(alt) && HttpTarget(url)
    requires MP.ImageAhead(t, alt, url)
    ensures MdHttpImageFrom(t, a) == Some(Match(|alt| + |url| + 5, url, ""))
    decreases 2 + |alt| - a
  {
    if a < 2 + |alt| {
      assert t[a] == t[2..2 + |alt|][a - 2] == alt[a - 2];
      MdHttpSkipAlt(t, a);
      MdHttpScan(t, a + 1, alt, url);
    } else {
      MdHttpCloseAt(t, a, url);
    }
  }

  /** An alt-text character is stepped over. */
  lemma MdHttpSkipAlt(t: string, a: nat)
    requires 2 <= a < |t| && !IsLineTerminator(t[a]) && t[a] != ']'
    ensures MdHttpImageFrom(t, a) == MdHttpImageFrom(t, a + 1)
  {
  }

  lemma MdHttpCloseAt(t: string, a: nat, url: string)
    requires HttpTarget(url) && 2 <= a && a + 3 + |url| <= |t|
    requires t[a] == ']' && t[a + 1] == '(' && t[a + 2..a + 3 + |url|] == url + ")"
    ensures MdHttpImageFrom(t, a) == Some(Match(a + 3 + |url|, url, ""))
  {
    var n := a + 3 + |url|;
    assert t[a + 2..] == url + ")" + t[n..] by {
      assert t[a + 2..] == t[a + 2..n] + t[n..];
    }
    HttpTargetAt(t, a + 2, url, t[n..]);
    assert t[a + 2..a + 2 + |url|] == url by {
      assert t[a + 2..a + 2 + |url|] == t[a + 2..n][..|url|];
    }
  }

  lemma HttpTargetAt(t: string, j: nat, url: string, rest: string)
    requires HttpTarget(url)
    requires j <= |t| && t[j..] == url + ")" + rest
    ensures HttpTargetEnd(t, j) == Some(j + |url|)
  {
    assert t[j..] == url + (")" + rest);
    StartsWithConcat(url, ")" + rest, "https://");
    StartsWithConcat(url, ")" + rest, "http://");
    var b := j + SchemeEnd(url);
    forall k | b <= k < j + |url| ensures NotCloseParen(t[k]) {
      assert t[k] == t[j..][k - j] == url[k - j];
    }
    assert t[j + |url|] == t[j..][|url|] == ')';
    SpanWhileExact(t, b, j + |url|, NotCloseParen);
  }

  /** A markdown image with an http(s) target is matched whole, capturing the target. */
  lemma MdHttpImageMatches(alt: string, url: string, rest: string)
    requires MP.PlainAlt(alt) && HttpTarget(url)
    ensures MatchAt(MdHttpImage, MP.ImageSource(alt, url) + rest)
         == Some(Match(|MP.ImageSource(alt, url)|, url, ""))
  {
    MP.ImageAheadOf(alt, url, rest);
    MdHttpScan(MP.ImageSource(alt, url) + rest, 2, alt, url);
  }

  lemma MdHttpSkipsPrefix(pre: string, img: string, rest: string)
    requires !Contains(pre + "!", "![")
    requires |img| > 0 && img[0] == '!'
    ensures MatchesOf(MdHttpImage, pre + img + rest) == MatchesOf(MdHttpImage, img + rest)
  {
    MdHttpFreePrefix(pre, img, rest);
    ReplaceSkipsPrefix(MdHttpImage, pre, img + rest, MP.ImageRepl);
  }

  lemma MdHttpNumberedSkipsPrefix(pre: string, img: string, rest: string, k: nat)
    requires !Contains(pre + "!", "![")
    requires |img| > 0 && img[0] == '!'
    ensures NumberedReplace(MdHttpImage, pre + img + rest, MarkerRepl, k)
         == pre + NumberedReplace(MdHttpImage, img + rest, MarkerRepl, k)
  {
    MdHttpFreePrefix(pre, img, rest);
    NumberedSkipsPrefix(MdHttpImage, pre, img + rest, MarkerRepl, k);
  }

  lemma MdHttpFreePrefix(pre: string, img: string, rest: string)
    requires !Contains(pre + "!", "![")
    requires |img| > 0 && img[0] == '!'
    ensures pre + img + rest == pre + (img + rest)
    ensures forall i :: 0 <= i < |pre| ==> !Anchored(MdHttpImage, (pre + (img + rest))[i..])
  {
    assert (img + rest)[..1] == "!";
    LiteralFreePrefix(MdHttpImage, "![", pre, img + rest);
  }

  /**
   * The image list is built in order: text before the first image contributes
   * nothing, the image contributes its target, and the scan resumes after it.
   */
  lemma ExtractImageAt(pre: string, alt: string, url: string, rest: string)
    requires !Contains(pre + "!", "![")
    requires MP.PlainAlt(alt) && HttpTarget(url)
    ensures ExtractImageUrls(pre + MP.ImageSource(alt, url) + rest) == [url] + ExtractImageUrls(rest)
  {
    var img := MP.ImageSource(alt, url);
    MdHttpSkipsPrefix(pre, img, rest);
    MdHttpImageMatches(alt, url, rest);
    ReplaceAtMatch(MdHttpImage, img, rest, MP.ImageRepl);
    CapturesCons(Match(|img|, url, ""), MatchesOf(MdHttpImage, rest));
  }

  lemma CapturesCons(m: Match, ms: seq<Match>)
    ensures Captures([m] + ms) == [m.cap1] + Captures(ms)
  {
  }

  // ---------------------------------------------------------------------------
  // the line interpreter

  /** A whole line of the form head + digits + `]`. */
  predicate IsToken(line: string, head: string) {
    |line| > |head| + 1 && StartsWith(line, head) && line[|line| - 1] == ']'
    && AllDigits(line[|head|..|line| - 1])
  }

  function TokenNumber(line: string, head: string): nat
    requires IsToken(line, head)
  {
    ParseNat(line[|head|..|line| - 1])
  }

  /** The anchored scanner accepts exactly the lines of the token form. */
  lemma MarkerWhole(line: string, head: string)
    requires |head| > 0 && !IsDigit(head[|head| - 1])
    ensures (MarkerAt(line, head).Some? && MarkerAt(line, head).value.len == |line|) <==> IsToken(line, head)
    ensures IsToken(line, head) ==> ParseNat(MarkerAt(line, head).value.cap1) == TokenNumber(line, head)
  {
    if IsToken(line, head) {
      SpanWhileExact(line, |head|, |line| - 1, IsDigit);
    }
  }

  datatype LineKind = Blank | Breaks(count: nat) | ImageRef(num: nat) | TextLine(text: string)

  /** How a trimmed line is read: blank, `^\[NEWLINE:(\d+)\]$`, `^\[IMAGE:(\d+)\]$`, or text. */
  function Classify(line: string): (k: LineKind)
    ensures k.Blank? <==> line == ""
    ensures k.Breaks? <==> line != "" && IsToken(line, NewlineHead)
    ensures k.ImageRef? <==> line != "" && IsToken(line, ImageHead)
    ensures k.Breaks? ==> k.count == TokenNumber(line, NewlineHead)
    ensures k.ImageRef? ==> k.num == TokenNumber(line, ImageHead)
    ensures k.TextLine? ==> k.text == line
  {
    MarkerWhole(line, NewlineHead);
    MarkerWhole(line, ImageHead);
    TokenHeadsExclusive(line);
    if line == "" then Blank
    else
      var nl := MarkerAt(line, NewlineHead);
      if nl.Some? && nl.value.len == |line| then Breaks(ParseNat(nl.value.cap1))
      else
        var im := MarkerAt(line, ImageHead);
        if im.Some? && im.value.len == |line| then ImageRef(ParseNat(im.value.cap1))
        else TextLine(line)
  }

  lemma TokenHeadsExclusive(line: string)
    ensures !(IsToken(line, NewlineHead) && IsToken(line, ImageHead))
  {
    if IsToken(line, NewlineHead) {
      assert line[1] == 'N' by { assert line[..|NewlineHead|] == NewlineHead; }
      assert !StartsWith(line, ImageHead) by { assert ImageHead[1] == 'I'; }
    }
  }

  function ImageElement(url: string, n: nat): string {
    "<img src=\"" + url + "\" alt=\"图片" + NatToString(n) + "\" class=\"w-full my-4 rounded-lg\" loading=\"lazy\" />"
  }

  function Placeholder(n: nat): string {
    "<!-- Image " + NatToString(n) + " placeholder -->"
  }

  /** `images[n - 1]` if it exists and is non-empty; for n = 0 the index -1 reads undefined. */
  function ImageHtml(images: seq<string>, n: nat): string {
    if 1 <= n <= |images| && images[n - 1] != "" then ImageElement(images[n - 1], n) else Placeholder(n)
  }

  predicate StartsToken(t: string) {
    StartsWith(t, NewlineHead) || StartsWith(t, ImageHead)
  }

  /** A text line is followed by a newline when the next raw line, trimmed, is non-blank text. */
  predicate BreakAfter(lines: seq<string>, i: nat) {
    i + 1 < |lines| && Trim(lines[i + 1]) != "" && !StartsToken(Trim(lines[i + 1]))
  }

  function FallbackImageRepl(m: Match): string {
    "<img src=\"" + m.cap2 + "\" alt=\"" + m.cap1 + "\" />"
  }

  /** The two-step rewrite used when the Markdown processor is not loaded. */
  function FallbackInline(s: string): string {
    ReplaceAll(Bold, ReplaceAll(MdImage, s, FallbackImageRepl), MP.BoldRepl)
  }

  /** The fallback rewrite leaves text without `![` and `**` alone. */
  lemma InertFallbackUnchanged(s: string)
    requires MP.Inert(s)
    ensures FallbackInline(s) == s
  {
    AbsentLiteralUnanchored(MdImage, s, "![");
    UnanchoredUnchanged(MdImage, s, FallbackImageRepl);
    AbsentLiteralUnanchored(Bold, s, "**");
    UnanchoredUnchanged(Bold, s, MP.BoldRepl);
  }

  /** A text line goes through the Markdown processor if it is loaded, else the fallback. */
  function Inline(line: string, processorLoaded: bool): string {
    if processorLoaded then MP.Process(line) else FallbackInline(line)
  }

  /** What line `i` contributes to the output. */
  function RenderLine(lines: seq<string>, i: nat, images: seq<string>, processorLoaded: bool): string
    requires i < |lines|
  {
    match Classify(Trim(lines[i]))
    case Blank => ""
    case Breaks(k) => Repeat("<br>", k)
    case ImageRef(n) => ImageHtml(images, n)
    case TextLine(t) => Inline(t, processorLoaded) + (if BreakAfter(lines, i) then "\n" else "")
  }

  function RenderFrom(lines: seq<string>, i: nat, images: seq<string>, processorLoaded: bool): string
    requires i <= |lines|
    decreases |lines| - i
  {
    if i == |lines| then ""
    else RenderLine(lines, i, images, processorLoaded) + RenderFrom(lines, i + 1, images, processorLoaded)
  }

  /** A non-empty list extracted from the whole content, frontmatter included, replaces the caller's. */
  function EffectiveImages(content: string, images: seq<string>): (r: seq<string>)
    ensures |ExtractImageUrlsFromContent(content)| > 0 ==> r == ExtractImageUrlsFromContent(content)
    ensures |ExtractImageUrlsFromContent(content)| == 0 ==> r == images
  {
    var extracted := ExtractImageUrlsFromContent(content);
    if |extracted| > 0 then extracted else images
  }

  /** `renderStructuredContent` as a function of its inputs. */
  function StructuredHtml(content: string, images: seq<string>, processorLoaded: bool): string {
    if content == "" then ""
    else RenderFrom(Lines(StripFrontmatter(content)), 0, EffectiveImages(content, images), processorLoaded)
  }

  /** The renderer's loop: each line's piece is appended in order. */
  method RenderStructuredContent(content: string, images: seq<string>, processorLoaded: bool) returns (html: string)
    ensures html == StructuredHtml(content, images, processorLoaded)
  {
    if content == "" {
      return "";
    }
    var imgs := EffectiveImages(content, images);
    var lines := Lines(StripFrontmatter(content));
    html := "";
    var i := 0;
    while i < |lines|
      invariant 0 <= i <= |lines|
      invariant html + RenderFrom(lines, i, imgs, processorLoaded) == RenderFrom(lines, 0, imgs, processorLoaded)
    {
      var piece := RenderLine(lines, i, imgs, processorLoaded);
      RenderFromStep(html, lines, i, imgs, processorLoaded);
      html := html + piece;
      i := i + 1;
    }
  }

  /** One more line's piece moves from the rest of the rendering to the output. */
  lemma RenderFromStep(html: string, lines: seq<string>, i: nat, images: seq<string>, loaded: bool)
    requires i < |lines|
    ensures html + RenderFrom(lines, i, images, loaded)
         == (html + RenderLine(lines, i, images, loaded)) + RenderFrom(lines, i + 1, images, loaded)
  {
  }

  /** A line that trims to `[NEWLINE:d]` contributes exactly `d` copies of `<br>` and nothing else. */
  lemma NewlineLine(lines: seq<string>, i: nat, images: seq<string>, loaded: bool, d: string)
    requires i < |lines| && |d| > 0 && AllDigits(d)
    requires Trim(lines[i]) == NewlineHead + d + "]"
    ensures RenderLine(lines, i, images, loaded) == Repeat("<br>", ParseNat(d))
  {
    TokenOfParts(Trim(lines[i]), NewlineHead, d);
  }

  /** A line that trims to `[IMAGE:d]` yields the image or placeholder for number d. */
  lemma ImageLine(lines: seq<string>, i: nat, images: seq<string>, loaded: bool, d: string)
    requires i < |lines| && |d| > 0 && AllDigits(d)
    requires Trim(lines[i]) == ImageHead + d + "]"
    ensures RenderLine(lines, i, images, loaded) == ImageHtml(images, ParseNat(d))
  {
    TokenOfParts(Trim(lines[i]), ImageHead, d);
  }

  /** Head, digits and `]` make a token whose number is the digits' value. */
  lemma TokenOfParts(line: string, head: string, d: string)
    requires |d| > 0 && AllDigits(d)
    requires line == head + d + "]"
    ensures IsToken(line, head) && TokenNumber(line, head) == ParseNat(d)
  {
    assert line[|head|..|line| - 1] == d;
    assert line[..|head|] == head;
  }

  /** Blank lines contribute nothing. */
  lemma BlankLine(lines: seq<string>, i: nat, images: seq<string>, loaded: bool)
    requires i < |lines| && Trim(lines[i]) == ""
    ensures RenderLine(lines, i, images, loaded) == ""
  {
  }

  /**
   * A text line (anything else, including look-alikes such as `[NEWLINE:abc]`
   * or a token with other text around it) is rewritten inline and followed by
   * a newline exactly when the next line is non-blank text; the last line
   * never gets one.
   */
  lemma TextLineBreak(lines: seq<string>, i: nat, images: seq<string>, loaded: bool)
    requires i < |lines|
    requires Trim(lines[i]) != ""
    requires !IsToken(Trim(lines[i]), NewlineHead) && !IsToken(Trim(lines[i]), ImageHead)
    ensures RenderLine(lines, i, images, loaded)
         == Inline(Trim(lines[i]), loaded) + (if BreakAfter(lines, i) then "\n" else "")
    ensures i == |lines| - 1 ==> RenderLine(lines, i, images, loaded) == Inline(Trim(lines[i]), loaded)
  {
  }

  // ---------------------------------------------------------------------------
  // converting legacy Markdown

  predicate IsNewlineChar(c: char) { c == '\n' }

  /** `^` under the multiline flag: the start, or just after a line terminator. */
  predicate LineStart(s: string, p: nat) {
    p == 0 || (p <= |s| && IsLineTerminator(s[p - 1]))
  }

  /**
   * End of `^---[\s\S]*?---` followed by a greedy run of `tail` characters
   * (`\n*` here, `\s*` in the list-page preview), when it matches at `p`.
   */
  function FrontmatterAt(s: string, p: nat, tail: char -> bool): (r: Option<nat>)
    requires p <= |s|
    ensures r.Some? ==> p + 6 <= r.value <= |s|
  {
    if LineStart(s, p) && StartsWith(s[p..], "---") then
      match IndexOf(s, "---", p + 3)
      case Some(q) => Some(SpanWhile(s, q + 3, tail))
      case None => None
    else None
  }

  /** The first position where the frontmatter pattern matches, and where the match ends. */
  function FindFrontmatter(s: string, p: nat, tail: char -> bool): (r: Option<(nat, nat)>)
    requires p <= |s|
    ensures r.Some? ==> p <= r.value.0 <= r.value.1 <= |s|
    decreases |s| - p
  {
    match FrontmatterAt(s, p, tail)
    case Some(e) => Some((p, e))
    case None => if p == |s| then None else FindFrontmatter(s, p + 1, tail)
  }

  lemma {:induction false} NoDashesNoFrontmatter(s: string, p: nat, tail: char -> bool)
    requires p <= |s| && !Contains(s, "---")
    ensures FindFrontmatter(s, p, tail).None?
    decreases |s| - p
  {
    NotContainsAt(s, "---", p);
    if p < |s| {
      NoDashesNoFrontmatter(s, p + 1, tail);
    }
  }

  /** The non-global replace of the frontmatter pattern by ''. */
  function RemoveFrontmatterBlock(s: string, tail: char -> bool): (r: string)
    ensures !Contains(s, "---") ==> r == s
    ensures |r| <= |s|
  {
    if !Contains(s, "---") then
      NoDashesNoFrontmatter(s, 0, tail);
      s
    else
      match FindFrontmatter(s, 0, tail)
      case Some((p, e)) => s[..p] + s[e..]
      case None => s
  }

  /** A block at the very start, with the newlines after it, is removed. */
  lemma LeadingBlockRemoved(meta: string, nl: string, body: string, tail: char -> bool)
    requires !Contains(meta + "--", "---")
    requires forall k :: 0 <= k < |nl| ==> tail(nl[k])
    requires body == [] || !tail(body[0])
    ensures RemoveFrontmatterBlock("---" + meta + "---" + nl + body, tail) == body
  {
    var s := "---" + meta + "---" + nl + body;
    var q := 3 + |meta|;
    assert s == "---" + meta + "---" + (nl + body);
    ClosingDelimiter(meta, nl + body);
    assert s[..3] == "---";
    LeadingNewlines(s, q + 3, nl, body, tail);
    LeadingFrontmatter(s, q, q + 3 + |nl|, tail);
  }

  lemma LeadingNewlines(s: string, b: nat, nl: string, body: string, tail: char -> bool)
    requires b <= |s| && s[b..] == nl + body
    requires forall k :: 0 <= k < |nl| ==> tail(nl[k])
    requires body == [] || !tail(body[0])
    ensures SpanWhile(s, b, tail) == b + |nl| && s[b + |nl|..] == body
  {
    forall k | b <= k < b + |nl| ensures tail(s[k]) {
      assert s[k] == s[b..][k - b] == nl[k - b];
    }
    assert s[b + |nl|..] == s[b..][|nl|..] == body;
    SpanWhileExact(s, b, b + |nl|, tail);
  }

  /** A block opening the content is what the non-global replace removes. */
  lemma LeadingFrontmatter(s: string, q: nat, e: nat, tail: char -> bool)
    requires StartsWith(s, "---") && IndexOf(s, "---", 3) == Some(q)
    requires q + 3 <= e <= |s| && SpanWhile(s, q + 3, tail) == e
    ensures RemoveFrontmatterBlock(s, tail) == s[e..]
  {
    ContainsAt(s, "---", 0);
    assert s[0..] == s;
    assert FrontmatterAt(s, 0, tail) == Some(e);
    assert s[..0] + s[e..] == s[e..];
  }

  function MarkerRepl(k: nat, m: Match): string {
    ImageHead + NatToString(k) + "]"
  }

  /** Every markdown http(s) image replaced by `[IMAGE:k]`, numbered from 1. */
  function NumberImages(s: string): string {
    NumberedReplace(MdHttpImage, s, MarkerRepl, 1)
  }

  /** The image numbered k becomes `[IMAGE:k]` and the next one is numbered k + 1. */
  lemma NumberImageAt(pre: string, alt: string, url: string, rest: string, k: nat)
    requires !Contains(pre + "!", "![")
    requires MP.PlainAlt(alt) && HttpTarget(url)
    ensures NumberedReplace(MdHttpImage, pre + MP.ImageSource(alt, url) + rest, MarkerRepl, k)
         == pre + ImageHead + NatToString(k) + "]" + NumberedReplace(MdHttpImage, rest, MarkerRepl, k + 1)
  {
    var img := MP.ImageSource(alt, url);
    var marker := ImageHead + NatToString(k) + "]";
    var tail := NumberedReplace(MdHttpImage, rest, MarkerRepl, k + 1);
    MdHttpNumberedSkipsPrefix(pre, img, rest, k);
    NumberImageHere(alt, url, rest, k);
    MarkerRegrouped(pre, ImageHead, NatToString(k), tail);
  }

  lemma MarkerRegrouped(pre: string, head: string, d: string, tail: string)
    ensures pre + (head + d + "]" + tail) == pre + head + d + "]" + tail
  {
  }

  /** An image at the very start becomes the marker numbered k. */
  lemma NumberImageHere(alt: string, url: string, rest: string, k: nat)
    requires MP.PlainAlt(alt) && HttpTarget(url)
    ensures NumberedReplace(MdHttpImage, MP.ImageSource(alt, url) + rest, MarkerRepl, k)
         == ImageHead + NatToString(k) + "]" + NumberedReplace(MdHttpImage, rest, MarkerRepl, k + 1)
  {
    var img := MP.ImageSource(alt, url);
    MdHttpImageMatches(alt, url, rest);
    NumberedAtMatch(MdHttpImage, img, rest, MarkerRepl, k);
  }

  /** The output lines of the converter: a run of k blank lines, or one trimmed text line. */
  datatype Entry = Gap(count: nat) | Kept(text: string)

  /** How many input lines an entry stands for. */
  function Weight(es: seq<Entry>): nat {
    if |es| == 0 then 0
    else (match es[0] case Gap(k) => k case Kept(_) => 1) + Weight(es[1..])
  }

  function KeptTexts(es: seq<Entry>): seq<string> {
    if |es| == 0 then []
    else (match es[0] case Gap(_) => [] case Kept(t) => [t]) + KeptTexts(es[1..])
  }

  /** The non-blank input lines, trimmed, in order. */
  function NonBlank(lines: seq<string>): seq<string> {
    if |lines| == 0 then []
    else (if Trim(lines[0]) == "" then [] else [Trim(lines[0])]) + NonBlank(lines[1..])
  }

  lemma {:induction false} WeightAppend(a: seq<Entry>, b: seq<Entry>)
    ensures Weight(a + b) == Weight(a) + Weight(b)
    ensures KeptTexts(a + b) == KeptTexts(a) + KeptTexts(b)
    decreases |a|
  {
    if |a| > 0 {
      assert (a + b)[1..] == a[1..] + b;
      WeightAppend(a[1..], b);
    } else {
      assert a + b == b;
    }
  }

  /**
   * The blank-run grouping. `run` counts the blank lines already seen. Every
   * input line is accounted for once, the text lines survive trimmed and in
   * order, every gap is at least one line, and no two gaps are adjacent, so
   * each gap is a maximal run.
   */
  function GroupLines(lines: seq<string>, run: nat): (es: seq<Entry>)
    ensures Weight(es) == |lines| + run
    ensures KeptTexts(es) == NonBlank(lines)
    ensures WellGrouped(es)
    ensures (|lines| > 0 || run > 0) ==> |es| > 0
    ensures run > 0 ==> es[0].Gap?
    decreases |lines|
  {
    if |lines| == 0 then
      if run > 0 then [Gap(run)] else []
    else
      var t := Trim(lines[0]);
      if t == "" then GroupLines(lines[1..], run + 1)
      else
        var tail := GroupLines(lines[1..], 0);
        GroupKept(run, t, tail);
        GroupHead(run, t) + tail
  }

  /**
   * Every gap is at least one line, no two gaps are adjacent (so each gap is
   * a maximal run), and every kept text is non-empty and trimmed.
   */
  predicate WellGrouped(es: seq<Entry>) {
    && (forall k :: 0 <= k < |es| && es[k].Gap? ==> es[k].count >= 1)
    && (forall k :: 0 <= k < |es| - 1 ==> !(es[k].Gap? && es[k + 1].Gap?))
    && (forall k :: 0 <= k < |es| && es[k].Kept? ==> es[k].text != "" && IsTrimmed(es[k].text))
  }

  /** The entries a text line emits: the pending gap, if any, then the line. */
  function GroupHead(run: nat, t: string): seq<Entry> {
    (if run > 0 then [Gap(run)] else []) + [Kept(t)]
  }

  lemma GroupKept(run: nat, t: string, tail: seq<Entry>)
    requires t != "" && IsTrimmed(t) && WellGrouped(tail)
    ensures Weight(GroupHead(run, t) + tail) == run + 1 + Weight(tail)
    ensures KeptTexts(GroupHead(run, t) + tail) == [t] + KeptTexts(tail)
    ensures WellGrouped(GroupHead(run, t) + tail)
    ensures run > 0 ==> (GroupHead(run, t) + tail)[0].Gap?
  {
    var head := GroupHead(run, t);
    WeightAppend(head, tail);
    WeightAppend(head[..|head| - 1], [Kept(t)]);
    assert head[..|head| - 1] + [Kept(t)] == head;
    var es := head + tail;
    forall k | 0 <= k < |es| - 1 ensures !(es[k].Gap? && es[k + 1].Gap?) {
      if k + 1 < |head| {
        assert es[k + 1] == head[k + 1] == Kept(t);
      } else if k + 1 > |head| {
        assert es[k] == tail[k - |head|] && es[k + 1] == tail[k - |head| + 1];
      } else {
        assert es[k] == head[|head| - 1] == Kept(t);
      }
    }
  }

  function EntryLine(e: Entry): string {
    match e
    case Gap(k) => NewlineHead + NatToString(k) + "]"
    case Kept(t) => t
  }

  function EntryLines(es: seq<Entry>): (r: seq<string>)
    ensures |r| == |es| && forall k :: 0 <= k < |es| ==> r[k] == EntryLine(es[k])
  {
    seq(|es|, k requires 0 <= k < |es| => EntryLine(es[k]))
  }

  predicate HasMarker(s: string) {
    Contains(s, NewlineHead) || Contains(s, ImageHead)
  }

  /** The lines the converter joins, for content without markers. */
  function ConvertedEntries(md: string): seq<Entry> {
    GroupLines(Lines(NumberImages(RemoveFrontmatterBlock(md, IsNewlineChar))), 0)
  }

  /** `convertToStructuredFormat`. */
  function ConvertToStructuredFormat(md: string): (r: string)
    ensures md == "" ==> r == ""
    ensures HasMarker(md) ==> r == md
  {
    if md == "" then ""
    else if HasMarker(md) then md
    else Join(EntryLines(ConvertedEntries(md)), '\n')
  }

  lemma EntryLineShape(e: Entry)
    requires e.Gap? ==> e.count >= 1
    requires e.Kept? ==> e.text != "" && IsTrimmed(e.text) && '\n' !in e.text
    ensures '\n' !in EntryLine(e)
    ensures Trim(EntryLine(e)) != ""
  {
    match e
    case Gap(k) =>
      var d := NatToString(k);
      var line := NewlineHead + d + "]";
      assert line[0] == '[';
      assert forall j :: 0 <= j < |d| ==> IsDigit(d[j]);
      assert forall j :: 0 <= j < |line| ==> line[j] != '\n' by {
        forall j | 0 <= j < |line| ensures line[j] != '\n' {
          if |NewlineHead| <= j < |NewlineHead| + |d| {
            assert line[j] == d[j - |NewlineHead|];
          }
        }
      }
    case Kept(t) =>
      TrimOfTrimmed(t);
  }

  /**
   * Content without markers is converted into lines none of which is blank, and
   * those lines are exactly the converter's entries.
   */
  lemma ConvertedLines(md: string)
    requires md != "" && !HasMarker(md)
    ensures Lines(ConvertToStructuredFormat(md)) == EntryLines(ConvertedEntries(md))
    ensures forall k :: 0 <= k < |Lines(ConvertToStructuredFormat(md))| ==> Trim(Lines(ConvertToStructuredFormat(md))[k]) != ""
  {
    var src := Lines(NumberImages(RemoveFrontmatterBlock(md, IsNewlineChar)));
    var es := ConvertedEntries(md);
    var parts := EntryLines(es);
    forall k | 0 <= k < |es| ensures '\n' !in parts[k] && Trim(parts[k]) != "" {
      if es[k].Kept? {
        KeptComesFromLine(src, 0, es[k].text);
      }
      EntryLineShape(es[k]);
    }
    SplitJoin(parts, '\n');
  }

  /** A kept text is a trimmed input line, so it has no newline. */
  lemma KeptComesFromLine(lines: seq<string>, run: nat, t: string)
    requires forall k :: 0 <= k < |lines| ==> '\n' !in lines[k]
    requires Kept(t) in GroupLines(lines, run)
    ensures '\n' !in t
  {
    var es := GroupLines(lines, run);
    var k :| 0 <= k < |es| && es[k] == Kept(t);
    KeptInTexts(es, k);
    NonBlankNoNewline(lines);
  }

  lemma {:induction false} KeptInTexts(es: seq<Entry>, k: nat)
    requires k < |es| && es[k].Kept?
    ensures es[k].text in KeptTexts(es)
    decreases k
  {
    if k > 0 {
      KeptInTexts(es[1..], k - 1);
      assert es[1..][k - 1] == es[k];
    }
  }

  lemma {:induction false} NonBlankNoNewline(lines: seq<string>)
    requires forall k :: 0 <= k < |lines| ==> '\n' !in lines[k]
    ensures forall k :: 0 <= k < |NonBlank(lines)| ==> '\n' !in NonBlank(lines)[k]
    decreases |lines|
  {
    if |lines| > 0 {
      TrimKeepsAbsence(lines[0], '\n');
      NonBlankNoNewline(lines[1..]);
    }
  }

  // ---------------------------------------------------------------------------
  // format detection and the unified entry point

  datatype Format = Structured | Markdown | Unknown

  predicate HasMarkdown(s: string) {
    Contains(s, "![") || Contains(s, "**") || Contains(s, "##")
  }

  /** Markers win over Markdown syntax; empty content is unknown. */
  function DetectContentFormat(s: string): (f: Format)
    ensures f == Structured <==> s != "" && HasMarker(s)
    ensures f == Markdown <==> s != "" && !HasMarker(s) && HasMarkdown(s)
    ensures f == Unknown <==> s == "" || (!HasMarker(s) && !HasMarkdown(s))
  {
    if s == "" then Unknown
    else if HasMarker(s) then Structured
    else if HasMarkdown(s) then Markdown
    else Unknown
  }

  /** `renderContent`: dispatch on the detected format; plain text only gets `<br>` for each newline. */
  function RenderContent(content: string, images: seq<string>, processorLoaded: bool): (r: string)
    ensures DetectContentFormat(content) == Unknown ==> '\n' !in r && r == ReplaceChar(content, '\n', "<br>")
    ensures DetectContentFormat(content) == Structured ==> r == StructuredHtml(content, images, processorLoaded)
    ensures DetectContentFormat(content) == Markdown ==>
      r == StructuredHtml(ConvertToStructuredFormat(content), images, processorLoaded)
  {
    match DetectContentFormat(content)
    case Structured => StructuredHtml(content, images, processorLoaded)
    case Markdown => StructuredHtml(ConvertToStructuredFormat(content), images, processorLoaded)
    case Unknown => ReplaceChar(content, '\n', "<br>")
  }

  /** Plain text renders as its lines joined by `<br>`. */
  lemma PlainContentLines(content: string, images: seq<string>, processorLoaded: bool)
    requires DetectContentFormat(content) == Unknown
    ensures RenderContent(content, images, processorLoaded) == JoinBy(Lines(content), "<br>")
  {
    ReplaceCharSplitJoin(content, '\n', "<br>");
  }
}

=== FILE: text.dfy ===
/** Small optional-value wrapper shared by every module of the model. */
module Wrappers {
  datatype Option<+T> = None | Some(value: T) {
    function GetOr(default: T): T {
      match this
      case Some(v) => v
      case None => default
    }
  }
}

/**
 * String helpers with the exact JavaScript semantics the application relies on:
 * the `\s` / `trim` whitespace set, `.` excluding line terminators, `indexOf`,
 * `split` on one character, `startsWith`, `includes`, `padStart`, decimal
 * conversion of naturals and ASCII-only `toLowerCase`.
 * Strings are sequences of Unicode code points (not UTF-16 code units).
 */
module Text {
  import opened Wrappers

  /** Line terminators: the characters the regex `.` does not match. */
  predicate IsLineTerminator(c: char) {
    c == '\n' || c == '\r' || c == '\U{2028}' || c == '\U{2029}'
  }

  /** The JavaScript whitespace set used by `\s` and by `String.prototype.trim`. */
  predicate IsSpace(c: char) {
    || IsLineTerminator(c)
    || c == ' ' || c == '\t' || c == '\U{0B}' || c == '\U{0C}'
    || c == '\U{A0}' || c == '\U{1680}'
    || ('\U{2000}' <= c <= '\U{200A}')
    || c == '\U{202F}' || c == '\U{205F}' || c == '\U{3000}' || c == '\U{FEFF}'
  }

  predicate IsDigit(c: char) {
    '0' <= c <= '9'
  }

  predicate AllDigits(s: string) {
    forall i :: 0 <= i < |s| ==> IsDigit(s[i])
  }

  predicate NoSpace(s: string) {
    forall i :: 0 <= i < |s| ==> !IsSpace(s[i])
  }

  predicate StartsWith(s: string, p: string) {
    |p| <= |s| && s[..|p|] == p
  }

  /** A prefix no longer than `s` is unaffected by what follows `s`. */
  lemma StartsWithConcat(s: string, rest: string, p: string)
    requires |p| <= |s|
    ensures StartsWith(s + rest, p) == StartsWith(s, p)
  {
    assert (s + rest)[..|p|] == s[..|p|];
  }

  /** Trimmed: no whitespace at either end. */
  predicate IsTrimmed(s: string) {
    |s| == 0 || (!IsSpace(s[0]) && !IsSpace(s[|s| - 1]))
  }

  // ---------------------------------------------------------------------------
  // indexOf / includes

  /** `s.indexOf(p, from)`: the first index at or after `from` where `p` occurs. */
  function IndexOf(s: string, p: string, from: nat): (r: Option<nat>)
    ensures r.Some? ==> from <= r.value <= |s| && StartsWith(s[r.value..], p)
    ensures r.Some? ==> forall j :: from <= j < r.value ==> !StartsWith(s[j..], p)
    ensures r.None? ==> forall j :: from <= j <= |s| ==> !StartsWith(s[j..], p)
    decreases |s| - from
  {
    if from > |s| then None
    else if StartsWith(s[from..], p) then Some(from)
    else IndexOf(s, p, from + 1)
  }

  /** `s.includes(p)`. */
  predicate Contains(s: string, p: string) {
    IndexOf(s, p, 0).Some?
  }

  lemma ContainsAt(s: string, p: string, i: nat)
    requires i <= |s| && StartsWith(s[i..], p)
    ensures Contains(s, p)
  {
  }

  lemma ContainsWitness(s: string, p: string) returns (i: nat)
    requires Contains(s, p)
    ensures i <= |s| && StartsWith(s[i..], p)
  {
    i := IndexOf(s, p, 0).value;
  }

  /** A character that does not occur is not a substring. */
  lemma AbsentCharNotContained(s: string, c: char)
    requires c !in s
    ensures !Contains(s, [c])
  {
    forall i | 0 <= i <= |s| ensures !StartsWith(s[i..], [c]) {
      if i < |s| {
        assert s[i..][0] == s[i];
      }
    }
  }

  /** A pattern whose first character does not occur is not a substring. */
  lemma AbsentHeadNotContained(s: string, p: string)
    requires |p| > 0 && p[0] !in s
    ensures !Contains(s, p)
  {
    forall i | 0 <= i <= |s| ensures !StartsWith(s[i..], p) {
      if i < |s| {
        assert s[i..][0] == s[i];
      }
    }
  }

  /** A pattern with a character that does not occur in `s` is not a substring of `s`. */
  lemma AbsentCharOfPattern(s: string, p: string, k: nat)
    requires k < |p| && p[k] !in s
    ensures !Contains(s, p)
  {
    forall i | 0 <= i <= |s| ensures !StartsWith(s[i..], p) {
      if i + k < |s| {
        assert s[i..][k] == s[i + k];
      }
    }
  }

  lemma NoBracketNoBang(s: string)
    requires !Contains(s, "[")
    ensures !Contains(s, "![")
  {
    forall i | 0 <= i <= |s| ensures !StartsWith(s[i..], "![") {
      if i + 1 <= |s| {
        NotContainsAt(s, "[", i + 1);
        assert i + 2 <= |s| ==> s[i..][1] == s[i + 1..][0];
      }
    }
  }

  lemma NotContainsAt(s: string, p: string, i: nat)
    requires !Contains(s, p) && i <= |s|
    ensures !StartsWith(s[i..], p)
  {
  }

  /** A pattern found in a slice of `s` is found in `s`. */
  lemma ContainsSlice(s: string, lo: nat, hi: nat, p: string)
    requires lo <= hi <= |s| && Contains(s[lo..hi], p)
    ensures Contains(s, p)
  {
    var i := ContainsWitness(s[lo..hi], p);
    assert s[lo..hi][i..][..|p|] == s[lo + i..][..|p|];
    ContainsAt(s, p, lo + i);
  }

  // ---------------------------------------------------------------------------
  // trim

  function LeadingSpaces(s: string): (n: nat)
    ensures n <= |s|
    ensures forall i :: 0 <= i < n ==> IsSpace(s[i])
    ensures n == |s| || !IsSpace(s[n])
  {
    if |s| > 0 && IsSpace(s[0]) then 1 + LeadingSpaces(s[1..]) else 0
  }

  function TrailingSpaces(s: string): (n: nat)
    ensures n <= |s|
    ensures forall i :: |s| - n <= i < |s| ==> IsSpace(s[i])
    ensures n == |s| || !IsSpace(s[|s| - n - 1])
  {
    if |s| > 0 && IsSpace(s[|s| - 1]) then 1 + TrailingSpaces(s[..|s| - 1]) else 0
  }

  /** `s.trim()`: drop whitespace at both ends and keep the middle untouched. */
  function Trim(s: string): (r: string)
    ensures IsTrimmed(r)
    ensures |r| <= |s| && LeadingSpaces(s) + |r| <= |s|
    ensures r == s[LeadingSpaces(s)..LeadingSpaces(s) + |r|]
    ensures forall i :: 0 <= i < LeadingSpaces(s) ==> IsSpace(s[i])
    ensures forall i :: LeadingSpaces(s) + |r| <= i < |s| ==> IsSpace(s[i])
    ensures (forall i :: 0 <= i < |s| ==> IsSpace(s[i])) <==> r == []
  {
    var a := LeadingSpaces(s);
    var t := s[a..];
    var b := TrailingSpaces(t);
    t[..|t| - b]
  }

  lemma TrimIdempotent(s: string)
    ensures Trim(Trim(s)) == Trim(s)
  {
    var r := Trim(s);
    assert LeadingSpaces(r) == 0;
    assert TrailingSpaces(r) == 0;
  }

  lemma TrimOfTrimmed(s: string)
    requires IsTrimmed(s)
    ensures Trim(s) == s
  {
    assert LeadingSpaces(s) == 0;
    assert TrailingSpaces(s) == 0;
  }

  /** A string with no character `c` stays without `c` once trimmed. */
  lemma TrimKeepsAbsence(s: string, c: char)
    requires c !in s
    ensures c !in Trim(s)
  {
  }

  // ---------------------------------------------------------------------------
  // split / join on one character

  /** `s.split(c)` for a one-character separator. */
  function Split(s: string, c: char): (r: seq<string>)
    ensures |r| >= 1
    ensures forall k :: 0 <= k < |r| ==> c !in r[k]
    decreases |s|
  {
    var i := IndexOf(s, [c], 0);
    if i.None? then
      assert forall j :: 0 <= j < |s| ==> s[j] != c by {
        forall j | 0 <= j < |s| ensures s[j] != c {
          assert !StartsWith(s[j..], [c]);
        }
      }
      [s]
    else
      var n := i.value;
      assert n < |s| && s[n] == c by {
        assert StartsWith(s[n..], [c]);
      }
      assert c !in s[..n] by {
        forall j | 0 <= j < n ensures s[j] != c {
          assert !StartsWith(s[j..], [c]);
        }
      }
      [s[..n]] + Split(s[n + 1..], c)
  }

  /** The first piece of a split is the text up to the first separator. */
  lemma SplitHead(s: string, c: char)
    ensures StartsWith(s, Split(s, c)[0])
    ensures |Split(s, c)[0]| < |s| ==> s[|Split(s, c)[0]|] == c
    ensures c !in s ==> Split(s, c)[0] == s
  {
    var i := IndexOf(s, [c], 0);
    if i.Some? {
      assert StartsWith(s[i.value..], [c]);
    } else {
      forall j | 0 <= j < |s| ensures s[j] != c {
        assert !StartsWith(s[j..], [c]);
      }
    }
  }

  /** A separator in `s` splits it into at least two parts. */
  lemma SplitOneSeparator(s: string, c: char, j: nat)
    requires j < |s| && s[j] == c
    ensures |Split(s, c)| >= 2
  {
    assert s[j..][..1] == [c];
  }

  /** Two separators in `s` split it into at least three parts. */
  lemma SplitTwoSeparators(s: string, c: char, i: nat, j: nat)
    requires i < j < |s| && s[i] == c && s[j] == c
    ensures |Split(s, c)| >= 3
  {
    assert s[i..][..1] == [c];
    var n := IndexOf(s, [c], 0).value;
    assert n <= i;
    var rest := s[n + 1..];
    assert rest[j - n - 1] == c;
    SplitOneSeparator(rest, c, j - n - 1);
  }

  /** `parts.join(c)`. */
  function Join(parts: seq<string>, c: char): string
  {
    if |parts| == 0 then []
    else if |parts| == 1 then parts[0]
    else parts[0] + [c] + Join(parts[1..], c)
  }

  lemma {:induction false} JoinSplit(s: string, c: char)
    ensures Join(Split(s, c), c) == s
    decreases |s|
  {
    var i := IndexOf(s, [c], 0);
    if i.Some? {
      var n := i.value;
      assert StartsWith(s[n..], [c]);
      JoinSplit(s[n + 1..], c);
      assert s == s[..n] + [c] + s[n + 1..];
    }
  }

  lemma {:induction false} SplitJoin(parts: seq<string>, c: char)
    requires |parts| >= 1
    requires forall k :: 0 <= k < |parts| ==> c !in parts[k]
    ensures Split(Join(parts, c), c) == parts
    decreases |parts|
  {
    if |parts| == 1 {
      SplitWithoutSeparator(parts[0], c);
    } else {
      SplitAtFirst(parts[0], Join(parts[1..], c), c);
      SplitJoin(parts[1..], c);
      assert parts == [parts[0]] + parts[1..];
    }
  }

  lemma SplitWithoutSeparator(s: string, c: char)
    requires c !in s
    ensures Split(s, c) == [s]
  {
    forall j | 0 <= j <= |s| ensures !StartsWith(s[j..], [c]) {
      if j < |s| {
        assert s[j..][..1] == [s[j]];
      }
    }
  }

  /** Text free of the separator, the separator, then anything: the first part is that text. */
  lemma SplitAtFirst(p0: string, rest: string, c: char)
    requires c !in p0
    ensures Split(p0 + [c] + rest, c) == [p0] + Split(rest, c)
  {
    var s := p0 + [c] + rest;
    assert StartsWith(s[|p0|..], [c]) by {
      assert s[|p0|..][..1] == [c];
    }
    forall j | 0 <= j < |p0| ensures !StartsWith(s[j..], [c]) {
      assert s[j..][0] == s[j] == p0[j];
    }
    IndexOfFirst(s, [c], 0, |p0|);
    assert s[..|p0|] == p0;
    assert s[|p0| + 1..] == rest;
  }

  /** IndexOf finds exactly the first occurrence. */
  lemma IndexOfFirst(s: string, p: string, from: nat, n: nat)
    requires from <= n <= |s| && StartsWith(s[n..], p)
    requires forall j :: from <= j < n ==> !StartsWith(s[j..], p)
    ensures IndexOf(s, p, from) == Some(n)
    decreases n - from
  {
    if from < n {
      IndexOfFirst(s, p, from + 1, n);
    }
  }

  /** Lines of a text: `s.split('\n')`. */
  function Lines(s: string): seq<string> {
    Split(s, '\n')
  }

  // ---------------------------------------------------------------------------
  // character-level rewriting

  /** Every occurrence of `c` replaced by `w` (a global one-character replace). */
  function ReplaceChar(s: string, c: char, w: string): (r: string)
    ensures c !in w ==> c !in r
    ensures c !in s ==> r == s
  {
    if |s| == 0 then []
    else (if s[0] == c then w else [s[0]]) + ReplaceChar(s[1..], c, w)
  }

  lemma {:induction false} ReplaceCharAppend(a: string, b: string, c: char, w: string)
    ensures ReplaceChar(a + b, c, w) == ReplaceChar(a, c, w) + ReplaceChar(b, c, w)
    decreases |a|
  {
    if |a| > 0 {
      assert (a + b)[1..] == a[1..] + b;
      ReplaceCharAppend(a[1..], b, c, w);
    } else {
      assert a + b == b;
    }
  }

  /** `parts.join(w)` for a separator string. */
  function JoinBy(parts: seq<string>, w: string): string
  {
    if |parts| == 0 then []
    else if |parts| == 1 then parts[0]
    else parts[0] + w + JoinBy(parts[1..], w)
  }

  /** Replacing every `c` by `w` is splitting on `c` and joining with `w`. */
  lemma ReplaceCharSplitJoin(s: string, c: char, w: string)
    ensures ReplaceChar(s, c, w) == JoinBy(Split(s, c), w)
  {
    JoinSplit(s, c);
    ReplaceCharJoin(Split(s, c), c, w);
  }

  lemma {:induction false} ReplaceCharJoin(parts: seq<string>, c: char, w: string)
    requires forall k :: 0 <= k < |parts| ==> c !in parts[k]
    ensures ReplaceChar(Join(parts, c), c, w) == JoinBy(parts, w)
    decreases |parts|
  {
    if |parts| >= 2 {
      var rest := Join(parts[1..], c);
      ReplaceCharJoin(parts[1..], c, w);
      ReplaceCharAppend(parts[0] + [c], rest, c, w);
      ReplaceCharAppend(parts[0], [c], c, w);
      assert ReplaceChar([c], c, w) == w by {
        assert [c][1..] == [];
      }
    }
  }

  /** Every character in `drop` removed (a global character-class replace by ''). */
  function RemoveChars(s: string, drop: set<char>): (r: string)
    ensures forall i :: 0 <= i < |r| ==> r[i] !in drop
    ensures |r| <= |s|
    ensures (forall i :: 0 <= i < |s| ==> s[i] !in drop) ==> r == s
  {
    if |s| == 0 then []
    else (if s[0] in drop then [] else [s[0]]) + RemoveChars(s[1..], drop)
  }

  /** `s.replace(/\s+/g, ' ')`: every maximal whitespace run becomes one space. */
  function CollapseSpaces(s: string): (r: string)
    ensures forall i :: 0 <= i < |r| && IsSpace(r[i]) ==> r[i] == ' '
    ensures forall i :: 0 <= i < |r| - 1 ==> !(IsSpace(r[i]) && IsSpace(r[i + 1]))
    ensures |s| > 0 && IsSpace(s[0]) ==> |r| > 0 && r[0] == ' '
    ensures |s| > 0 && !IsSpace(s[0]) ==> |r| > 0 && r[0] == s[0]
    ensures forall i :: 0 <= i < |r| ==> r[i] == ' ' || r[i] in s
  {
    if |s| == 0 then []
    else if IsSpace(s[0]) then
      var n := LeadingSpaces(s);
      assert forall x :: x in s[n..] ==> x in s;
      [' '] + CollapseSpaces(s[n..])
    else
      assert forall x :: x in s[1..] ==> x in s;
      [s[0]] + CollapseSpaces(s[1..])
  }

  /** `.replace(/\s+/g, ' ').trim()`: no new characters besides the space, single spaces only, trimmed. */
  function Tidy(d: string): (r: string)
    ensures forall i :: 0 <= i < |r| ==> r[i] == ' ' || r[i] in d
    ensures IsTrimmed(r)
    ensures forall i :: 0 <= i < |r| && IsSpace(r[i]) ==> r[i] == ' '
    ensures forall i :: 0 <= i && i + 1 < |r| ==> !(r[i] == ' ' && r[i + 1] == ' ')
  {
    var e := CollapseSpaces(d);
    TrimKeepsSingleSpaces(e, d);
    Trim(e)
  }

  lemma TrimKeepsSingleSpaces(e: string, d: string)
    requires forall i :: 0 <= i < |e| ==> e[i] == ' ' || e[i] in d
    requires forall i :: 0 <= i < |e| && IsSpace(e[i]) ==> e[i] == ' '
    requires forall i :: 0 <= i < |e| - 1 ==> !(IsSpace(e[i]) && IsSpace(e[i + 1]))
    ensures var r := Trim(e);
      && (forall i :: 0 <= i < |r| ==> r[i] == ' ' || r[i] in d)
      && (forall i :: 0 <= i < |r| && IsSpace(r[i]) ==> r[i] == ' ')
      && (forall i :: 0 <= i && i + 1 < |r| ==> !(r[i] == ' ' && r[i + 1] == ' '))
  {
    var r := Trim(e);
    var lo := LeadingSpaces(e);
    forall i | 0 <= i < |r| ensures r[i] == e[lo + i] {
    }
  }

  lemma TidyKeepsAbsent(d: string, drop: set<char>)
    requires forall i :: 0 <= i < |d| ==> d[i] !in drop
    requires ' ' !in drop
    ensures forall i :: 0 <= i < |Tidy(d)| ==> Tidy(d)[i] !in drop
  {
    assert forall x :: x in d ==> x !in drop;
  }

  /** Joining lines and trimming adds no character other than a space. */
  lemma JoinTrimKeepsAbsent(s: string, drop: set<char>)
    requires forall i :: 0 <= i < |s| ==> s[i] !in drop
    requires ' ' !in drop
    ensures var r := Trim(CollapseNewlines(s));
      forall i :: 0 <= i < |r| ==> r[i] !in drop
  {
    var j := CollapseNewlines(s);
    assert forall x :: x in s ==> x !in drop;
    assert forall i :: 0 <= i < |j| ==> j[i] !in drop;
    TrimKeepsAbsentSet(j, drop);
  }

  lemma TrimKeepsAbsentSet(s: string, drop: set<char>)
    requires forall i :: 0 <= i < |s| ==> s[i] !in drop
    ensures forall i :: 0 <= i < |Trim(s)| ==> Trim(s)[i] !in drop
  {
    var r := Trim(s);
    var a := LeadingSpaces(s);
    forall i | 0 <= i < |r| ensures r[i] !in drop {
      assert r[i] == s[a + i];
    }
  }

  /** `s.replace(/\s+/g, '')`: every whitespace character removed. */
  function RemoveSpaces(s: string): (r: string)
    ensures forall i :: 0 <= i < |r| ==> !IsSpace(r[i])
    ensures |r| <= |s|
    ensures (forall i :: 0 <= i < |s| ==> !IsSpace(s[i])) ==> r == s
  {
    if |s| == 0 then []
    else if IsSpace(s[0]) then RemoveSpaces(s[1..])
    else [s[0]] + RemoveSpaces(s[1..])
  }

  lemma {:induction false} RemoveSpacesAppend(a: string, b: string)
    ensures RemoveSpaces(a + b) == RemoveSpaces(a) + RemoveSpaces(b)
    decreases |a|
  {
    if |a| > 0 {
      assert (a + b)[0] == a[0] && (a + b)[1..] == a[1..] + b;
      RemoveSpacesAppend(a[1..], b);
    } else {
      assert a + b == b;
    }
  }

  lemma {:induction false} RemoveSpacesOfSpaces(s: string)
    requires forall i :: 0 <= i < |s| ==> IsSpace(s[i])
    ensures RemoveSpaces(s) == []
    decreases |s|
  {
    if |s| > 0 {
      RemoveSpacesOfSpaces(s[1..]);
    }
  }

  /** Trimming first makes no difference once every space is removed. */
  lemma RemoveSpacesTrim(s: string)
    ensures RemoveSpaces(Trim(s)) == RemoveSpaces(s)
  {
    var pre, post := TrimParts(s);
    RemoveSpacesAround(pre, Trim(s), post);
  }

  /** A string is its trimmed middle between a blank prefix and a blank suffix. */
  lemma TrimParts(s: string) returns (pre: string, post: string)
    ensures s == pre + Trim(s) + post
    ensures forall i :: 0 <= i < |pre| ==> IsSpace(pre[i])
    ensures forall i :: 0 <= i < |post| ==> IsSpace(post[i])
  {
    var a := LeadingSpaces(s);
    var t := Trim(s);
    var b := a + |t|;
    assert t == s[a..b];
    pre, post := s[..a], s[b..];
    assert s == pre + t + post by {
      SplitThree(s, a, b);
    }
    assert forall i :: 0 <= i < |pre| ==> IsSpace(pre[i]) by {
      forall i | 0 <= i < |pre| ensures IsSpace(pre[i]) {
        assert pre[i] == s[i];
      }
    }
    assert forall i :: 0 <= i < |post| ==> IsSpace(post[i]) by {
      forall i | 0 <= i < |post| ensures IsSpace(post[i]) {
        assert post[i] == s[b + i];
      }
    }
  }

  lemma SplitThree(s: string, a: nat, b: nat)
    requires a <= b <= |s|
    ensures s == s[..a] + s[a..b] + s[b..]
  {
    assert s[..a] + s[a..b] == s[..b];
  }

  /** Blank text around `t` vanishes once spaces are removed. */
  lemma RemoveSpacesAround(pre: string, t: string, post: string)
    requires forall i :: 0 <= i < |pre| ==> IsSpace(pre[i])
    requires forall i :: 0 <= i < |post| ==> IsSpace(post[i])
    ensures RemoveSpaces(pre + t + post) == RemoveSpaces(t)
  {
    calc {
      RemoveSpaces(pre + t + post);
    == { RemoveSpacesSplit(pre, t, post); }
      RemoveSpaces(pre) + RemoveSpaces(t) + RemoveSpaces(post);
    == { RemoveSpacesOfSpaces(pre); RemoveSpacesOfSpaces(post); }
      [] + RemoveSpaces(t) + [];
    ==
      RemoveSpaces(t);
    }
  }

  lemma RemoveSpacesSplit(pre: string, t: string, post: string)
    ensures RemoveSpaces(pre + t + post) == RemoveSpaces(pre) + RemoveSpaces(t) + RemoveSpaces(post)
  {
    RemoveSpacesAppend(pre + t, post);
    RemoveSpacesAppend(pre, t);
  }

  /** `s.replace(/\n+/g, ' ')`: every maximal run of newlines becomes one space. */
  function CollapseNewlines(s: string): (r: string)
    ensures '\n' !in r
    ensures forall i :: 0 <= i < |r| ==> r[i] == ' ' || r[i] in s
    ensures '\n' !in s ==> r == s
    decreases |s|
  {
    if |s| == 0 then []
    else if s[0] == '\n' then
      var t := SkipNewlines(s[1..]);
      var r := CollapseNewlines(t);
      SuffixCharsWithin(s, t, r);
      [' '] + r
    else
      var r := CollapseNewlines(s[1..]);
      SuffixCharsWithin(s, s[1..], r);
      assert s[0] in s && s == [s[0]] + s[1..];
      [s[0]] + r
  }

  /** What stays within a suffix's characters (or spaces) stays within the whole's. */
  lemma SuffixCharsWithin(s: string, t: string, r: string)
    requires |t| <= |s| && t == s[|s| - |t|..]
    requires forall i :: 0 <= i < |r| ==> r[i] == ' ' || r[i] in t
    ensures forall i :: 0 <= i < |r| ==> r[i] == ' ' || r[i] in s
  {
    assert forall x :: x in t ==> x in s;
  }

  function SkipNewlines(s: string): (r: string)
    ensures |r| <= |s| && (|r| == 0 || r[0] != '\n')
    ensures r == s[|s| - |r|..]
  {
    if |s| > 0 && s[0] == '\n' then SkipNewlines(s[1..]) else s
  }

  /** `w.repeat(k)`. */
  function Repeat(w: string, k: nat): (r: string)
    ensures |r| == k * |w|
  {
    if k == 0 then [] else w + Repeat(w, k - 1)
  }

  /** ASCII-only lower-casing of one character. */
  function LowerChar(c: char): char {
    if 'A' <= c <= 'Z' then c - 'A' + 'a' else c
  }

  /** ASCII-only `toLowerCase`. */
  function AsciiLower(s: string): (r: string)
    ensures |r| == |s|
    ensures forall i :: 0 <= i < |s| ==> r[i] == LowerChar(s[i])
  {
    if |s| == 0 then [] else [LowerChar(s[0])] + AsciiLower(s[1..])
  }

  lemma AsciiLowerIdempotent(s: string)
    ensures AsciiLower(AsciiLower(s)) == AsciiLower(s)
  {
  }

  /** Lower-casing introduces no character that is not an upper-case letter's image. */
  lemma AsciiLowerKeepsAbsent(s: string, c: char)
    requires c !in s && !('a' <= c <= 'z')
    ensures c !in AsciiLower(s)
  {
    var r := AsciiLower(s);
    assert forall i :: 0 <= i < |r| ==> r[i] == LowerChar(s[i]) && s[i] != c;
  }

  /** A string without upper-case ASCII letters is its own lower case. */
  lemma AsciiLowerOfLower(s: string)
    requires forall i :: 0 <= i < |s| ==> !('A' <= s[i] <= 'Z')
    ensures AsciiLower(s) == s
  {
  }

  /** Case-insensitive (ASCII) comparison of `s` at `k` against a lower-case word. */
  predicate FoldedAt(s: string, k: nat, lowerWord: string) {
    k + |lowerWord| <= |s| && forall i :: k <= i < k + |lowerWord| ==> LowerChar(s[i]) == lowerWord[i - k]
  }

  predicate StartsWithFolded(s: string, lowerWord: string) {
    FoldedAt(s, 0, lowerWord)
  }

  /** A character that folds onto a lower-case letter is a letter, so not whitespace. */
  lemma FoldedLetterNotSpace(c: char)
    requires 'a' <= LowerChar(c) <= 'z'
    ensures !IsSpace(c)
  {
  }

  // ---------------------------------------------------------------------------
  // decimal numbers

  function DigitChar(d: nat): char
    requires d < 10
  {
    '0' + d as char
  }

  /** `String(n)` for a natural number. */
  function NatToString(n: nat): (r: string)
    ensures |r| >= 1 && AllDigits(r)
    ensures n >= 10 ==> r[0] != '0'
    ensures n < 10 <==> |r| == 1
    decreases n
  {
    if n < 10 then [DigitChar(n)] else NatToString(n / 10) + [DigitChar(n % 10)]
  }

  /** `parseInt(s, 10)` of a string of decimal digits. */
  function ParseNat(s: string): nat
    requires AllDigits(s)
  {
    if |s| == 0 then 0 else ParseNat(s[..|s| - 1]) * 10 + (s[|s| - 1] - '0') as nat
  }

  lemma {:induction false} ParseNatToString(n: nat)
    ensures ParseNat(NatToString(n)) == n
    decreases n
  {
    if n >= 10 {
      var r := NatToString(n);
      assert r[..|r| - 1] == NatToString(n / 10);
      ParseNatToString(n / 10);
    }
  }

  /** Distinct numbers are written differently. */
  lemma NatToStringInjective(a: nat, b: nat)
    requires NatToString(a) == NatToString(b)
    ensures a == b
  {
    ParseNatToString(a);
    ParseNatToString(b);
  }

  /** `String(i)` for any integer. */
  function IntToString(i: int): string {
    if i < 0 then "-" + NatToString(-i) else NatToString(i)
  }

  /** `Math.ceil(a / b)` for a positive divisor. */
  function CeilDiv(a: int, b: nat): (q: int)
    requires b > 0
    ensures (q - 1) * b < a <= q * b
  {
    -((-a) / b)
  }

  /** `s.padStart(2, '0')`. */
  function PadStart2(s: string): (r: string)
    ensures |s| >= 2 ==> r == s
    ensures |s| < 2 ==> |r| == 2
  {
    if |s| >= 2 then s else Repeat("0", 2 - |s|) + s
  }

  lemma {:induction false} ParseNatLeadingZero(d: string)
    requires AllDigits(d)
    ensures ParseNat("0" + d) == ParseNat(d)
    decreases |d|
  {
    if |d| > 0 {
      var z := "0" + d;
      assert z[..|z| - 1] == "0" + d[..|d| - 1];
      ParseNatLeadingZero(d[..|d| - 1]);
    } else {
      assert ("0" + d)[..0] == [];
    }
  }

  /** `String(n).padStart(2, '0')`: at least two digits, and still reads back as `n`. */
  function Pad2(n: nat): (r: string)
    ensures AllDigits(r) && |r| >= 2
    ensures n < 100 ==> |r| == 2
    ensures ParseNat(r) == n
  {
    var d := NatToString(n);
    ParseNatToString(n);
    if n < 10 then
      ParseNatLeadingZero(d);
      "0" + d
    else
      assert n < 100 ==> |d| == 2 by {
        if n < 100 {
          assert NatToString(n / 10) == [DigitChar(n / 10)];
        }
      }
      d
  }
}

=== FILE: utils.dfy ===
/**
 * The general helpers' content functions: a section-marker / JSON / Markdown
 * classifier and an image-URL harvester that merges markdown targets with
 * HTML `<img src>` targets.
 */
module Utils {
  import opened Text
  import opened Patterns
  import MP = MarkdownProcessor

  datatype Format = Structured | Json | Markdown

  /** One of the literal section markers of the older structured format. */
  predicate HasSectionMarker(s: string) {
    Contains(s, "[TITLE]") || Contains(s, "[DATE]") || Contains(s, "[CONTENT]") || Contains(s, "[IMAGE]")
  }

  /**
   * `detectContentFormat`. Whether `JSON.parse` succeeds with a non-null
   * object is the parameter `parsesToObject`; a parse failure counts as false.
   * The result is never an "unknown" format.
   */
  function DetectContentFormat(s: string, parsesToObject: string -> bool): (f: Format)
    ensures f == Structured <==> HasSectionMarker(s)
    ensures f == Json <==> !HasSectionMarker(s) && parsesToObject(s)
    ensures f == Markdown <==> !HasSectionMarker(s) && !parsesToObject(s)
  {
    if HasSectionMarker(s) then Structured
    else if parsesToObject(s) then Json
    else Markdown
  }

  /** A marker that begins with `[` can only occur where `s` has a `[`. */
  lemma MarkerNeedsBracket(s: string, m: string)
    requires forall i :: 0 < i < |s| ==> s[i] != '['
    requires |m| > 1 && m[0] == '['
    requires |s| < |m| || s[..|m|] != m
    ensures !Contains(s, m)
  {
    forall i | 0 <= i <= |s| ensures !StartsWith(s[i..], m) {
      if 0 < i < |s| {
        assert s[i..][0] != m[0];
      }
    }
  }

  /** The line token `[IMAGE:d]` of the newer format is not one of these markers. */
  lemma ImageTokenIsNotSectionMarker(d: string, parsesToObject: string -> bool)
    requires AllDigits(d)
    ensures !HasSectionMarker(ImageHead + d + "]")
    ensures DetectContentFormat(ImageHead + d + "]", parsesToObject) != Structured
  {
    var s := ImageHead + d + "]";
    forall i | 0 < i < |s| ensures s[i] != '[' {
      if 7 <= i < 7 + |d| {
        assert s[i] == d[i - 7];
      }
    }
    assert s[1] == 'I' && s[6] == ':';
    assert |s| < 7 || s[..7] != "[TITLE]" by { assert "[TITLE]"[1] == 'T'; }
    assert |s| < 6 || s[..6] != "[DATE]" by { assert "[DATE]"[1] == 'D'; }
    assert |s| < 9 || s[..9] != "[CONTENT]" by { assert "[CONTENT]"[1] == 'C'; }
    assert |s| < 7 || s[..7] != "[IMAGE]" by { assert "[IMAGE]"[6] == ']'; }
    MarkerNeedsBracket(s, "[TITLE]");
    MarkerNeedsBracket(s, "[DATE]");
    MarkerNeedsBracket(s, "[CONTENT]");
    MarkerNeedsBracket(s, "[IMAGE]");
  }

  // ---------------------------------------------------------------------------
  // image URL harvesting

  /** Appends each candidate not already present, in order. */
  function AppendAbsent(urls: seq<string>, cands: seq<string>): (r: seq<string>)
    ensures |urls| <= |r| && r[..|urls|] == urls
    ensures forall k :: |urls| <= k < |r| ==> r[k] in cands && r[k] !in r[..k]
    ensures forall c :: c in cands ==> c in r
    decreases |cands|
  {
    if |cands| == 0 then urls
    else if cands[0] in urls then AppendAbsent(urls, cands[1..])
    else
      var r := AppendAbsent(urls + [cands[0]], cands[1..]);
      assert r[..|urls|] == (r[..|urls| + 1])[..|urls|];
      assert r[|urls|] == cands[0];
      assert forall c :: c in cands[1..] ==> c in cands;
      r
  }

  /** Targets of every `![…](…)` (any scheme), in order. */
  function MarkdownTargets(s: string): (r: seq<string>)
    ensures |r| == |MatchesOf(MdImage, s)|
    ensures forall k :: 0 <= k < |r| ==> r[k] == MatchesOf(MdImage, s)[k].cap2
  {
    var ms := MatchesOf(MdImage, s);
    seq(|ms|, k requires 0 <= k < |ms| => ms[k].cap2)
  }

  /** Values of `<img … src="…"` or `src='…'`, in order. */
  function HtmlSources(s: string): (r: seq<string>)
    ensures |r| == |MatchesOf(ImgSrcAnyQuote, s)|
    ensures forall k :: 0 <= k < |r| ==> r[k] == MatchesOf(ImgSrcAnyQuote, s)[k].cap1
  {
    var ms := MatchesOf(ImgSrcAnyQuote, s);
    seq(|ms|, k requires 0 <= k < |ms| => ms[k].cap1)
  }

  /**
   * `extractImageUrls`: all markdown targets first, duplicates kept, then each
   * HTML source that is not yet listed. Every HTML source ends up in the list.
   */
  function ExtractImageUrls(s: string): (r: seq<string>)
    ensures |MarkdownTargets(s)| <= |r| && r[..|MarkdownTargets(s)|] == MarkdownTargets(s)
    ensures forall k :: |MarkdownTargets(s)| <= k < |r| ==> r[k] in HtmlSources(s) && r[k] !in r[..k]
    ensures forall u :: u in HtmlSources(s) ==> u in r
  {
    AppendAbsent(MarkdownTargets(s), HtmlSources(s))
  }

  /** Every markdown-derived URL precedes every URL that only an `<img>` tag supplied. */
  lemma MarkdownFirst(s: string, j: nat, k: nat)
    requires j < k < |ExtractImageUrls(s)|
    requires ExtractImageUrls(s)[j] !in MarkdownTargets(s)
    ensures ExtractImageUrls(s)[k] !in MarkdownTargets(s)
  {
    var r := ExtractImageUrls(s);
    var md := MarkdownTargets(s);
    assert forall i :: 0 <= i < |md| ==> r[i] in md;
    assert r[k] !in r[..k];
    assert r[..|md|] == r[..k][..|md|];
  }

  /** Markdown images are listed in order, each contributing its target. */
  lemma MarkdownTargetAt(pre: string, alt: string, url: string, rest: string)
    requires !Contains(pre + "!", "![")
    requires MP.PlainAlt(alt) && MP.PlainTarget(url)
    ensures MarkdownTargets(pre + MP.ImageSource(alt, url) + rest) == [url] + MarkdownTargets(rest)
  {
    var img := MP.ImageSource(alt, url);
    assert (img + rest)[..1] == "!";
    LiteralFreePrefix(MdImage, "![", pre, img + rest);
    assert pre + img + rest == pre + (img + rest);
    ReplaceSkipsPrefix(MdImage, pre, img + rest, MP.ImageRepl);
    MP.MdImageMatches(alt, url, rest);
    ReplaceAtMatch(MdImage, img, rest, MP.ImageRepl);
  }
}
